=== FILE: README.md ===
# OpenRank submission — a Dafny model of its core logic

The system is a Flask back end with a Vue front end. It caches OpenDigger
metric series (OpenRank, activity, bus factor) per repository and derives
several things from them:

- an ecosystem summary with a weighted health score, and a ranking of it;
- a contributor-concentration risk report;
- a category tree of the configured projects.

It also offers user registration and login, and per-user favourites (single
repository metrics and saved plans). Several endpoints are gated by an
in-memory sliding-window rate limiter. A start-up job synchronises every
configured repository and prunes the ones that upstream does not know.

This project models that logic as pure Dafny functions over immutable data
and proves properties of it. The limiter, the tables and both caches are
values passed in and returned. Time is integer seconds. Upstream answers,
configuration contents, file ages, the password hash and check, and the
square root are parameters.

| file | module | models |
|---|---|---|
| base.dfy | Base | `Option`, `Result` |
| json.dfy | Json | decoded JSON values, truthiness, Python's `float()` on them |
| text.dfy | Text | `strip`, `split`/`join`, `x or d`, string order, the refresh flag |
| sorting.dfy | Sorting | `sorted(...)` as an ordered permutation; the first `k` of it |
| rate_limiter.dfy | RateLimiter | `rate_limiter.py`: limiter, decorator, limit keys |
| metric_utils.dfy | MetricUtils | `metric_utils.py`: mean, variance, latest-n extraction, health score |
| models.dfy | Models | `models.py`: tables, unique constraints, defaults, decoding fallbacks |
| metric_cache.dfy | MetricCache | `fetch_and_cache_data_db` |
| summary.dfy | Summary | summary computation, its five-minute cache, the ranking endpoint, the batch job's summary |
| contributor_risk.dfy | ContributorRisk | the single and batch contributor-risk endpoints |
| category_tree.dfy | CategoryTree | `filter_tree` and the projects endpoint |
| data_sync.dfy | DataSync | `sync_opendigger_data`, `auto_cleanup_repos`, `should_sync`, `run_sync` |
| favorites_api.dfy | FavoritesApi | `api/favorites.py`: keys, add, remove, list |
| auth.dfy | Auth | `register` and `login` validation |
| favorites_store.dfy | FavoritesStore | the front end's favourites store, against the `FavoritesApi` model |

Notes on the code's behaviour:

- Two different filters decide which upstream keys count as months.
  - The endpoint cache keeps a seven-character key with exactly one dash.
  - The sync job keeps any seven-character key containing a dash.
  - `DataSync.LooseFilterIsLooser` states the difference between the two.
- `tail_n_values` is written with `[-n:]`, so it keeps everything when
  `n = 0`. See Findings.
- The client and the server build the same single-favourite key except when
  the platform is blank. `normalizeSingleInput` keeps `""` (`?? 'github'`
  only replaces null or undefined), so the client sends `single::…`. The
  server instead reads `"" or "github"` and would have derived
  `single:github:…`. `FavoritesStore.BlankPlatformKeysDiverge` states this,
  and `FavoritesStore.ClientKeyMatchesServerDefault` states that the keys
  agree otherwise.
- The batch risk endpoint's ladder (2/5) differs from the single report's
  (1.5/3/5/8). `ContributorRisk.LaddersDiffer` states this.

## Model

| member | source | states |
|---|---|---|
| RateLimiter.PruneKeepsWindow | backend/rate_limiter.py:41-43 | pruning a key's record never drops a timestamp later than the window start (and `Prune` keeps nothing at or before it) |
| RateLimiter.Check | backend/rate_limiter.py:36-53 | a call is admitted iff fewer than `max_requests` timestamps lie in the window; a rejection reports 0 remaining and appends nothing; an admission appends `now` and reports the quota left after it, never negative |
| RateLimiter.IsAllowed | backend/rate_limiter.py:24-53 | `is_allowed` decides on the key's own record, stores the pruned (and possibly extended) record under that key, and leaves every other key's record untouched |
| RateLimiter.FreshKeyAndZeroLimit | backend/rate_limiter.py:20-53 | an unseen key (the `defaultdict` empty list) admits its first call with `max_requests - 1` left; a limit of zero or less admits nothing |
| RateLimiter.QuietWindowAdmits | backend/rate_limiter.py:41-53 | once a whole window has passed since every recorded call, the next call is admitted with a full quota minus one and the record restarts at `now` |
| RateLimiter.Reset | backend/rate_limiter.py:55-58 | `reset` forgets exactly the given key; all other records are unchanged |
| RateLimiter.TraceRecord | backend/rate_limiter.py:36-53 | over any non-decreasing run of calls for a fresh key, the stored record equals exactly the admitted calls inside the window ending at the latest call |
| RateLimiter.TraceBound | backend/rate_limiter.py:45-53 | over any run of calls for a fresh key, the record never holds more than `max_requests` timestamps |
| RateLimiter.WindowAdmitsAtMostLimit | backend/rate_limiter.py:36-53 | over any run of calls for a fresh key, at most `max_requests` admitted calls fall in the window ending at the latest call |
| RateLimiter.WindowAdmitsFirstLimit | backend/rate_limiter.py:36-53 | when a fresh key's calls all fall within one window, exactly the first `max_requests` are admitted and every later one is rejected, and the record holds the admitted calls |
| RateLimiter.TwoPerMinuteScenario | backend/rate_limiter.py:36-53 | with 2 per 60 s, calls at 0, 0, 0, 60 are admitted, admitted, rejected, admitted |
| RateLimiter.Guard | backend/rate_limiter.py:93-114 | the decorator rejects exactly when the limiter does, with status 429, `RATE_LIMIT_EXCEEDED`, `Retry-After` and the zero-remaining headers; otherwise the handler's response keeps its body and every header other than the two limit headers, gains those two, and a bare return value passes through unchanged |
| RateLimiter.ClientAddress | backend/rate_limiter.py:88-90 | the client address is `X-Forwarded-For` else the peer address; a comma-separated list is cut to its trimmed first entry, which contains no comma |
| RateLimiter.UserKey | backend/rate_limiter.py:130-138 | a known identity gives a key starting `user:` and a failed lookup one starting `ip:`, each exactly when that branch is taken; either way the key ends in the endpoint, so users and addresses never share a quota |
| RateLimiter.DefaultKey | backend/rate_limiter.py:88-91 | the default key ends in the endpoint, and the address part before it holds no comma, so a proxy chain is keyed by its first hop |
| RateLimiter.UserAndAddressKeysDisjoint | backend/rate_limiter.py:130-138 | a per-user key never equals a fallback address key, so the two never share quota |
| RateLimiter.KeysSeparateEndpoints | backend/rate_limiter.py:91 | with colon-free endpoint names, `<address>:<endpoint>` strings that are equal name the same endpoint, whatever the addresses |
| RateLimiter.DefaultKeysSeparateEndpoints | backend/rate_limiter.py:88-91 | two default limit keys that coincide name the same endpoint, whatever the clients' addresses, so different endpoints never share quota |
| MetricUtils.Mean | backend/metric_utils.py:10-19 | the mean times the length is the sum of the values; an empty list gives 0.0 |
| MetricUtils.MeanBounds | backend/metric_utils.py:19 | the mean of a non-empty list lies between any lower and upper bound of its values |
| MetricUtils.MeanWithinRange | backend/metric_utils.py:19 | the mean lies between the least and the greatest value |
| MetricUtils.Variance | backend/metric_utils.py:22-34 | the variance under the square root of `std_population` is never negative and is 0.0 for an empty list |
| MetricUtils.ConstantHasNoSpread | backend/metric_utils.py:22-35 | a constant list has that constant as mean and zero variance, so zero standard deviation |
| MetricUtils.OneToTwelve | backend/metric_utils.py:22-35 | the values 1..12 have mean 6.5 and population variance 143/12 |
| MetricUtils.MaxOf | backend/api/opendigger.py:128-130 | the maximum is an element of the list and no element exceeds it |
| MetricUtils.MinOf | backend/api/opendigger.py:128-130 | the minimum is an element of the list and no element is below it |
| MetricUtils.SortByMonth | backend/metric_utils.py:59 | sorting by month (missing month sorts as "") yields an ordered permutation of the records |
| MetricUtils.LatestRecords | backend/metric_utils.py:58-62 | the latest `n` records: `min(n, len)` of the input's records, in month order, none earlier than a record left out |
| MetricUtils.Values | backend/metric_utils.py:65-72 | every extracted value is the numeric `count` of some record, every record whose `count` is a number contributes its value, and the result is empty exactly when no record has a numeric count |
| MetricUtils.ValuesAppend | backend/metric_utils.py:65-72 | extraction works record by record: the values of two lists back to back are the values of each, back to back, so the kept values keep their records' order |
| MetricUtils.ValuesSingle | backend/metric_utils.py:66-71 | a single record gives its numeric `count` and nothing when the count is missing or not a number |
| MetricUtils.TailNValuesAsWritten | backend/metric_utils.py:38-74 | the extraction as written: no records give no values |
| MetricUtils.TailNValuesZeroKeepsAll | backend/metric_utils.py:62 | as written, `n = 0` returns every record's value, because `[-0:]` is the whole list |
| MetricUtils.TailNValues | backend/metric_utils.py:38-74 | the corrected extraction: no records give no values, and never more than `n` values |
| MetricUtils.TailNValuesAreLatest | backend/metric_utils.py:58-74 | the corrected extraction returns exactly the values of the latest `n` records |
| MetricUtils.TailNValuesAgreeForPositiveN | backend/metric_utils.py:62 | for every positive `n` the extraction as written and the corrected one agree |
| MetricUtils.HealthScore | backend/metric_utils.py:77-101 | with no weights given the score is 0.5, 0.3 and 0.2 times the OpenRank, activity and stability components; components in [0, 1] give a score in [0, 1], and three perfect components give exactly 1 |
| MetricUtils.HealthScoreConvex | backend/metric_utils.py:94-101 | any non-negative weights summing to 1 keep the score in [0, 1] |
| MetricUtils.HealthScoreMonotone | backend/metric_utils.py:94-101 | raising any component never lowers the default-weighted score |
| Models.UpsertReadsBack | backend/models.py:101-105 | a series stored from a record list reads back as that list; one stored from text that does not parse or decodes to a falsy value reads back as `[]` |
| Models.NewSeriesRow | backend/models.py:93-95 | a new series row is stamped with the insertion time and, when no text is given, holds the `"[]"` default, which decodes to no records |
| Models.Upsert | backend/models.py:97-99 | writing a series under the `(platform, entity, repo, metric)` constraint replaces that one row's text and stamp, leaves every other row alone, and adds the key when absent |
| Models.UpsertGrowsByAtMostOne | backend/models.py:97-99 | the unique constraint keeps the table growing by one row only for a new key, never for a repeated one |
| Models.NewFavorite | backend/models.py:35-53 | omitted columns take the defaults kind `"single"`, platform `"github"` and empty payload; id, owner and key are kept |
| FavoritesApi.AddedPayloadReadsBack | backend/api/favorites.py:40-50 | a plan added with a truthy payload object reads that object back from the stored row through `to_dict`'s decoding; any other added row reads back `{}` |
| Models.InsertFavorite | backend/models.py:57-59 | the insert fails exactly when the user already holds that `uniq_key`; otherwise it appends the row, and the uniqueness invariant is preserved |
| MetricCache.MonthlyRecords | backend/api/opendigger.py:219-223 | the upstream document is reduced to `{"month", "count"}` records, each with a month-shaped key and a count, never more than the document's entries |
| MetricCache.MonthlyRecordsExact | backend/api/opendigger.py:219-223 | a record survives exactly when its key–value pair is in the document and the key passes the month filter |
| MetricCache.MonthOnlyDocumentKeepsAll | backend/api/opendigger.py:219-223 | a document whose every key is a month loses no entry |
| MetricCache.FetchAndCache | backend/api/opendigger.py:187-240 | a row younger than 24 hours is served as cached with the table unchanged, and only such a row is served as cached; on a miss the call succeeds exactly when upstream sent an object with some month-keyed entry, each upstream failure maps to its own error (404, 502, non-object, no monthly data) and leaves the table unchanged, and a success is uncached and writes the monthly records, stamped now, under the `repo or ""` key |
| MetricCache.RefreshThenCached | backend/api/opendigger.py:196-200 | a series just fetched is served from the table, unchanged, by every call within the next 24 hours, whatever upstream would answer |
| MetricCache.StaleRowRefetched | backend/api/opendigger.py:197-240 | a row at least 24 hours old no longer answers: for every upstream answer the result equals the one an empty table gives, and the row is kept on an error and overwritten on a success |
| Summary.SeriesValues | backend/api/opendigger.py:91-102 | a repository's series yields values exactly when its row is in the table, and never more than twelve of them |
| Summary.Measure | backend/api/opendigger.py:90-120 | a project is measured exactly when both its OpenRank and activity series are cached and both have a value in the latest twelve months |
| Summary.RawsHaveData | backend/api/opendigger.py:94-105 | every summarised project is a configured repository with data |
| Summary.RawsComplete | backend/api/opendigger.py:83-122 | every configured repository with data appears in the summary |
| Summary.RawsEmptyIffNoData | backend/api/opendigger.py:124-125 | the summary is empty exactly when no configured repository has data |
| Summary.ScaleOf | backend/api/opendigger.py:128-130 | each of the three scales is `max(...) or 1.0` of its figure: the attained maximum over the projects when that is non-zero, and 1.0 exactly when the maximum is zero |
| Summary.Normalize | backend/api/opendigger.py:132-141 | every project is scored once, in order, keeping its key and raw figures, and its health is the default-weighted score of mean/max OpenRank, activity/max activity and 1 - std/max std over those scales |
| Summary.ScoresInUnit | backend/api/opendigger.py:132-141 | non-negative figures put every health score in [0, 1] |
| Summary.DominantProjectScoresHigher | backend/api/opendigger.py:132-141 | within one summary, a project at least as large and active as another and no more volatile scores at least as high |
| Summary.LoneProjectScore | backend/api/opendigger.py:128-141 | a project alone in the summary scores 0.8 when its OpenRank varies and 1.0 when it is constant |
| Summary.ComputeSummary | backend/api/opendigger.py:53-147 | an unreadable configuration, an empty repository list and no usable project each give their own error; otherwise the normalised summary of the measurable projects, non-empty and no longer than the list |
| Summary.GenerateSummary | backend/data_fetcher.py:35-114 | the batch job writes something only when at least one project is summarised |
| Summary.BatchAgreesWithEndpoint | backend/data_fetcher.py:35-110 | the batch job writes exactly what the summary endpoint answers, and writes nothing exactly when the endpoint fails |
| Summary.SummaryCached | backend/api/opendigger.py:149-163 | a cache younger than 300 s answers unless forced; otherwise the summary is recomputed and, on success, stored with the time; a failure leaves the cache as it was |
| Summary.RecomputedSummaryIsServed | backend/api/opendigger.py:156-158 | a recomputed summary is what every unforced call within five minutes returns, whatever the configuration and the table say by then |
| Summary.SummaryEndpoint | backend/api/opendigger.py:322-328 | `refresh` set to 1/true/yes in any case recomputes; otherwise a fresh cache answers |
| Summary.SliceEnd | backend/api/opendigger.py:353 | Python's `[:top]` keeps `min(top, len)` items, and a negative `top` drops that many from the end |
| Summary.TopByMetric | backend/api/opendigger.py:344-353 | the ranking is in descending order of the metric, drawn from the summary, of the sliced length, and no project left out ranks above one kept; among projects with the same score the ranking keeps the earliest in summary order, in that order, as the stable `sorted` does |
| Summary.Rank | backend/api/opendigger.py:332-354 | an unknown metric is refused with the cache untouched; otherwise a summary failure is passed on, and a summary is ranked and cut to `top` (10 by default) |
| DataSync.LooseFilterIsLooser | backend/data_fetcher.py:222-226 | the sync job's month filter accepts every key the endpoint's accepts, and also keys such as "20-4-01" that the endpoint rejects |
| DataSync.SyncMetric | backend/data_fetcher.py:211-255 | a document with month entries replaces that one series, stamped now; any response without month entries (a 404, an error, a non-object, an empty document) leaves the table exactly as it was; no other series changes |
| DataSync.SyncRepo | backend/data_fetcher.py:206-255 | syncing one repository records exactly the metrics that came back 404, leaves other repositories' rows untouched, and leaves each series holding the records of the last of its metrics' responses with month entries, stamped now, or its earlier row when there was none |
| DataSync.SyncAll | backend/data_fetcher.py:206-255 | a failure set is recorded under the `org/repo` key of every configured repository and under no other key; every series holds the records of the last response, over repositories and metrics in order, that had month entries for it, stamped now, and a series no response wrote keeps its earlier row or stays absent |
| DataSync.LastWriteIsLast | backend/data_fetcher.py:206-244 | the write the run leaves on a series is that of a repository after which no configured repository writes to it |
| DataSync.LastWriteNone | backend/data_fetcher.py:206-244 | nothing is left written on a series exactly when no configured repository writes to it |
| DataSync.RepoWriteIsLast | backend/data_fetcher.py:211-244 | within one repository, the write left on a series is that of a metric after which no metric writes to it |
| DataSync.RepoWriteNone | backend/data_fetcher.py:211-244 | within one repository, nothing is written to a series exactly when no metric's response with month entries targets it |
| DataSync.SyncAllLastWins | backend/data_fetcher.py:206-209 | the set recorded under a key is that of the last repository with it, because each repository resets its key's set |
| DataSync.InvalidRepos | backend/data_fetcher.py:259-268 | a repository is invalid exactly when its key recorded a 404 for both core metrics |
| DataSync.BothCoreMissingIsInvalid | backend/data_fetcher.py:259-268 | a repository for which upstream had neither core series is judged invalid |
| DataSync.AnsweredCoreIsValid | backend/data_fetcher.py:259-268 | one core metric that did not come back 404 keeps the repository |
| DataSync.CleanConfig | backend/data_fetcher.py:143-157 | the cleaned configuration is a subsequence of the original, so order is kept, and each repository occurs in it as often as in the original when its `org/repo` is valid and not at all otherwise |
| DataSync.CleanStore | backend/data_fetcher.py:165-178 | every row of an invalid repository, matched with its platform, is deleted, and every other row stays unchanged |
| DataSync.SyncJob | backend/data_fetcher.py:186-277 | an unreadable configuration ends the run with nothing; otherwise the saved configuration is an order-preserving subsequence keeping every occurrence of the repositories not judged invalid and none of the others, the table is the synced table with every row of an invalid repository deleted, and the summary is rebuilt from the cleaned configuration and table |
| DataSync.NoRowsOfInvalidRepos | backend/data_fetcher.py:165-178 | after a run, no row of a repository judged invalid is left |
| DataSync.ShouldSync | backend/data_fetcher.py:279-295 | an empty or unreadable table or a missing summary file calls for a sync; otherwise the file must be older than the time-to-live |
| DataSync.RunSync | backend/data_fetcher.py:298-303 | the run is skipped exactly when not forced and no sync is called for |
| DataSync.FreshSummarySkips | backend/data_fetcher.py:291-303 | a summary file less than an hour old over a populated table skips the default 24-hour run |
| ContributorRisk.RecentSix | backend/api/opendigger.py:563 | the recent window is the last six of the twelve-month values, or all of them when there are fewer |
| ContributorRisk.TrendOf | backend/api/opendigger.py:570-584 | fewer than two values give an unknown trend; otherwise the later half's mean more than 10% above the earlier half's is improving, and more than 10% below (and not improving) is declining |
| ContributorRisk.FlatSeriesIsStable | backend/api/opendigger.py:570-581 | a flat non-negative bus factor is stable |
| ContributorRisk.HalvingIsDeclining | backend/api/opendigger.py:576-578 | six months that halve the bus factor are declining |
| ContributorRisk.LevelOf | backend/api/opendigger.py:587-611 | each level holds exactly on its band: critical at most 1.5, high above 1.5 up to 3, medium above 3 up to 5, low above 5 up to 8, healthy above 8 |
| ContributorRisk.RiskScore | backend/api/opendigger.py:587-616 | critical scores 0.95 and high 0.75; medium, low and healthy score 0.6, 0.35 and 0.2 when declining and 0.45, 0.2 and 0.05 otherwise; a worsening report adds 0.15 capped at 0.9; the score stays strictly between 0 and 1 |
| ContributorRisk.RiskFallsWithBusFactor | backend/api/opendigger.py:587-616 | a larger average bus factor never gives a more severe level or, for the same trend, a higher score |
| ContributorRisk.Assess | backend/api/opendigger.py:562-635 | the recent values are the last six of the latest twelve months; the six- and twelve-month averages are the means of those series, the trend is that of the recent values, the minimum and maximum are recent values bounding all of them, worsening holds exactly on a declining trend at a level milder than high, and level and score follow the average and trend |
| ContributorRisk.ContributorRisk | backend/api/opendigger.py:532-640 | the series is read through the cache; a fetch error is passed on, an empty series is a 404, and a non-empty series is answered with its assessment, naming `org/repo` and whether it was cached |
| ContributorRisk.BatchLevel | backend/api/opendigger.py:683-689 | the batch ladder: at most 2 is high with score 0.8, above 2 up to 5 is medium with 0.5, above 5 is low with 0.2 |
| ContributorRisk.BatchRiskFallsWithBusFactor | backend/api/opendigger.py:683-689 | a larger average never raises the batch score |
| ContributorRisk.LaddersDiffer | backend/api/opendigger.py:683-689 | the single and batch ladders disagree: 1 is critical alone but high in a batch, 9 healthy alone but low in a batch |
| ContributorRisk.WellFormedIffOneSlash | backend/api/opendigger.py:666-667 | an entry is well formed exactly when, stripped, it contains one slash |
| ContributorRisk.BatchOne | backend/api/opendigger.py:665-701 | each entry answers for its own project, is malformed exactly when it does not split into `org/repo`, and a malformed or failed entry leaves the table alone |
| ContributorRisk.BatchAssess | backend/api/opendigger.py:674-701 | a malformed entry is reported and leaves the table alone; a well-formed one fetches its bus-factor series, reports a failed fetch as failed, and otherwise reports the mean of the last six of the latest twelve values with the batch ladder's level and score for it |
| ContributorRisk.BatchAll | backend/api/opendigger.py:663-701 | one entry per project, in request order, each malformed exactly when its project is |
| ContributorRisk.BatchAllEntries | backend/api/opendigger.py:663-701 | the entry for the i-th project is the one step reports on the table left by the projects before it |
| ContributorRisk.BatchAllKeepsRows | backend/api/opendigger.py:663-701 | the batch only adds rows, and a batch of malformed entries leaves the table as it was |
| ContributorRisk.BatchRisk | backend/api/opendigger.py:643-703 | no projects and more than ten projects are refused with the table unchanged; otherwise every project gets its own entry in order, a bad one does not fail the request, and every assessed entry carries the batch ladder's level and score for its average |
| CategoryTree.FilterNode | backend/api/opendigger.py:500-515 | a surviving node keeps its name and value, and a surviving leaf is kept unchanged |
| CategoryTree.FilterTree | backend/api/opendigger.py:500-515 | the pruned forest never has more nodes than the input at any level |
| CategoryTree.ListedOnly | backend/api/opendigger.py:513 | every kept leaf is an input leaf whose value is a listed project |
| CategoryTree.FilterNodeKeepsListedLeaves | backend/api/opendigger.py:500-515 | a node's pruned form carries exactly its listed leaves, and a node that vanishes had none |
| CategoryTree.FilterKeepsListedLeaves | backend/api/opendigger.py:500-515 | the pruned forest's leaves are exactly the input's listed leaves, in order: no listed project is lost, none is added |
| CategoryTree.FilterNodeIsPruned | backend/api/opendigger.py:503-514 | a surviving node has only listed leaves and no empty category under it |
| CategoryTree.FilterIsPruned | backend/api/opendigger.py:503-514 | the pruned forest has only listed leaves and every category in it keeps a child |
| CategoryTree.PrunedIsFixed | backend/api/opendigger.py:500-515 | filtering a forest that is already pruned changes nothing |
| CategoryTree.FilterIdempotent | backend/api/opendigger.py:500-515 | pruning twice is pruning once |
| CategoryTree.ListedProjects | backend/api/opendigger.py:494-497 | the listed projects are exactly the `org/repo` names of the configured repositories, no more of them than repositories |
| CategoryTree.ProjectsEndpoint | backend/api/opendigger.py:479-526 | a missing or malformed configuration is a 500 and an empty tree a 404; otherwise the tree is the configured tree filtered to the listed projects, so it keeps exactly the listed leaves and is pruned, and `total_projects` counts the distinct listed names |
| FavoritesApi.CleanEntries | backend/api/favorites.py:16 | the compare key's entries are non-blank and never outnumber the input |
| FavoritesApi.CleanEntriesMembers | backend/api/favorites.py:16 | an entry survives exactly when it is the non-blank trim of some input entry |
| FavoritesApi.CleanEntriesPermutation | backend/api/favorites.py:16 | which entries survive does not depend on their order |
| FavoritesApi.CompareKey | backend/api/favorites.py:14-17 | the compare key is `compare:` followed by the cleaned entries, sorted ascending, joined by commas |
| FavoritesApi.SortedEntries | backend/api/favorites.py:16 | the cleaned entries come out in ascending order and as a permutation of the cleaned input |
| FavoritesApi.CompareKeyPermutationInvariant | backend/api/favorites.py:14-17 | the compare key names a set of repositories: reordering the input leaves it unchanged |
| FavoritesApi.CompareKeyIgnoresBlanks | backend/api/favorites.py:16 | a blank entry does not change the compare key |
| FavoritesApi.SingleKey | backend/api/favorites.py:19-20 | every single key starts with `single:` and has more after it |
| FavoritesApi.SingleKeyInjective | backend/api/favorites.py:19-20 | with colon-free platform and metric names the single key determines platform, repository and metric |
| FavoritesApi.NextId | backend/models.py:35 | the next primary key is positive and larger than every id in use |
| FavoritesApi.PlanRow | backend/api/favorites.py:39-51 | the plan path fails exactly on a blank `uniq_key`; otherwise the row is of kind plan with the stripped key, the stripped title defaulting to 收藏方案, and the payload or `{}` when it is falsy |
| FavoritesApi.SingleRow | backend/api/favorites.py:60-81 | the single path fails exactly when the stripped repository or metric is blank; otherwise the row holds them stripped, the platform defaulting to github, and the given key or the built single key |
| FavoritesApi.AddFavorite | backend/api/favorites.py:30-89 | a valid request for a key the caller does not hold appends one row owned by the caller with a fresh id; any error leaves the table unchanged; the kind and the validation error follow the stripped `kind`; uniqueness is preserved |
| FavoritesApi.RequestRow | backend/api/favorites.py:36-39 | only a stripped `kind` of exactly "plan" takes the plan path; anything else, including a missing kind, takes the single path |
| FavoritesApi.StoreRow | backend/api/favorites.py:52-87 | a built row is committed unless the caller already holds its key, which is refused with the table unchanged |
| FavoritesApi.DuplicateRefused | backend/api/favorites.py:55-87 | an add is refused as a duplicate exactly when the request is valid and the caller already holds its key |
| FavoritesApi.SecondAddIsDuplicate | backend/models.py:57-59 | sending the same valid request twice stores it once |
| FavoritesApi.FindOwned | backend/api/favorites.py:96 | the lookup finds the first row with that id owned by the caller, and nothing exactly when there is none |
| FavoritesApi.RemoveFavorite | backend/api/favorites.py:92-102 | a delete fails with 404 exactly when the caller owns no row with that id; otherwise exactly that row is removed |
| FavoritesApi.RemoveDeletesExactlyOne | backend/api/favorites.py:96-101 | with distinct ids, a delete removes the favourite and nothing else, so other users' rows are never touched |
| FavoritesApi.AddKeepsIdsDistinct | backend/models.py:35 | adding a favourite keeps the ids distinct |
| FavoritesApi.UserRows | backend/api/favorites.py:26 | the caller's rows are exactly the rows with the caller's `user_id` |
| FavoritesApi.ListFavorites | backend/api/favorites.py:22-27 | the listing holds exactly the caller's rows, each once, largest id first |
| Auth.EmailShapeIsPattern | backend/api/auth.py:54-56 | the left-to-right address test the model uses accepts exactly the strings matching `^[a-zA-Z0-9._%+-]+@[a-zA-Z0-9.-]+\.[a-zA-Z]{2,}$` (a cut into local part, `@`, domain, dot and a top level of two or more letters) |
| Auth.ShapeHasCut | backend/api/auth.py:54-56 | an address passing the left-to-right test matches the pattern |
| Auth.CutIsShape | backend/api/auth.py:54-56 | an address matching the pattern passes the left-to-right test, since a cut can only be at its one `@` and its last dot |
| Auth.UsernameHasNoAt | backend/api/auth.py:59-61 | a user name of the accepted shape contains no `@`, so login never reads it as an address |
| Auth.NextUserId | backend/models.py:11 | a new user's id is larger than every id in use |
| Auth.FirstProblem | backend/api/auth.py:45-67 | no problem is reported exactly when the fields are acceptable (all non-blank, a password of at least 8 characters, accepted address and user name shapes, neither in use); a blank field is reported exactly when one is blank; the address is reported taken exactly when every earlier check passes and it is in use |
| Auth.Register | backend/api/auth.py:39-78 | registration succeeds exactly when the trimmed fields are acceptable, and then appends exactly one user holding the trimmed name, the trimmed address and the hash of the trimmed password; a failure reports the first failing check and leaves the users unchanged; unique names and addresses stay unique |
| Auth.RegisterTrimmed | backend/api/auth.py:45-78 | on trimmed fields: success exactly on acceptable fields, the first failing check otherwise, with the stored hash that of the given password |
| Auth.CheckOrder | backend/api/auth.py:45-67 | the checks report in the endpoint's order: blank field, short password, bad address, bad user name, user name in use, address in use, and nothing when all pass |
| Auth.FirstUser | backend/api/auth.py:98-100 | `.first()` finds a user satisfying the filter, and nothing exactly when none does |
| Auth.Lookup | backend/api/auth.py:96-100 | an account with `@` is looked up by address and any other by user name; nothing is found exactly when no user has it |
| Auth.Login | backend/api/auth.py:88-106 | a blank account or password is refused first; an unknown account is "not found"; a found account whose hash does not check against the trimmed password is exactly the wrong-password case; a success is the user the lookup found, with a checking hash |
| Auth.RegisteredFields | backend/api/auth.py:40-78 | a successful registration stores the trimmed name and address, both of accepted shape and previously unused, with the hash of the trimmed password |
| Auth.RegisteredUserCanLogIn | backend/api/auth.py:39-122 | a user who just registered can log in with the same password under the user name and under the address |
| Auth.LookupAppended | backend/api/auth.py:96-100 | the newest user is found under a name or address no earlier user has |
| Auth.LoginFinds | backend/api/auth.py:88-106 | a found account whose hash checks against the trimmed password logs in as that user |
| FavoritesStore.NormKindIsStripped | frontend/src/stores/favorites.js:14 | the normalised kind is already trimmed, and it is empty exactly when a non-empty all-blank kind was given |
| FavoritesStore.NormKindAgreesWithServer | frontend/src/stores/favorites.js:14 | the client reads a request as a plan exactly when the server's `(kind or "single").strip()` does |
| FavoritesStore.Unshift | frontend/src/stores/favorites.js:43-48 | a favourite not yet listed (same id, or same non-empty key) goes to the front; otherwise the list is unchanged |
| FavoritesStore.UnshiftIdempotent | frontend/src/stores/favorites.js:43-48 | adding the same favourite twice lists it once |
| FavoritesStore.DropId | frontend/src/stores/favorites.js:33 | after a delete the list holds exactly the entries with another id |
| FavoritesStore.DropIdAppend | frontend/src/stores/favorites.js:33 | the kept entries keep their relative order |
| FavoritesStore.DropAbsentId | frontend/src/stores/favorites.js:33 | a list without that id comes back unchanged |
| FavoritesStore.Find | frontend/src/stores/favorites.js:74-80 | `find` returns the first entry satisfying the test, and nothing exactly when none does |
| FavoritesStore.NormalizeSingle | frontend/src/stores/favorites.js:53-72 | an object argument takes the first present of `full_name`, `fullName`, `repo`, trims repository, metric and platform (default github); two strings become repository and metric on github |
| FavoritesStore.EmptyNameShadowsRepo | frontend/src/stores/favorites.js:57 | `??` keeps an empty `full_name`, so a `repo` beside it is ignored and the input names no repository |
| FavoritesStore.IsFavorited | frontend/src/stores/favorites.js:82-86 | true exactly when repository and metric are non-blank and some listed entry of kind single (or legacy metric) has both |
| FavoritesStore.IsPlanKeyFavorited | frontend/src/stores/favorites.js:133-141 | true exactly when some listed entry of kind plan (or legacy compare) has the key |
| FavoritesStore.Remove | frontend/src/stores/favorites.js:30-39 | the list drops the id only when the server delete succeeds; a failure changes nothing |
| FavoritesStore.AddSingle | frontend/src/stores/favorites.js:88-113 | a blank repository or metric is refused locally; otherwise the store reports success exactly when the server accepts the normalised body, and then its new row goes to the front of the list; a failure changes nothing |
| FavoritesStore.ToggleSingle | frontend/src/stores/favorites.js:115-124 | a blank input is refused; a listed match is deleted through the server; with no listed match the toggle is exactly an add of the same input |
| FavoritesStore.SingleBodyRow | frontend/src/stores/favorites.js:95-103 | the server accepts the body for a normalised input, keeping repository, metric and the key sent |
| FavoritesStore.ClientKeyMatchesServerDefault | frontend/src/stores/favorites.js:97 | with a non-blank platform the key the client sends is the key the server would have derived itself |
| FavoritesStore.BlankPlatformKeysDiverge | frontend/src/stores/favorites.js:59 | with a blank platform the client sends `single::…` while the server stores platform github and would have derived `single:github:…` |
| FavoritesStore.NormalizedIsStripped | frontend/src/stores/favorites.js:53-72 | normalised repository, metric and platform have no surrounding blanks |
| FavoritesStore.RenormalizeIsIdentity | frontend/src/stores/favorites.js:123 | re-normalising the object `toggleSingle` passes on changes nothing |
| FavoritesStore.AcceptedSingleMatches | frontend/src/stores/favorites.js:74-107 | the row the server accepts for an `addSingle` body is found by the single lookup for that repository and metric |
| FavoritesStore.NewRowNotListed | frontend/src/stores/favorites.js:43-48 | a row the server has just created is not yet in a list that mirrors the user's rows, so it is put at the front |
| FavoritesStore.ToggleAddsWhenAbsent | frontend/src/stores/favorites.js:115-124 | toggling a favourite the list does not show succeeds exactly when the server accepts the normalised body, and afterwards the input is favourited |
| FavoritesStore.ToggleRemovesWhenPresent | frontend/src/stores/favorites.js:115-124 | toggling a favourite the list shows deletes it on the server and drops it from the list |
| FavoritesStore.SetField | frontend/src/stores/favorites.js:158 | after setting a payload key, reading it gives the value and reading any other key gives what it gave before |
| FavoritesStore.PlanRepos | frontend/src/stores/favorites.js:150-152 | the plan's repository list is always an array: `repos`, else `projects`, else empty |
| FavoritesStore.PlanPayload | frontend/src/stores/favorites.js:158 | reading `repos` or `projects` from the posted payload gives the repository list, and reading any other key gives what the caller's payload gave |
| FavoritesStore.AddPlan | frontend/src/stores/favorites.js:143-169 | a missing or empty key is refused locally, and a `null` payload fails before anything is sent; otherwise the store succeeds exactly when the server accepts the plan body (an `undefined` payload sent as `{}`), and then its row goes to the front; a failure changes nothing |
| FavoritesStore.TogglePlan | frontend/src/stores/favorites.js:171-175 | a listed plan with the key is deleted through the server; with a key and no listed plan the toggle is exactly `addPlan` with the same key, title and payload, `null` payload included |
| FavoritesStore.TogglePlanAddsWhenAbsent | frontend/src/stores/favorites.js:143-175 | toggling an unlisted plan with a `null` payload fails with nothing changed; with any other payload it posts the plan body with the key, title and payload (repositories under both names) and succeeds exactly when the server accepts it, after which the key is favourited |
| Text.Trim | backend/api/auth.py:40-42 | `strip()` is a slice of the input whose dropped head and tail are all white space and whose own ends are not, so only outer white space goes |
| Text.TrimEmptyIffAllSpace | backend/api/auth.py:45 | a field is blank after `strip()` exactly when it consists of white space only |
| Text.TrimIdempotent | backend/api/favorites.py:16 | stripping twice is stripping once |
| Text.TrimKeepsOut | backend/rate_limiter.py:90 | stripping never introduces a character that was not there |
| Text.Split | backend/api/opendigger.py:666 | `split` gives one more part than there are separators, none of them containing the separator |
| Text.SplitJoin | backend/api/opendigger.py:666 | joining the parts with the separator gives the text back |
| Text.FlagSpellings | backend/api/opendigger.py:326 | the refresh flag accepts "TRUE", "Yes" and "1" and rejects an absent flag, "on" and " 1" |
| Sorting.SortBy | backend/metric_utils.py:59 | `sorted` under a total preorder yields an ordered permutation of its input |
| Sorting.SortByStable | backend/api/opendigger.py:344-348 | sorting is stable: the elements of every tie class come out in their input order |
| Sorting.SortedUnique | backend/api/favorites.py:16 | under a total order there is only one ordered permutation, so the sorted list does not depend on input order |
| Sorting.SortByPermutationInvariant | backend/api/favorites.py:16 | sorting two permutations of the same entries gives the same list |
| Sorting.SmallestK | backend/api/opendigger.py:344-353 | the first `k` of a sorted list are `k` of the input, in order, none ranking after a left-out one, and of each group of ties they are the earliest in input order |

## Left out

- HTTP transport, Flask blueprints, JSON responses, the `requests` call (timeout, certificate check) and the JWT decorators are left out. Upstream outcomes and request bodies are datatypes.
- Handler invocation is abstracted: the wrapped handler's result is a parameter of `RateLimiter.Guard`.
- The SQLAlchemy session, commits and rollbacks are left out. Each table is a value. An insert under a unique constraint either fails, leaving the table unchanged, or appends.
- The ORM may skip restamping `updated_at` when an upsert writes an identical payload. The model always restamps.
- The limiter's lock and the background sync thread are left out, because every call is modelled as atomic and sequential.
- Floating point is modelled as `real`. `math.sqrt` is a parameter of the summary, and the model reasons about the variance under it. No `round(...)` is applied: not to the health score nor to the reported means and risk figures.
- `float(value)` on a JSON string that spells a number (such as `"3.5"`) would succeed in Python. The model skips every string value.
- Non-string request fields and non-object JSON bodies are left out. Request fields are modelled as strings or absent.
- FavoritesStore.AddPlan: a `null` payload makes the client's `payload.repos` throw, so the asynchronous call rejects instead of resolving to `false`; the model reports a failed add with nothing sent and nothing changed, and a payload that is not an object is not modelled.
- Text.Trim: the white-space set is that of Python's `str.isspace`. The front-end store's JavaScript `trim()` differs slightly: it also strips U+FEFF, and it keeps U+001C–U+001F and U+0085, which the model strips on both sides.
- Password hashing and checking are parameters (`hash`, `check`). Token creation, `GET /auth/me` and JWT identity decoding are left out; the signed-in user's id is a parameter.
- Reading and writing `config.json`, the `.bak` copy, the summary file `llm_summary.json` and its modification time are left out. Their contents and age are parameters, and the summary file's contents are the value `GenerateSummary` returns.
- The report endpoint (`/llm/report`, the OpenAI call and its text template) is left out, because it is text generation around a foreign call.
- The metadata endpoints (platforms, entities, metrics, repos) and the two data endpoints' validation through `metadata.py` are left out. `metadata.py` is not part of this model; only the cache they call is modelled.
- `check_repos.py`, `main.py`, `extensions.py`, the front end's API client, router and auth store are left out, because they are wiring, network probing or browser storage.
- The front end's asynchronous calls, `alert`s, `fetchFavorites` and `clear` are left out. The store model covers the list updates that follow a server answer.
- MetricUtils.HealthScore: the contract omits `round(score, 4)`, because rounding is not modelled.
- MetricUtils.Variance: the contract states non-negativity and the empty case, not the square root `std_population` takes of it.

## Findings

| source | as written | input that shows it | evidently intended | confidence | as-written member | corrected member |
|---|---|---|---|---|---|---|
| backend/metric_utils.py:62 | `sorted_records[-n:]` keeps every record when `n` is 0, because `-0` is `0` | `tail_n_values([{"month": "2024-01", "count": 5}], n=0)` gives `[5.0]` | the values of the latest `min(n, len)` records, so none for `n = 0` | not executed; every caller passes `n = 12`, where both agree | MetricUtils.TailNValuesAsWritten (shown by MetricUtils.TailNValuesZeroKeepsAll) | MetricUtils.TailNValues (MetricUtils.TailNValuesAreLatest, MetricUtils.TailNValuesAgreeForPositiveN) |

=== FILE: auth.dfy ===
/** Registration and login: the registration validator's checks in their
    order, the account shapes it accepts, and the login's choice between
    e-mail and user-name lookup. Password hashing is a pair of parameters
    (`hash` and `check`); tokens are not modelled. */
module Auth {
  import opened Base
  import opened Text
  import opened Models

  const MinPasswordLength := 8
  const MinUsernameLength := 3
  const MaxUsernameLength := 32
  const MinTopLevelLength := 2

  // ---------------------------------------------------------------------
  // Character classes

  predicate IsLetter(c: char) {
    'a' <= c <= 'z' || 'A' <= c <= 'Z'
  }

  predicate IsAlnum(c: char) {
    IsLetter(c) || '0' <= c <= '9'
  }

  /** `[a-zA-Z0-9._%+-]`: the characters of an address's local part. */
  predicate IsLocalChar(c: char) {
    IsAlnum(c) || c in "._%+-"
  }

  /** `[a-zA-Z0-9.-]`: the characters of a domain. */
  predicate IsDomainChar(c: char) {
    IsAlnum(c) || c in ".-"
  }

  /** `[a-zA-Z0-9_]`: the characters of a user name. */
  predicate IsNameChar(c: char) {
    IsAlnum(c) || c == '_'
  }

  predicate All(s: string, p: char -> bool) {
    forall i :: 0 <= i < |s| ==> p(s[i])
  }

  /** Position of the last occurrence of `c`. */
  function LastIndexOf(s: string, c: char): (i: nat)
    requires c in s
    ensures i < |s| && s[i] == c && c !in s[i + 1..]
  {
    if s[|s| - 1] == c then |s| - 1
    else
      assert c in s[..|s| - 1] by {
        var j :| 0 <= j < |s| && s[j] == c;
        assert s[..|s| - 1][j] == c;
      }
      var i := LastIndexOf(s[..|s| - 1], c);
      assert s[i + 1..] == s[..|s| - 1][i + 1..] + [s[|s| - 1]];
      i
  }

  // ---------------------------------------------------------------------
  // Shapes

  /** The domain after the `@`: domain characters throughout, a last dot
      that is not the first character, and at least two letters after it. */
  predicate DomainShape(d: string) {
    && All(d, IsDomainChar)
    && '.' in d
    && var k := LastIndexOf(d, '.');
       && k >= 1
       && |d| - (k + 1) >= MinTopLevelLength
       && All(d[k + 1..], IsLetter)
  }

  /** The address test, read left to right: a non-empty local part before
      the first `@`, and a domain of the shape above after it. */
  predicate EmailShape(e: string) {
    '@' in e && SplitShape(e, IndexOf(e, '@'))
  }

  /** The parts on either side of position `i`. */
  predicate SplitShape(e: string, i: nat)
    requires i < |e|
  {
    && i >= 1
    && All(e[..i], IsLocalChar)
    && DomainShape(e[i + 1..])
  }

  /** The pattern `^[a-zA-Z0-9._%+-]+@[a-zA-Z0-9.-]+\.[a-zA-Z]{2,}$` as a
      search for a way to cut the address into its four parts. */
  ghost predicate EmailPattern(e: string) {
    exists i, k :: && 0 < i && i + 1 < k < |e| - MinTopLevelLength
                   && e[i] == '@' && e[k] == '.'
                   && All(e[..i], IsLocalChar)
                   && All(e[i + 1..k], IsDomainChar)
                   && All(e[k + 1..], IsLetter)
  }

  lemma AllSlice(s: string, p: char -> bool, a: nat, b: nat)
    requires a <= b <= |s| && All(s, p)
    ensures All(s[a..b], p)
  {
    forall j | 0 <= j < b - a ensures p(s[a..b][j]) {
      assert s[a..b][j] == s[a + j];
    }
  }

  /** Direction 1: an address of the left-to-right shape has a cut. */
  lemma ShapeHasCut(e: string)
    requires EmailShape(e)
    ensures EmailPattern(e)
  {
    var i := IndexOf(e, '@');
    assert SplitShape(e, i);
    var d := e[i + 1..];
    var k := LastIndexOf(d, '.');
    AllSlice(d, IsDomainChar, 0, k);
    SuffixCut(e, i + 1, i + 1 + k);
    PatternAt(e, i, i + 1 + k);
  }

  lemma PatternAt(e: string, i: nat, k: nat)
    requires && 0 < i && i + 1 < k < |e| - MinTopLevelLength
             && e[i] == '@' && e[k] == '.'
             && All(e[..i], IsLocalChar)
             && All(e[i + 1..k], IsDomainChar)
             && All(e[k + 1..], IsLetter)
    ensures EmailPattern(e)
  {
  }

  lemma FirstAt(e: string, c: char, i: nat)
    requires i < |e| && e[i] == c && c !in e[..i]
    ensures IndexOf(e, c) == i
  {
  }

  lemma LastAt(d: string, c: char, k: nat)
    requires k < |d| && d[k] == c && c !in d[k + 1..]
    ensures LastIndexOf(d, c) == k
  {
  }

  lemma AllNotIn(s: string, p: char -> bool, c: char)
    requires All(s, p) && !p(c)
    ensures c !in s
  {
  }

  lemma AllAround(s: string, p: char -> bool, k: nat)
    requires k < |s| && All(s[..k], p) && p(s[k]) && All(s[k + 1..], p)
    ensures All(s, p)
  {
    forall j | 0 <= j < |s| ensures p(s[j]) {
      if j < k {
        assert s[j] == s[..k][j];
      } else if j > k {
        assert s[j] == s[k + 1..][j - k - 1];
      }
    }
  }

  /** Direction 2: a cut can only be at the one `@` and the last dot, so
      an address with a cut has the left-to-right shape. */
  lemma CutIsShape(e: string)
    requires EmailPattern(e)
    ensures EmailShape(e)
  {
    var i, k :| && 0 < i && i + 1 < k < |e| - MinTopLevelLength
                && e[i] == '@' && e[k] == '.'
                && All(e[..i], IsLocalChar)
                && All(e[i + 1..k], IsDomainChar)
                && All(e[k + 1..], IsLetter);
    CutAt(e, i, k);
  }

  lemma CutAt(e: string, i: nat, k: nat)
    requires && 0 < i && i + 1 < k < |e| - MinTopLevelLength
             && e[i] == '@' && e[k] == '.'
             && All(e[..i], IsLocalChar)
             && All(e[i + 1..k], IsDomainChar)
             && All(e[k + 1..], IsLetter)
    ensures EmailShape(e)
  {
    AllNotIn(e[..i], IsLocalChar, '@');
    FirstAt(e, '@', i);
    SuffixCut(e, i + 1, k);
    DomainCut(e[i + 1..], k - (i + 1));
    ShapeFromParts(e, i);
  }

  lemma SuffixCut(e: string, j: nat, k: nat)
    requires j <= k < |e|
    ensures e[j..][..k - j] == e[j..k] && e[j..][k - j + 1..] == e[k + 1..]
  {
  }

  lemma ShapeFromParts(e: string, i: nat)
    requires 1 <= i < |e| && e[i] == '@' && IndexOf(e, '@') == i
    requires All(e[..i], IsLocalChar) && DomainShape(e[i + 1..])
    ensures EmailShape(e)
  {
    assert '@' in e;
    assert SplitShape(e, i);
  }

  lemma DomainCut(d: string, k: nat)
    requires 1 <= k < |d| - MinTopLevelLength && d[k] == '.'
    requires All(d[..k], IsDomainChar) && All(d[k + 1..], IsLetter)
    ensures DomainShape(d)
  {
    AllNotIn(d[k + 1..], IsLetter, '.');
    LastAt(d, '.', k);
    assert All(d[k + 1..], IsDomainChar);
    AllAround(d, IsDomainChar, k);
  }

  /** The two readings of the address pattern agree. */
  lemma EmailShapeIsPattern(e: string)
    ensures EmailShape(e) <==> EmailPattern(e)
  {
    if EmailShape(e) { ShapeHasCut(e); }
    if EmailPattern(e) { CutIsShape(e); }
  }

  /** `^[a-zA-Z0-9_]{3,32}$`. */
  predicate UsernameShape(u: string) {
    MinUsernameLength <= |u| <= MaxUsernameLength && All(u, IsNameChar)
  }

  /** A well-formed user name is never read as an address at login. */
  lemma UsernameHasNoAt(u: string)
    requires UsernameShape(u)
    ensures '@' !in u
  {
  }

  // ---------------------------------------------------------------------
  // Registration

  datatype RegisterError =
    | MissingField
    | PasswordTooShort
    | BadEmail
    | BadUsername
    | UsernameTaken
    | EmailTaken
  {
    function Status(): int { 400 }
  }

  predicate UsernameInUse(users: seq<User>, name: string) {
    exists i :: 0 <= i < |users| && users[i].username == name
  }

  predicate EmailInUse(users: seq<User>, email: string) {
    exists i :: 0 <= i < |users| && users[i].email == email
  }

  function NextUserId(users: seq<User>): (id: int)
    ensures forall i :: 0 <= i < |users| ==> users[i].id < id
  {
    if users == [] then 1
    else
      var rest := NextUserId(users[1..]);
      assert forall i :: 1 <= i < |users| ==> users[i] == users[1..][i - 1];
      if users[0].id + 1 > rest then users[0].id + 1 else rest
  }

  /** Fields every check accepts: all present, a long enough password,
      well-formed address and name, neither already registered. */
  predicate Acceptable(users: seq<User>, username: string, email: string, password: string) {
    && username != "" && email != "" && password != ""
    && |password| >= MinPasswordLength && EmailShape(email) && UsernameShape(username)
    && !UsernameInUse(users, username) && !EmailInUse(users, email)
  }

  /** The first failing check, in the endpoint's order, or `None`. All
      three fields are already trimmed. */
  function FirstProblem(users: seq<User>, username: string, email: string, password: string): (p: Option<RegisterError>)
    ensures p == Some(MissingField) <==> username == "" || email == "" || password == ""
    ensures p.None? <==> Acceptable(users, username, email, password)
    ensures p == Some(EmailTaken) <==>
      && username != "" && email != "" && password != ""
      && |password| >= MinPasswordLength && EmailShape(email) && UsernameShape(username)
      && !UsernameInUse(users, username) && EmailInUse(users, email)
  {
    if username == "" || email == "" || password == "" then Some(MissingField)
    else if |password| < MinPasswordLength then Some(PasswordTooShort)
    else if !EmailShape(email) then Some(BadEmail)
    else if !UsernameShape(username) then Some(BadUsername)
    else if UsernameInUse(users, username) then Some(UsernameTaken)
    else if EmailInUse(users, email) then Some(EmailTaken)
    else None
  }

  /** `register`: the trimmed fields are checked in order and the first
      failure is reported; otherwise one user is appended. */
  function Register(users: seq<User>, username: Option<string>, email: Option<string>, password: Option<string>,
                    hash: string -> string): (out: (Result<User, RegisterError>, seq<User>))
    ensures out.0.Err? ==> out.1 == users
    ensures out.0.Ok? ==> out.1 == users + [out.0.value]
    ensures out.0.Ok? ==> && out.0.value.username == Trim(Or(username, ""))
                          && out.0.value.email == Trim(Or(email, ""))
                          && out.0.value.passwordHash == hash(Trim(Or(password, "")))
    ensures out.0.Ok? <==> FirstProblem(users, Trim(Or(username, "")), Trim(Or(email, "")), Trim(Or(password, ""))).None?
    ensures out.0.Ok? <==> Acceptable(users, Trim(Or(username, "")), Trim(Or(email, "")), Trim(Or(password, "")))
    ensures out.0.Err? ==> Some(out.0.error) == FirstProblem(users, Trim(Or(username, "")), Trim(Or(email, "")), Trim(Or(password, "")))
    ensures UniqueUsers(users) ==> UniqueUsers(out.1)
  {
    RegisterTrimmed(users, Trim(Or(username, "")), Trim(Or(email, "")), Trim(Or(password, "")), hash)
  }

  /** Registration once the fields are trimmed. */
  function RegisterTrimmed(users: seq<User>, u: string, e: string, p: string,
                           hash: string -> string): (out: (Result<User, RegisterError>, seq<User>))
    ensures out.0.Err? ==> out.1 == users
    ensures out.0.Ok? ==> out.1 == users + [out.0.value]
    ensures out.0.Ok? ==> out.0.value.username == u && out.0.value.email == e && out.0.value.passwordHash == hash(p)
    ensures out.0.Ok? <==> FirstProblem(users, u, e, p).None?
    ensures out.0.Ok? <==> Acceptable(users, u, e, p)
    ensures out.0.Err? ==> Some(out.0.error) == FirstProblem(users, u, e, p)
    ensures UniqueUsers(users) ==> UniqueUsers(out.1)
  {
    match FirstProblem(users, u, e, p)
    case Some(err) => (Err(err), users)
    case None =>
      var user := User(NextUserId(users), u, e, hash(p));
      assert forall i :: 0 <= i < |users| ==> users[i].username != u && users[i].email != e;
      (Ok(user), users + [user])
  }

  /** Emptiness is reported before anything else, and a short password
      before the address and name shapes. */
  lemma CheckOrder(users: seq<User>, u: string, e: string, p: string)
    ensures (u == "" || e == "" || p == "") ==> FirstProblem(users, u, e, p) == Some(MissingField)
    ensures u != "" && e != "" && p != "" && |p| < MinPasswordLength ==>
      FirstProblem(users, u, e, p) == Some(PasswordTooShort)
    ensures u != "" && e != "" && |p| >= MinPasswordLength && !EmailShape(e) ==>
      FirstProblem(users, u, e, p) == Some(BadEmail)
    ensures u != "" && EmailShape(e) && |p| >= MinPasswordLength && !UsernameShape(u) ==>
      FirstProblem(users, u, e, p) == Some(BadUsername)
    ensures EmailShape(e) && |p| >= MinPasswordLength && UsernameShape(u) && UsernameInUse(users, u) ==>
      FirstProblem(users, u, e, p) == Some(UsernameTaken)
    ensures EmailShape(e) && |p| >= MinPasswordLength && UsernameShape(u) && !UsernameInUse(users, u)
            && EmailInUse(users, e) ==>
      FirstProblem(users, u, e, p) == Some(EmailTaken)
    ensures EmailShape(e) && |p| >= MinPasswordLength && UsernameShape(u) && !UsernameInUse(users, u)
            && !EmailInUse(users, e) ==>
      FirstProblem(users, u, e, p).None?
  {
  }

  // ---------------------------------------------------------------------
  // Login

  datatype LoginError = EmptyCredentials | NoSuchUser | WrongPassword {
    function Status(): int {
      match this
      case NoSuchUser => 404
      case _ => 400
    }
  }

  /** The first user matching `p`, as `filter_by(...).first()`. */
  function FirstUser(users: seq<User>, p: User -> bool): (r: Option<User>)
    ensures r.None? <==> forall i :: 0 <= i < |users| ==> !p(users[i])
    ensures r.Some? ==> r.value in users && p(r.value)
  {
    if users == [] then None
    else if p(users[0]) then Some(users[0])
    else
      var rest := FirstUser(users[1..], p);
      assert forall i :: 1 <= i < |users| ==> users[i] == users[1..][i - 1];
      rest
  }

  /** An account containing `@` is an e-mail address; anything else is a
      user name. */
  function Lookup(users: seq<User>, account: string): (r: Option<User>)
    ensures r.Some? ==> r.value in users
    ensures r.Some? && '@' in account ==> r.value.email == account
    ensures r.Some? && '@' !in account ==> r.value.username == account
    ensures r.None? <==> ('@' in account && !EmailInUse(users, account)) || ('@' !in account && !UsernameInUse(users, account))
  {
    if '@' in account then FirstUser(users, (u: User) => u.email == account)
    else FirstUser(users, (u: User) => u.username == account)
  }

  /** `login`: both fields trimmed and required; an unknown account is
      "not found", a wrong password a bad request. */
  function Login(users: seq<User>, account: Option<string>, password: Option<string>,
                 check: (string, string) -> bool): (r: Result<User, LoginError>)
    ensures r == Err(EmptyCredentials) <==> Trim(Or(account, "")) == "" || Trim(Or(password, "")) == ""
    ensures r == Err(NoSuchUser) <==> Trim(Or(account, "")) != "" && Trim(Or(password, "")) != ""
                                      && Lookup(users, Trim(Or(account, ""))).None?
    ensures r.Ok? ==> r.value in users && check(r.value.passwordHash, Trim(Or(password, "")))
    ensures r.Ok? ==> Lookup(users, Trim(Or(account, ""))) == Some(r.value)
    ensures r == Err(WrongPassword) <==>
      var a := Trim(Or(account, ""));
      var p := Trim(Or(password, ""));
      a != "" && p != "" && Lookup(users, a).Some? && !check(Lookup(users, a).value.passwordHash, p)
  {
    var a := Trim(Or(account, ""));
    var p := Trim(Or(password, ""));
    if a == "" || p == "" then Err(EmptyCredentials)
    else match Lookup(users, a)
      case None => Err(NoSuchUser)
      case Some(u) => if check(u.passwordHash, p) then Ok(u) else Err(WrongPassword)
  }

  /** A user who just registered can sign in with the same password,
      under the user name or under the address. */
  lemma RegisteredUserCanLogIn(users: seq<User>, username: string, email: string, password: string,
                               hash: string -> string, check: (string, string) -> bool)
    requires Register(users, Some(username), Some(email), Some(password), hash).0.Ok?
    requires forall p :: check(hash(p), p)
    ensures var out := Register(users, Some(username), Some(email), Some(password), hash);
      && Login(out.1, Some(username), Some(password), check) == Ok(out.0.value)
      && Login(out.1, Some(email), Some(password), check) == Ok(out.0.value)
  {
    var out := Register(users, Some(username), Some(email), Some(password), hash);
    var user := out.0.value;
    RegisteredFields(users, username, email, password, hash);
    var u := Trim(username);
    var e := Trim(email);
    var p := Trim(password);
    assert check(user.passwordHash, p);
    UsernameHasNoAt(u);
    EmailHasAt(e);
    LookupAppended(users, user, u);
    LookupAppended(users, user, e);
    LoginFinds(out.1, username, password, check, user);
    LoginFinds(out.1, email, password, check, user);
  }

  /** What a successful registration guarantees about the trimmed fields. */
  lemma RegisteredFields(users: seq<User>, username: string, email: string, password: string, hash: string -> string)
    requires Register(users, Some(username), Some(email), Some(password), hash).0.Ok?
    ensures var out := Register(users, Some(username), Some(email), Some(password), hash);
      && out.1 == users + [out.0.value]
      && out.0.value.username == Trim(username) && out.0.value.email == Trim(email)
      && out.0.value.passwordHash == hash(Trim(password))
      && Trim(username) != "" && Trim(password) != ""
      && UsernameShape(Trim(username)) && EmailShape(Trim(email))
      && !UsernameInUse(users, Trim(username)) && !EmailInUse(users, Trim(email))
  {
    assert Or(Some(username), "") == username;
    assert Or(Some(email), "") == email;
    assert Or(Some(password), "") == password;
  }

  lemma EmailHasAt(e: string)
    requires EmailShape(e)
    ensures '@' in e
  {
  }

  /** The user appended last is found under a key no earlier user has. */
  lemma LookupAppended(users: seq<User>, user: User, account: string)
    requires '@' in account ==> user.email == account && !EmailInUse(users, account)
    requires '@' !in account ==> user.username == account && !UsernameInUse(users, account)
    ensures Lookup(users + [user], account) == Some(user)
  {
    if '@' in account {
      FirstUserAtEnd(users, user, (x: User) => x.email == account);
    } else {
      FirstUserAtEnd(users, user, (x: User) => x.username == account);
    }
  }

  lemma LoginFinds(users: seq<User>, account: string, password: string, check: (string, string) -> bool, user: User)
    requires Trim(account) != "" && Trim(password) != ""
    requires Lookup(users, Trim(account)) == Some(user)
    requires check(user.passwordHash, Trim(password))
    ensures Login(users, Some(account), Some(password), check) == Ok(user)
  {
    assert Or(Some(account), "") == account;
    assert Or(Some(password), "") == password;
  }

  lemma {:induction false} FirstUserAtEnd(users: seq<User>, user: User, p: User -> bool)
    requires forall i :: 0 <= i < |users| ==> !p(users[i])
    requires p(user)
    ensures FirstUser(users + [user], p) == Some(user)
  {
    if users != [] {
      assert (users + [user])[1..] == users[1..] + [user];
      FirstUserAtEnd(users[1..], user, p);
    }
  }
}

=== FILE: base.dfy ===
/** Failure-carrying wrappers shared by every module of the model. */
module Base {

  /** A value that may be absent: Python's `None`, a missing dictionary key,
      or JavaScript's `null`/`undefined`. */
  datatype Option<+T> = None | Some(value: T) {

    /** The wrapped value, or `default` when absent. */
    function GetOr(default: T): T {
      match this
      case Some(v) => v
      case None => default
    }
  }

  /** Either a value or the error an operation raised instead. */
  datatype Result<+T, +E> = Ok(value: T) | Err(error: E)

  /** `a` is `b` with some elements left out, the rest in their order. */
  predicate Subsequence<T(==)>(a: seq<T>, b: seq<T>)
    decreases |b|
  {
    a == [] || (b != [] && ((a[0] == b[0] && Subsequence(a[1..], b[1..])) || Subsequence(a, b[1..])))
  }

  /** Leaving nothing out is a subsequence. */
  lemma {:induction false} SubsequenceRefl<T>(a: seq<T>)
    ensures Subsequence(a, a)
    decreases |a|
  {
    if a != [] {
      SubsequenceRefl(a[1..]);
    }
  }

  /** The present values, in order: what a loop that skips the absent ones
      collects. */
  function Present<T>(xs: seq<Option<T>>): (ys: seq<T>)
    ensures |ys| <= |xs|
    ensures forall y :: y in ys ==> Some(y) in xs
    ensures forall i :: 0 <= i < |xs| && xs[i].Some? ==> xs[i].value in ys
    ensures ys == [] <==> forall i :: 0 <= i < |xs| ==> xs[i].None?
  {
    if xs == [] then []
    else
      var rest := Present(xs[..|xs| - 1]);
      assert forall i :: 0 <= i < |xs| - 1 ==> xs[..|xs| - 1][i] == xs[i];
      match xs[|xs| - 1]
      case Some(v) => rest + [v]
      case None => rest
  }
}

=== FILE: category_tree.dfy ===
/** The project picker's category tree: configured categories pruned to the
    projects the configuration actually lists. */
module CategoryTree {
  import opened Base
  import opened Summary

  /** A tree node as configured: a display name, an optional `value` (an
      `org/repo` for a project leaf) and its children (a missing
      `children` key reads as none). */
  datatype Node = Node(name: string, value: Option<string>, children: seq<Node>)

  /** A node with a non-empty child list is a category; anything else is a
      leaf. */
  predicate IsCategory(n: Node) {
    n.children != []
  }

  predicate LeafListed(n: Node, valid: set<string>) {
    n.value.Some? && n.value.value in valid
  }

  /** One node of `filter_tree`: a category keeps its fields with its
      children filtered, and vanishes when nothing is left under it; a leaf
      stays, unchanged, when its value is a listed project. */
  function FilterNode(n: Node, valid: set<string>): (r: Option<Node>)
    ensures r.Some? ==> r.value.name == n.name && r.value.value == n.value
    ensures r.Some? && !IsCategory(n) ==> r.value == n
    decreases n, 1
  {
    if IsCategory(n) then
      var kids := FilterTree(n.children, valid);
      if kids != [] then Some(n.(children := kids)) else None
    else if LeafListed(n, valid) then Some(n)
    else None
  }

  /** `filter_tree`: the surviving nodes, in order. */
  function FilterTree(nodes: seq<Node>, valid: set<string>): (r: seq<Node>)
    ensures |r| <= |nodes|
    decreases nodes, 0
  {
    if nodes == [] then []
    else
      var rest := FilterTree(nodes[1..], valid);
      match FilterNode(nodes[0], valid)
      case Some(n') => [n'] + rest
      case None => rest
  }

  /** The leaves under a node, left to right. */
  function LeavesOf(n: Node): seq<Node>
    decreases n, 1
  {
    if IsCategory(n) then Leaves(n.children) else [n]
  }

  function Leaves(nodes: seq<Node>): seq<Node>
    decreases nodes, 0
  {
    if nodes == [] then [] else LeavesOf(nodes[0]) + Leaves(nodes[1..])
  }

  /** The listed leaves of a list, in order. */
  function ListedOnly(leaves: seq<Node>, valid: set<string>): (r: seq<Node>)
    ensures forall x :: x in r ==> x in leaves && LeafListed(x, valid)
  {
    if leaves == [] then []
    else (if LeafListed(leaves[0], valid) then [leaves[0]] else []) + ListedOnly(leaves[1..], valid)
  }

  lemma {:induction false} ListedOnlyAppend(a: seq<Node>, b: seq<Node>, valid: set<string>)
    ensures ListedOnly(a + b, valid) == ListedOnly(a, valid) + ListedOnly(b, valid)
  {
    if a != [] {
      assert (a + b)[1..] == a[1..] + b;
      ListedOnlyAppend(a[1..], b, valid);
    } else {
      assert a + b == b;
    }
  }

  /** The pruned node's leaves are exactly its listed leaves. */
  lemma {:induction false} FilterNodeKeepsListedLeaves(n: Node, valid: set<string>)
    ensures FilterNode(n, valid).Some? ==> LeavesOf(FilterNode(n, valid).value) == ListedOnly(LeavesOf(n), valid)
    ensures FilterNode(n, valid).None? ==> ListedOnly(LeavesOf(n), valid) == []
    decreases n, 1
  {
    if IsCategory(n) {
      FilterKeepsListedLeaves(n.children, valid);
    }
  }

  /** The pruned forest's leaves are exactly the input's listed leaves, in
      their original order: no listed project is lost, none is added. */
  lemma {:induction false} FilterKeepsListedLeaves(nodes: seq<Node>, valid: set<string>)
    ensures Leaves(FilterTree(nodes, valid)) == ListedOnly(Leaves(nodes), valid)
    decreases nodes, 0
  {
    if nodes == [] {
    } else {
      var rest := FilterTree(nodes[1..], valid);
      FilterNodeKeepsListedLeaves(nodes[0], valid);
      FilterKeepsListedLeaves(nodes[1..], valid);
      ListedOnlyAppend(LeavesOf(nodes[0]), Leaves(nodes[1..]), valid);
      match FilterNode(nodes[0], valid)
      case Some(n') =>
        assert ([n'] + rest)[1..] == rest;
      case None =>
    }
  }

  /** Every leaf of a pruned forest is listed, and every category in it has
      at least one child. */
  predicate PrunedNode(n: Node, valid: set<string>)
    decreases n, 1
  {
    if IsCategory(n) then Pruned(n.children, valid) else LeafListed(n, valid)
  }

  predicate Pruned(nodes: seq<Node>, valid: set<string>)
    decreases nodes, 0
  {
    nodes != [] ==> PrunedNode(nodes[0], valid) && Pruned(nodes[1..], valid)
  }

  lemma {:induction false} FilterNodeIsPruned(n: Node, valid: set<string>)
    ensures FilterNode(n, valid).Some? ==> PrunedNode(FilterNode(n, valid).value, valid)
    decreases n, 1
  {
    if IsCategory(n) {
      FilterIsPruned(n.children, valid);
    }
  }

  lemma {:induction false} FilterIsPruned(nodes: seq<Node>, valid: set<string>)
    ensures Pruned(FilterTree(nodes, valid), valid)
    decreases nodes, 0
  {
    if nodes != [] {
      var rest := FilterTree(nodes[1..], valid);
      FilterNodeIsPruned(nodes[0], valid);
      FilterIsPruned(nodes[1..], valid);
      match FilterNode(nodes[0], valid)
      case Some(n') =>
        assert ([n'] + rest)[1..] == rest;
      case None =>
    }
  }

  /** A pruned forest is left as it is: pruning twice is pruning once. */
  lemma {:induction false} PrunedNodeIsFixed(n: Node, valid: set<string>)
    requires PrunedNode(n, valid)
    ensures FilterNode(n, valid) == Some(n)
    decreases n, 1
  {
    if IsCategory(n) {
      PrunedIsFixed(n.children, valid);
    }
  }

  lemma {:induction false} PrunedIsFixed(nodes: seq<Node>, valid: set<string>)
    requires Pruned(nodes, valid)
    ensures FilterTree(nodes, valid) == nodes
    decreases nodes, 0
  {
    if nodes != [] {
      PrunedNodeIsFixed(nodes[0], valid);
      PrunedIsFixed(nodes[1..], valid);
      assert nodes == [nodes[0]] + nodes[1..];
    }
  }

  lemma FilterIdempotent(nodes: seq<Node>, valid: set<string>)
    ensures FilterTree(FilterTree(nodes, valid), valid) == FilterTree(nodes, valid)
  {
    FilterIsPruned(nodes, valid);
    PrunedIsFixed(FilterTree(nodes, valid), valid);
  }

  // ---------------------------------------------------------------------
  // The endpoint

  /** The `org/repo` names of the configured repositories (platform is not
      part of the name). */
  function ListedProjects(repos: seq<RepoInfo>): (valid: set<string>)
    ensures |valid| <= |repos|
    ensures forall v :: v in valid <==> exists r :: r in repos && v == RepoKey(r)
  {
    if repos == [] then {}
    else
      var rest := ListedProjects(repos[1..]);
      assert forall r :: r in repos <==> r == repos[0] || r in repos[1..];
      rest + {RepoKey(repos[0])}
  }

  /** The configuration as read: the repository list and the category
      tree (an absent `category_tree` reads as empty). */
  datatype Config = Config(repositories: seq<RepoInfo>, categoryTree: seq<Node>)

  datatype ProjectsError = ConfigMissing | NoCategoryTree {
    function Status(): int {
      match this
      case ConfigMissing => 500
      case NoCategoryTree => 404
    }
  }

  datatype Projects = Projects(tree: seq<Node>, totalProjects: nat)

  /** `GET /llm/projects` (`None` when the configuration file is missing
      or malformed): the pruned tree and the number of distinct listed
      projects. */
  function ProjectsEndpoint(config: Option<Config>): (r: Result<Projects, ProjectsError>)
    ensures config.None? <==> r == Err(ConfigMissing)
    ensures r == Err(NoCategoryTree) <==> config.Some? && config.value.categoryTree == []
    ensures r.Ok? ==>
      var valid := ListedProjects(config.value.repositories);
      && Leaves(r.value.tree) == ListedOnly(Leaves(config.value.categoryTree), valid)
      && Pruned(r.value.tree, valid)
      && r.value.totalProjects == |valid| <= |config.value.repositories|
    ensures r.Ok? ==> r.value.tree == FilterTree(config.value.categoryTree, ListedProjects(config.value.repositories))
  {
    match config
    case None => Err(ConfigMissing)
    case Some(c) =>
      if c.categoryTree == [] then Err(NoCategoryTree)
      else
        var valid := ListedProjects(c.repositories);
        FilterKeepsListedLeaves(c.categoryTree, valid);
        FilterIsPruned(c.categoryTree, valid);
        Ok(Projects(FilterTree(c.categoryTree, valid), |valid|))
  }
}

=== FILE: contributor_risk.dfy ===
/** Contributor-concentration risk from the bus-factor series: the average
    of the latest six months, its trend, a five-step risk ladder, and the
    batch variant with its simpler three-step ladder. */
module ContributorRisk {
  import opened Base
  import opened Text
  import opened MetricUtils
  import opened Models
  import opened MetricCache

  const BusFactor := "bus_factor"

  /** `tail[-6:] if len(tail) >= 6 else tail`. */
  function RecentSix(tail: seq<real>): (r: seq<real>)
    ensures r == Last(tail, 6)
  {
    if |tail| >= 6 then tail[|tail| - 6..] else tail
  }

  datatype Trend = Improving | Declining | Stable | Unknown

  /** Compares the mean of the later half with the mean of the earlier half
      (the later half takes the odd element): more than 10% up is
      improving, more than 10% down is declining. */
  function TrendOf(recent: seq<real>): (t: Trend)
    ensures t == Unknown <==> |recent| < 2
    ensures |recent| >= 2 ==>
      var first := Mean(recent[..|recent| / 2]);
      var second := Mean(recent[|recent| / 2..]);
      && (t == Improving <==> second > first * 1.1)
      && (t == Declining <==> second <= first * 1.1 && second < first * 0.9)
  {
    if |recent| < 2 then Unknown
    else
      var first := Mean(recent[..|recent| / 2]);
      var second := Mean(recent[|recent| / 2..]);
      if second > first * 1.1 then Improving
      else if second < first * 0.9 then Declining
      else Stable
  }

  /** A flat, non-negative bus factor is stable. */
  lemma FlatSeriesIsStable(recent: seq<real>, c: real)
    requires |recent| >= 2 && c >= 0.0
    requires forall i :: 0 <= i < |recent| ==> recent[i] == c
    ensures TrendOf(recent) == Stable
  {
    var h := |recent| / 2;
    ConstantHasNoSpread(recent[..h], c);
    ConstantHasNoSpread(recent[h..], c);
  }

  /** Six months that halve the bus factor are declining. */
  lemma HalvingIsDeclining()
    ensures TrendOf([4.0, 4.0, 4.0, 2.0, 2.0, 2.0]) == Declining
  {
    var s := [4.0, 4.0, 4.0, 2.0, 2.0, 2.0];
    assert s[..3] == [4.0, 4.0, 4.0] && s[3..] == [2.0, 2.0, 2.0];
    assert Sum([4.0, 4.0, 4.0]) == 12.0;
    assert Sum([2.0, 2.0, 2.0]) == 6.0;
  }

  datatype Level = Critical | High | Medium | Low | Healthy {
    /** 0 for the most severe level, 4 for the least. */
    function Rank(): nat {
      match this
      case Critical => 0
      case High => 1
      case Medium => 2
      case Low => 3
      case Healthy => 4
    }
  }

  /** The ladder on the six-month average bus factor. */
  function LevelOf(avg: real): (l: Level)
    ensures l == Critical <==> avg <= 1.5
    ensures l == High <==> 1.5 < avg <= 3.0
    ensures l == Medium <==> 3.0 < avg <= 5.0
    ensures l == Low <==> 5.0 < avg <= 8.0
    ensures l == Healthy <==> avg > 8.0
  {
    if avg <= 1.5 then Critical
    else if avg <= 3.0 then High
    else if avg <= 5.0 then Medium
    else if avg <= 8.0 then Low
    else Healthy
  }

  /** The score of each level before the trend is considered. */
  function BaseScore(l: Level): (score: real)
    ensures 0.0 < score < 1.0
  {
    match l
    case Critical => 0.95
    case High => 0.75
    case Medium => 0.45
    case Low => 0.2
    case Healthy => 0.05
  }

  /** A declining trend raises the score of the three milder levels by 0.15,
      capped at 0.9, and marks the report as worsening. */
  predicate Worsening(l: Level, t: Trend) {
    t == Declining && l != Critical && l != High
  }

  function RiskScore(l: Level, t: Trend): (score: real)
    ensures 0.0 < score < 1.0
    ensures !Worsening(l, t) ==> score == BaseScore(l)
    ensures Worsening(l, t) ==> score == Capped(BaseScore(l) + WorseningBump)
    ensures l == Critical ==> score == 0.95
    ensures l == High ==> score == 0.75
    ensures l == Medium ==> score == (if t == Declining then 0.6 else 0.45)
    ensures l == Low ==> score == (if t == Declining then 0.35 else 0.2)
    ensures l == Healthy ==> score == (if t == Declining then 0.2 else 0.05)
  {
    var base := BaseScore(l);
    if Worsening(l, t) then Capped(base + WorseningBump) else base
  }

  const WorseningBump := 0.15
  const WorseningCap := 0.9

  /** `min(x, 0.9)`. */
  function Capped(x: real): (r: real)
    ensures r <= WorseningCap && r <= x
    ensures r == x || r == WorseningCap
  {
    if x < WorseningCap then x else WorseningCap
  }

  /** A larger bus factor never means a more severe level or, for the same
      trend, a higher score. */
  lemma RiskFallsWithBusFactor(a1: real, a2: real, t: Trend)
    requires a1 <= a2
    ensures LevelOf(a1).Rank() <= LevelOf(a2).Rank()
    ensures RiskScore(LevelOf(a1), t) >= RiskScore(LevelOf(a2), t)
  {
  }

  datatype Report = Report(
    project: string, platform: string,
    avg6: real, avg12: real, trend: Trend, level: Level, score: real, worsening: bool,
    recent: seq<real>, min6: real, max6: real, cached: bool)

  datatype RiskError = FetchFailed(cause: FetchError) | NoBusFactorData {
    function Status(): int {
      match this
      case FetchFailed(cause) => cause.Status()
      case NoBusFactorData => 404
    }
  }

  /** The report for one non-empty bus-factor series. */
  function Assess(platform: string, org: string, repo: string, records: seq<Record>, cached: bool): (r: Report)
    ensures r.project == org + "/" + repo && r.platform == platform && r.cached == cached
    ensures |r.recent| <= 6
    ensures r.recent == Last(TailNValues(records, MonthsConsidered), 6)
    ensures r.avg6 == Mean(r.recent) && r.avg12 == Mean(TailNValues(records, MonthsConsidered))
    ensures r.trend == TrendOf(r.recent)
    ensures r.level == LevelOf(r.avg6) && r.score == RiskScore(r.level, r.trend)
    ensures r.worsening <==> r.trend == Declining && r.level != Critical && r.level != High
    ensures r.recent == [] ==> r.avg6 == 0.0 && r.level == Critical && r.min6 == 0.0 && r.max6 == 0.0
    ensures r.recent != [] ==> r.min6 <= r.avg6 <= r.max6
    ensures r.recent != [] ==> r.min6 in r.recent && forall i :: 0 <= i < |r.recent| ==> r.min6 <= r.recent[i]
    ensures r.recent != [] ==> r.max6 in r.recent && forall i :: 0 <= i < |r.recent| ==> r.recent[i] <= r.max6
  {
    var tail := TailNValues(records, MonthsConsidered);
    var recent := RecentSix(tail);
    var avg6 := Mean(recent);
    var trend := TrendOf(recent);
    var level := LevelOf(avg6);
    var lo := if recent == [] then 0.0 else MinOf(recent);
    var hi := if recent == [] then 0.0 else MaxOf(recent);
    var r := Report(org + "/" + repo, platform, avg6, Mean(tail), trend, level, RiskScore(level, trend),
                    Worsening(level, trend), recent, lo, hi, cached);
    if recent == [] then r else MeanWithinRange(recent); r
  }

  /** `GET /health/contributor-risk/<platform>/<org>/<repo>`: the series is
      read through the cache (which may write to the table); an empty
      series is a 404. */
  function ContributorRisk(store: Store, platform: string, org: string, repo: string,
                           upstream: Upstream, now: int): (out: (Result<Report, RiskError>, Store))
    ensures var fetched := FetchAndCache(store, platform, org, Some(repo), BusFactor, upstream, now);
      && out.1 == fetched.1
      && (fetched.0.Err? ==> out.0 == Err(FetchFailed(fetched.0.error)))
      && (fetched.0.Ok? ==> (out.0 == Err(NoBusFactorData) <==> fetched.0.value.data == []))
      && (out.0.Ok? ==> out.0.value.cached == fetched.0.value.cached && out.0.value.project == org + "/" + repo)
      && (fetched.0.Ok? && fetched.0.value.data != [] ==>
            out.0 == Ok(Assess(platform, org, repo, fetched.0.value.data, fetched.0.value.cached)))
  {
    var fetched := FetchAndCache(store, platform, org, Some(repo), BusFactor, upstream, now);
    match fetched.0
    case Err(e) => (Err(FetchFailed(e)), fetched.1)
    case Ok(f) =>
      if f.data == [] then (Err(NoBusFactorData), fetched.1)
      else (Ok(Assess(platform, org, repo, f.data, f.cached)), fetched.1)
  }

  // ---------------------------------------------------------------------
  // Batch

  const MaxBatch := 10

  /** The simpler ladder of the batch endpoint. */
  function BatchLevel(avg: real): (l: (Level, real))
    ensures l.0 == High <==> avg <= 2.0
    ensures l.0 == Medium <==> 2.0 < avg <= 5.0
    ensures l.0 == Low <==> avg > 5.0
    ensures l.1 == (if l.0 == High then 0.8 else if l.0 == Medium then 0.5 else 0.2)
  {
    if avg <= 2.0 then (High, 0.8)
    else if avg <= 5.0 then (Medium, 0.5)
    else (Low, 0.2)
  }

  lemma BatchRiskFallsWithBusFactor(a1: real, a2: real)
    requires a1 <= a2
    ensures BatchLevel(a1).1 >= BatchLevel(a2).1
  {
  }

  /** The two ladders disagree: a bus factor of 1 is critical on its own
      but only high in a batch, and 9 is healthy alone but low in a batch. */
  lemma LaddersDiffer()
    ensures LevelOf(1.0) == Critical && BatchLevel(1.0).0 == High
    ensures LevelOf(9.0) == Healthy && BatchLevel(9.0).0 == Low
  {
  }

  datatype BatchEntry =
    | Malformed(project: string)
    | Failed(project: string, error: FetchError)
    | Assessed(project: string, avg6: real, level: Level, score: real)

  datatype BatchError = NoProjects | TooManyProjects {
    function Status(): int { 400 }
  }

  /** An entry names a project when, stripped, it splits on '/' into
      exactly two parts. */
  predicate WellFormed(proj: string) {
    |Split(Trim(proj), '/')| == 2
  }

  /** That is, when it holds exactly one slash once stripped. */
  lemma WellFormedIffOneSlash(proj: string)
    ensures WellFormed(proj) <==> Count(Trim(proj), '/') == 1
  {
  }

  function BatchOne(store: Store, proj: string, upstream: (string, string) -> Upstream, now: int): (out: (BatchEntry, Store))
    ensures out.0.project == proj
    ensures out.0.Malformed? <==> !WellFormed(proj)
    ensures out.0.Malformed? || out.0.Failed? ==> out.1 == store
    ensures out.1.Keys >= store.Keys
  {
    var parts := Split(Trim(proj), '/');
    if |parts| != 2 then (Malformed(proj), store)
    else BatchAssess(store, proj, parts[0], parts[1], upstream(parts[0], parts[1]), now)
  }

  /** One well-formed batch entry: the bus-factor series of `org/repo`
      through the cache, then the batch ladder on its recent average. */
  function BatchAssess(store: Store, proj: string, org: string, repo: string, up: Upstream, now: int)
    : (out: (BatchEntry, Store))
    ensures out.0.project == proj && !out.0.Malformed?
    ensures out.0.Failed? ==> out.1 == store
    ensures out.1.Keys >= store.Keys
    ensures var fetched := FetchAndCache(store, "github", org, Some(repo), BusFactor, up, now);
      && out.1 == fetched.1
      && (fetched.0.Err? ==> out.0 == Failed(proj, fetched.0.error))
      && (fetched.0.Ok? ==>
            && out.0.Assessed?
            && out.0.avg6 == Mean(Last(TailNValues(fetched.0.value.data, MonthsConsidered), 6))
            && (out.0.level, out.0.score) == BatchLevel(out.0.avg6))
  {
    var fetched := FetchAndCache(store, "github", org, Some(repo), BusFactor, up, now);
    match fetched.0
    case Err(e) => (Failed(proj, e), fetched.1)
    case Ok(f) =>
      var recent := if f.data == [] then [] else RecentSix(TailNValues(f.data, MonthsConsidered));
      assert recent == Last(TailNValues(f.data, MonthsConsidered), 6);
      var avg := Mean(recent);
      var (level, score) := BatchLevel(avg);
      (Assessed(proj, avg, level, score), fetched.1)
  }

  /** A per-project step that answers for the project it is given,
      refuses exactly the entries `valid` rejects, never drops a row, and
      leaves the table alone for a refused entry. */
  ghost predicate WellBehaved(step: (Store, string) -> (BatchEntry, Store), valid: string -> bool) {
    forall st, p ::
      && step(st, p).0.project == p
      && (step(st, p).0.Malformed? <==> !valid(p))
      && step(st, p).1.Keys >= st.Keys
      && (step(st, p).0.Malformed? ==> step(st, p).1 == st)
      && (step(st, p).0.Assessed? ==> (step(st, p).0.level, step(st, p).0.score) == BatchLevel(step(st, p).0.avg6))
  }

  /** The entries in request order, the table threaded through the calls. */
  function BatchAll(step: (Store, string) -> (BatchEntry, Store), valid: string -> bool,
                    store: Store, projects: seq<string>)
    : (out: (seq<BatchEntry>, Store))
    requires WellBehaved(step, valid)
    ensures |out.0| == |projects|
    ensures forall i :: 0 <= i < |projects| ==> out.0[i].project == projects[i]
    ensures forall i :: 0 <= i < |projects| ==> (out.0[i].Malformed? <==> !valid(projects[i]))
    ensures forall i :: 0 <= i < |projects| && out.0[i].Assessed? ==>
      (out.0[i].level, out.0[i].score) == BatchLevel(out.0[i].avg6)
    decreases |projects|
  {
    if projects == [] then ([], store)
    else
      var first := step(store, projects[0]);
      var rest := BatchAll(step, valid, first.1, projects[1..]);
      ([first.0] + rest.0, rest.1)
  }

  /** The batch only ever adds rows, and a batch of malformed entries
      leaves the table as it was. */
  lemma {:induction false} BatchAllKeepsRows(step: (Store, string) -> (BatchEntry, Store), valid: string -> bool,
                                            store: Store, projects: seq<string>)
    requires WellBehaved(step, valid)
    ensures BatchAll(step, valid, store, projects).1.Keys >= store.Keys
    ensures (forall i :: 0 <= i < |projects| ==> !valid(projects[i])) ==> BatchAll(step, valid, store, projects).1 == store
    decreases |projects|
  {
    if projects != [] {
      var first := step(store, projects[0]);
      BatchAllKeepsRows(step, valid, first.1, projects[1..]);
      if forall i :: 0 <= i < |projects| ==> !valid(projects[i]) {
        assert !valid(projects[0]);
        forall i | 0 <= i < |projects[1..]| ensures !valid(projects[1..][i]) {
          assert projects[1..][i] == projects[i + 1];
        }
      }
    }
  }

  /** Entry `i` is what the step answers for `projects[i]` on the table the
      first `i` entries left behind. */
  lemma {:induction false} BatchAllEntries(step: (Store, string) -> (BatchEntry, Store), valid: string -> bool,
                                          store: Store, projects: seq<string>, i: nat)
    requires WellBehaved(step, valid)
    requires i < |projects|
    ensures BatchAll(step, valid, store, projects).0[i]
         == step(BatchAll(step, valid, store, projects[..i]).1, projects[i]).0
    decreases |projects|
  {
    var first := step(store, projects[0]);
    if i > 0 {
      BatchAllEntries(step, valid, first.1, projects[1..], i - 1);
      assert projects[1..][..i - 1] == projects[..i][1..];
      assert projects[1..][i - 1] == projects[i];
    }
  }

  lemma BatchOneWellBehaved(upstream: (string, string) -> Upstream, now: int)
    ensures WellBehaved((st, p) => BatchOne(st, p, upstream, now), WellFormed)
  {
  }

  /** `POST /health/batch-risk`: one to ten projects, each answered with
      its own entry; a malformed or failing project does not fail the
      request. */
  function BatchRisk(store: Store, projects: seq<string>, upstream: (string, string) -> Upstream, now: int)
    : (out: (Result<seq<BatchEntry>, BatchError>, Store))
    ensures projects == [] ==> out == (Err(NoProjects), store)
    ensures |projects| > MaxBatch ==> out == (Err(TooManyProjects), store)
    ensures 0 < |projects| <= MaxBatch ==> out.0.Ok? && |out.0.value| == |projects|
    ensures out.0.Ok? ==> forall i :: 0 <= i < |projects| ==>
      out.0.value[i].project == projects[i] && (out.0.value[i].Malformed? <==> !WellFormed(projects[i]))
    ensures out.0.Ok? ==> forall i :: 0 <= i < |projects| && out.0.value[i].Assessed? ==>
      (out.0.value[i].level, out.0.value[i].score) == BatchLevel(out.0.value[i].avg6)
    ensures out.1.Keys >= store.Keys
  {
    if projects == [] then (Err(NoProjects), store)
    else if |projects| > MaxBatch then (Err(TooManyProjects), store)
    else
      var step := (st, p) => BatchOne(st, p, upstream, now);
      BatchOneWellBehaved(upstream, now);
      BatchAllKeepsRows(step, WellFormed, store, projects);
      var (entries, store') := BatchAll(step, WellFormed, store, projects);
      (Ok(entries), store')
  }
}

=== FILE: data_sync.dfy ===
/** The start-up synchronisation job: every configured metric of every
    configured repository is fetched and written to the table; repositories
    whose two core series are both missing upstream are dropped from the
    configuration together with their rows; the summary is then rebuilt.
    Upstream answers, the clock and the file-age check are parameters. */
module DataSync {
  import opened Base
  import opened Json
  import opened Text
  import opened MetricUtils
  import opened Models
  import opened MetricCache
  import opened Summary

  /** The job's filter on document keys: seven characters containing a
      dash. Looser than the endpoint cache's, which wants exactly one. */
  predicate IsLooseMonthKey(k: string) {
    |k| == 7 && '-' in k
  }

  lemma LooseFilterIsLooser(k: string)
    ensures IsMonthKey(k) ==> IsLooseMonthKey(k)
    ensures IsLooseMonthKey("20-4-01") && !IsMonthKey("20-4-01")
  {
    assert Count("20-4-01", '-') == 2 by {
      assert "20-4-01"[1..] == "0-4-01";
      assert "0-4-01"[1..] == "-4-01";
      assert "-4-01"[1..] == "4-01";
      assert "4-01"[1..] == "-01";
      assert "-01"[1..] == "01";
      assert "01"[1..] == "1";
      assert "1"[1..] == "";
    }
  }

  /** The series a repository's metric is stored under (the repository
      name as configured). */
  function SyncKey(info: RepoInfo, metric: string): SeriesKey {
    SeriesKey(info.platform, info.org, info.repo, metric)
  }

  /** The upstream answer for each repository and metric. */
  type Responses = (RepoInfo, string) -> Upstream

  /** A 404 from upstream: the only failure the job remembers. */
  predicate Missing(resp: Upstream) {
    resp == HttpError(Some(404))
  }

  /** The records a response makes the job write: those of an object
      document with month entries, and nothing otherwise. */
  function Written(resp: Upstream): (w: Option<seq<Record>>)
    ensures w.Some? <==> resp.Body? && resp.value.Obj? && MonthlyRecords(resp.value.fields, IsLooseMonthKey) != []
    ensures w.Some? ==> w.value == MonthlyRecords(resp.value.fields, IsLooseMonthKey)
  {
    if resp.Body? && resp.value.Obj? && MonthlyRecords(resp.value.fields, IsLooseMonthKey) != [] then
      Some(MonthlyRecords(resp.value.fields, IsLooseMonthKey))
    else None
  }

  /** The row under `k` after a run whose last write to `k` is `w`: that
      write's records stamped `now`, or the row from before when nothing
      wrote to `k`. */
  predicate StoreAfter(before: Store, after: Store, k: SeriesKey, w: Option<seq<Record>>, now: int) {
    match w
    case Some(recs) => k in after && after[k] == SeriesRow(Encoded(recs), Some(now))
    case None => (k in after <==> k in before) && (k in before ==> after[k] == before[k])
  }

  /** One metric of one repository: a document with month entries is
      written and stamped; anything else leaves the table alone. */
  function SyncMetric(store: Store, info: RepoInfo, metric: string, resp: Upstream, now: int): (store': Store)
    ensures forall k :: k != SyncKey(info, metric) ==> (k in store' <==> k in store) && (k in store ==> store'[k] == store[k])
    ensures Missing(resp) ==> store' == store
    ensures !(resp.Body? && resp.value.Obj? && MonthlyRecords(resp.value.fields, IsLooseMonthKey) != []) ==>
      store' == store
    ensures resp.Body? && resp.value.Obj? && MonthlyRecords(resp.value.fields, IsLooseMonthKey) != [] ==>
      SyncKey(info, metric) in store' &&
      store'[SyncKey(info, metric)] == SeriesRow(Encoded(MonthlyRecords(resp.value.fields, IsLooseMonthKey)), Some(now))
  {
    match resp
    case Body(doc) =>
      if !doc.Obj? then store
      else
        var recs := MonthlyRecords(doc.fields, IsLooseMonthKey);
        if recs == [] then store else Upsert(store, SyncKey(info, metric), Encoded(recs), now)
    case _ => store
  }

  /** The metrics of `metrics` that upstream reported missing for `info`. */
  function MissingMetrics(info: RepoInfo, metrics: seq<string>, responses: Responses): set<string> {
    set m | m in metrics && Missing(responses(info, m))
  }

  /** What syncing `metric` of `info` writes to `k`: nothing unless `k` is
      that metric's series. */
  function MetricWrite(info: RepoInfo, metric: string, responses: Responses, k: SeriesKey): Option<seq<Record>> {
    if SyncKey(info, metric) == k then Written(responses(info, metric)) else None
  }

  /** The records of the last metric of `metrics` whose write for `info`
      lands on `k`, if any: a later write to a key replaces an earlier one. */
  function RepoWrite(info: RepoInfo, metrics: seq<string>, responses: Responses, k: SeriesKey): Option<seq<Record>>
    decreases |metrics|
  {
    if metrics == [] then None
    else
      var later := RepoWrite(info, metrics[1..], responses, k);
      if later.Some? then later else MetricWrite(info, metrics[0], responses, k)
  }

  /** The same over a list of repositories, each with every metric. */
  function LastWrite(repos: seq<RepoInfo>, metrics: seq<string>, responses: Responses, k: SeriesKey): Option<seq<Record>>
    decreases |repos|
  {
    if repos == [] then None
    else
      var later := LastWrite(repos[1..], metrics, responses, k);
      if later.Some? then later else RepoWrite(repos[0], metrics, responses, k)
  }

  /** `RepoWrite` is `None` exactly when no metric writes to `k`. */
  lemma {:induction false} RepoWriteNone(info: RepoInfo, metrics: seq<string>, responses: Responses, k: SeriesKey)
    ensures RepoWrite(info, metrics, responses, k).None? <==>
      forall j :: 0 <= j < |metrics| ==> MetricWrite(info, metrics[j], responses, k).None?
    decreases |metrics|
  {
    if metrics != [] {
      RepoWriteNone(info, metrics[1..], responses, k);
      assert forall j :: 0 < j < |metrics| ==> metrics[j] == metrics[1..][j - 1];
    }
  }

  /** `RepoWrite` is the write of the last metric that writes to `k`. */
  lemma {:induction false} RepoWriteIsLast(info: RepoInfo, metrics: seq<string>, responses: Responses, k: SeriesKey)
    requires RepoWrite(info, metrics, responses, k).Some?
    ensures exists j :: 0 <= j < |metrics| && MetricWrite(info, metrics[j], responses, k) == RepoWrite(info, metrics, responses, k)
                        && forall j' :: j < j' < |metrics| ==> MetricWrite(info, metrics[j'], responses, k).None?
    decreases |metrics|
  {
    var tail := metrics[1..];
    var w := RepoWrite(info, metrics, responses, k);
    if RepoWrite(info, tail, responses, k).Some? {
      RepoWriteIsLast(info, tail, responses, k);
      var j :| 0 <= j < |tail| && MetricWrite(info, tail[j], responses, k) == w
               && forall j' :: j < j' < |tail| ==> MetricWrite(info, tail[j'], responses, k).None?;
      assert metrics[j + 1] == tail[j];
      forall j' | j + 1 < j' < |metrics| ensures MetricWrite(info, metrics[j'], responses, k).None? {
        assert metrics[j'] == tail[j' - 1];
      }
    } else {
      RepoWriteNone(info, tail, responses, k);
      forall j' | 0 < j' < |metrics| ensures MetricWrite(info, metrics[j'], responses, k).None? {
        assert metrics[j'] == tail[j' - 1];
      }
    }
  }

  /** `LastWrite` is `None` exactly when no repository writes to `k`. */
  lemma {:induction false} LastWriteNone(repos: seq<RepoInfo>, metrics: seq<string>, responses: Responses, k: SeriesKey)
    ensures LastWrite(repos, metrics, responses, k).None? <==>
      forall i :: 0 <= i < |repos| ==> RepoWrite(repos[i], metrics, responses, k).None?
    decreases |repos|
  {
    if repos != [] {
      LastWriteNone(repos[1..], metrics, responses, k);
      assert forall i :: 0 < i < |repos| ==> repos[i] == repos[1..][i - 1];
    }
  }

  /** `LastWrite` is the write of the last repository that writes to `k`. */
  lemma {:induction false} LastWriteIsLast(repos: seq<RepoInfo>, metrics: seq<string>, responses: Responses, k: SeriesKey)
    requires LastWrite(repos, metrics, responses, k).Some?
    ensures exists i :: 0 <= i < |repos| && RepoWrite(repos[i], metrics, responses, k) == LastWrite(repos, metrics, responses, k)
                        && forall i' :: i < i' < |repos| ==> RepoWrite(repos[i'], metrics, responses, k).None?
    decreases |repos|
  {
    var tail := repos[1..];
    var w := LastWrite(repos, metrics, responses, k);
    if LastWrite(tail, metrics, responses, k).Some? {
      LastWriteIsLast(tail, metrics, responses, k);
      var i :| 0 <= i < |tail| && RepoWrite(tail[i], metrics, responses, k) == w
               && forall i' :: i < i' < |tail| ==> RepoWrite(tail[i'], metrics, responses, k).None?;
      assert repos[i + 1] == tail[i];
      forall i' | i + 1 < i' < |repos| ensures RepoWrite(repos[i'], metrics, responses, k).None? {
        assert repos[i'] == tail[i' - 1];
      }
    } else {
      LastWriteNone(tail, metrics, responses, k);
      forall i' | 0 < i' < |repos| ensures RepoWrite(repos[i'], metrics, responses, k).None? {
        assert repos[i'] == tail[i' - 1];
      }
    }
  }

  /** All metrics of one repository, in order: the table after them and the
      set of metrics that came back 404. */
  function SyncRepo(store: Store, info: RepoInfo, metrics: seq<string>, responses: Responses, now: int)
    : (out: (Store, set<string>))
    ensures out.1 == MissingMetrics(info, metrics, responses)
    ensures forall k :: k in store && (k.platform, k.entity, k.repo) != (info.platform, info.org, info.repo) ==>
      k in out.0 && out.0[k] == store[k]
    ensures forall k :: StoreAfter(store, out.0, k, RepoWrite(info, metrics, responses, k), now)
    decreases |metrics|
  {
    if metrics == [] then (store, {})
    else
      var store1 := SyncMetric(store, info, metrics[0], responses(info, metrics[0]), now);
      assert forall k :: StoreAfter(store, store1, k, MetricWrite(info, metrics[0], responses, k), now);
      var rest := SyncRepo(store1, info, metrics[1..], responses, now);
      var failed := if Missing(responses(info, metrics[0])) then {metrics[0]} + rest.1 else rest.1;
      assert forall m :: m in metrics <==> m == metrics[0] || m in metrics[1..];
      (rest.0, failed)
  }

  /** No later repository in the list shares the key of `repos[i]`. */
  predicate LastWithKey(repos: seq<RepoInfo>, i: nat)
    requires i < |repos|
  {
    forall j :: i < j < |repos| ==> RepoKey(repos[j]) != RepoKey(repos[i])
  }

  /** Every repository in order, the table threaded through. Each
      repository resets the failure set of its key, so the set recorded
      under a key is that of the last repository with that key. */
  function SyncAll(store: Store, repos: seq<RepoInfo>, metrics: seq<string>, responses: Responses, now: int)
    : (out: (Store, map<string, set<string>>))
    ensures forall k :: k in out.1 <==> exists r :: r in repos && RepoKey(r) == k
    ensures forall k :: StoreAfter(store, out.0, k, LastWrite(repos, metrics, responses, k), now)
    decreases |repos|
  {
    if repos == [] then (store, map[])
    else
      var first := SyncRepo(store, repos[0], metrics, responses, now);
      var rest := SyncAll(first.0, repos[1..], metrics, responses, now);
      assert forall k :: StoreAfter(first.0, rest.0, k, LastWrite(repos[1..], metrics, responses, k), now);
      (rest.0, map[RepoKey(repos[0]) := first.1] + rest.1)
  }

  /** The failure set under a key is that of the last repository with it. */
  lemma {:induction false} SyncAllLastWins(store: Store, repos: seq<RepoInfo>, metrics: seq<string>,
                                           responses: Responses, now: int, i: nat)
    requires i < |repos| && LastWithKey(repos, i)
    ensures SyncAll(store, repos, metrics, responses, now).1[RepoKey(repos[i])]
         == MissingMetrics(repos[i], metrics, responses)
    decreases |repos|
  {
    var first := SyncRepo(store, repos[0], metrics, responses, now);
    var rest := SyncAll(first.0, repos[1..], metrics, responses, now);
    if i == 0 {
      assert RepoKey(repos[0]) !in rest.1;
    } else {
      assert repos[1..][i - 1] == repos[i];
      assert LastWithKey(repos[1..], i - 1) by {
        forall j | i - 1 < j < |repos[1..]|
          ensures RepoKey(repos[1..][j]) != RepoKey(repos[1..][i - 1])
        {
          assert repos[1..][j] == repos[j + 1];
        }
      }
      SyncAllLastWins(first.0, repos[1..], metrics, responses, now, i - 1);
    }
  }

  const CoreMetrics: set<string> := {"openrank", "activity"}

  /** Repositories whose key recorded a 404 for both core metrics, in
      configuration order. */
  function InvalidRepos(repos: seq<RepoInfo>, failures: map<string, set<string>>): (bad: seq<RepoInfo>)
    ensures forall r :: r in bad <==> r in repos && RepoKey(r) in failures && CoreMetrics <= failures[RepoKey(r)]
  {
    if repos == [] then []
    else
      var r := repos[0];
      var failed := if RepoKey(r) in failures then failures[RepoKey(r)] else {};
      (if CoreMetrics <= failed then [r] else []) + InvalidRepos(repos[1..], failures)
  }

  /** A repository is judged invalid when upstream had neither core series
      for it (and no later entry shares its key). */
  lemma BothCoreMissingIsInvalid(store: Store, repos: seq<RepoInfo>, metrics: seq<string>, responses: Responses,
                                 now: int, i: nat)
    requires i < |repos| && LastWithKey(repos, i)
    requires "openrank" in metrics && "activity" in metrics
    requires Missing(responses(repos[i], "openrank")) && Missing(responses(repos[i], "activity"))
    ensures repos[i] in InvalidRepos(repos, SyncAll(store, repos, metrics, responses, now).1)
  {
    var failures := SyncAll(store, repos, metrics, responses, now).1;
    SyncAllLastWins(store, repos, metrics, responses, now, i);
    assert CoreMetrics <= MissingMetrics(repos[i], metrics, responses);
  }

  /** A core metric that answered is enough to keep a repository. */
  lemma AnsweredCoreIsValid(store: Store, repos: seq<RepoInfo>, metrics: seq<string>, responses: Responses,
                            now: int, i: nat, core: string)
    requires i < |repos| && LastWithKey(repos, i)
    requires core in CoreMetrics && !Missing(responses(repos[i], core))
    ensures repos[i] !in InvalidRepos(repos, SyncAll(store, repos, metrics, responses, now).1)
  {
    var failures := SyncAll(store, repos, metrics, responses, now).1;
    SyncAllLastWins(store, repos, metrics, responses, now, i);
    assert core !in failures[RepoKey(repos[i])];
    if repos[i] in InvalidRepos(repos, failures) {
      assert false;
    }
  }

  /** `auto_cleanup_repos`, configuration part: every repository sharing
      an `org/repo` with an invalid one is dropped, on any platform. */
  function CleanConfig(repos: seq<RepoInfo>, invalidKeys: set<string>): (kept: seq<RepoInfo>)
    ensures forall r :: r in kept <==> r in repos && RepoKey(r) !in invalidKeys
    ensures |kept| <= |repos|
    ensures Subsequence(kept, repos)
    ensures forall r :: multiset(kept)[r] == if RepoKey(r) in invalidKeys then 0 else multiset(repos)[r]
  {
    if repos == [] then []
    else
      var rest := CleanConfig(repos[1..], invalidKeys);
      assert repos == [repos[0]] + repos[1..];
      assert multiset(repos) == multiset{repos[0]} + multiset(repos[1..]);
      if RepoKey(repos[0]) !in invalidKeys then
        assert ([repos[0]] + rest)[1..] == rest;
        [repos[0]] + rest
      else
        assert [] + rest == rest;
        [] + rest
  }

  predicate RowOf(k: SeriesKey, info: RepoInfo) {
    k.platform == info.platform && k.entity == info.org && k.repo == info.repo
  }

  /** `auto_cleanup_repos`, table part: every metric row of every invalid
      repository (matched with its platform) is deleted; the rest stay. */
  function CleanStore(store: Store, invalid: seq<RepoInfo>): (store': Store)
    ensures forall k :: k in store' <==> k in store && forall r :: r in invalid ==> !RowOf(k, r)
    ensures forall k :: k in store' ==> store'[k] == store[k]
  {
    map k | k in store && (forall r :: r in invalid ==> !RowOf(k, r)) :: store[k]
  }

  datatype SyncConfig = SyncConfig(repositories: seq<RepoInfo>, metrics: seq<string>)

  /** What a run leaves behind: the configuration's repository list, the
      table, and the summary written (`None` when nothing was written). */
  datatype SyncResult = SyncResult(repositories: seq<RepoInfo>, store: Store, summary: Option<seq<Item>>)

  function InvalidKeys(invalid: seq<RepoInfo>): set<string> {
    set r | r in invalid :: RepoKey(r)
  }

  /** `sync_opendigger_data`: an unreadable configuration ends the run with
      nothing changed. */
  function SyncJob(config: Option<SyncConfig>, store: Store, responses: Responses, now: int, sqrt: real -> real)
    : (out: Option<SyncResult>)
    ensures config.None? <==> out.None?
    ensures out.Some? ==>
      var synced := SyncAll(store, config.value.repositories, config.value.metrics, responses, now);
      var invalid := InvalidRepos(config.value.repositories, synced.1);
      && (invalid == [] ==> out.value.repositories == config.value.repositories && out.value.store == synced.0)
      && out.value.store == CleanStore(synced.0, invalid)
      && (forall r :: r in out.value.repositories <==> r in config.value.repositories && RepoKey(r) !in InvalidKeys(invalid))
      && Subsequence(out.value.repositories, config.value.repositories)
      && (forall r :: multiset(out.value.repositories)[r]
                       == if RepoKey(r) in InvalidKeys(invalid) then 0 else multiset(config.value.repositories)[r])
      && out.value.summary == GenerateSummary(out.value.repositories, out.value.store, sqrt)
  {
    match config
    case None => None
    case Some(c) =>
      var synced := SyncAll(store, c.repositories, c.metrics, responses, now);
      var invalid := InvalidRepos(c.repositories, synced.1);
      if invalid == [] then
        SubsequenceRefl(c.repositories);
        assert InvalidKeys(invalid) == {};
        assert CleanStore(synced.0, invalid) == synced.0;
        Some(SyncResult(c.repositories, synced.0, GenerateSummary(c.repositories, synced.0, sqrt)))
      else
        var repos' := CleanConfig(c.repositories, InvalidKeys(invalid));
        var store' := CleanStore(synced.0, invalid);
        Some(SyncResult(repos', store', GenerateSummary(repos', store', sqrt)))
  }

  /** After a run, no row of a repository judged invalid is left. */
  lemma NoRowsOfInvalidRepos(config: SyncConfig, store: Store, responses: Responses, now: int, sqrt: real -> real, r: RepoInfo, k: SeriesKey)
    requires r in InvalidRepos(config.repositories, SyncAll(store, config.repositories, config.metrics, responses, now).1)
    requires RowOf(k, r)
    ensures k !in SyncJob(Some(config), store, responses, now, sqrt).value.store
  {
  }

  // ---------------------------------------------------------------------
  // Scheduling

  /** What the table looked like when asked for any row. */
  datatype TableState = TableEmpty | TableUnreadable | TableHasRows

  /** `should_sync`: an empty or unreadable table, or a missing summary
      file, calls for a run; otherwise the file must be older than the
      time-to-live. The file's age (`None` when absent) is a parameter. */
  function ShouldSync(table: TableState, summaryAge: Option<real>, ttlHours: int): (b: bool)
    ensures table != TableHasRows ==> b
    ensures table == TableHasRows && summaryAge.None? ==> b
    ensures table == TableHasRows && summaryAge.Some? ==> (b <==> summaryAge.value > (ttlHours * 3600) as real)
  {
    if table != TableHasRows then true
    else match summaryAge
      case None => true
      case Some(age) => age > (ttlHours * 3600) as real
  }

  /** `run_sync`: `force` runs regardless; otherwise the run happens only
      when `ShouldSync` says so. `None` means the run was skipped. */
  function RunSync(force: bool, table: TableState, summaryAge: Option<real>, ttlHours: int,
                   config: Option<SyncConfig>, store: Store, responses: Responses, now: int, sqrt: real -> real)
    : (out: Option<Option<SyncResult>>)
    ensures out.None? <==> !force && !ShouldSync(table, summaryAge, ttlHours)
    ensures out.Some? ==> out.value == SyncJob(config, store, responses, now, sqrt)
  {
    if !force && !ShouldSync(table, summaryAge, ttlHours) then None
    else Some(SyncJob(config, store, responses, now, sqrt))
  }

  /** A fresh summary over a populated table skips the run. */
  lemma FreshSummarySkips(summaryAge: real, config: Option<SyncConfig>, store: Store, responses: Responses, now: int, sqrt: real -> real)
    requires 0.0 <= summaryAge <= 3600.0
    ensures RunSync(false, TableHasRows, Some(summaryAge), 24, config, store, responses, now, sqrt).None?
  {
  }
}

=== FILE: favorites_api.dfy ===
/** The favourites endpoints: de-duplication keys, the add request's kind
    dispatch and validation, the owner-only delete, and the per-user
    listing. The table is a sequence of rows; the signed-in user's id is a
    parameter (token handling is not modelled). */
module FavoritesApi {
  import opened Base
  import opened Json
  import opened Text
  import opened Sorting
  import opened Models

  // ---------------------------------------------------------------------
  // De-duplication keys

  /** The entries a compare key is built from: each trimmed, the blank
      ones dropped, in input order. */
  function CleanEntries(repos: seq<string>): (rs: seq<string>)
    ensures |rs| <= |repos|
    ensures forall r :: r in rs ==> r != ""
    decreases |repos|
  {
    if repos == [] then []
    else CleanEntry(repos[0]) + CleanEntries(repos[1..])
  }

  /** One entry, trimmed, or nothing when it is blank. */
  function CleanEntry(x: string): (rs: seq<string>)
    ensures Trim(x) == "" ==> rs == []
    ensures Trim(x) != "" ==> rs == [Trim(x)]
  {
    if Trim(x) != "" then [Trim(x)] else []
  }

  /** Exactly the non-blank trimmed entries survive. */
  lemma {:induction false} CleanEntriesMembers(repos: seq<string>, r: string)
    ensures r in CleanEntries(repos) <==> r != "" && exists x :: x in repos && Trim(x) == r
    decreases |repos|
  {
    if repos != [] {
      CleanEntriesMembers(repos[1..], r);
      assert forall x :: x in repos <==> x == repos[0] || x in repos[1..];
    }
  }

  lemma {:induction false} CleanEntriesAppend(a: seq<string>, b: seq<string>)
    ensures CleanEntries(a + b) == CleanEntries(a) + CleanEntries(b)
    decreases |a|
  {
    if a != [] {
      assert (a + b)[0] == a[0];
      assert (a + b)[1..] == a[1..] + b;
      CleanEntriesAppend(a[1..], b);
    } else {
      assert a + b == b;
    }
  }

  /** Which entries survive does not depend on where they stand. */
  lemma {:induction false} CleanEntriesPermutation(a: seq<string>, b: seq<string>)
    requires multiset(a) == multiset(b)
    ensures multiset(CleanEntries(a)) == multiset(CleanEntries(b))
    decreases |a|
  {
    if a == [] {
      assert |b| == 0 by { assert |multiset(b)| == 0; }
    } else {
      var x := a[0];
      assert x in multiset(b);
      var j :| 0 <= j < |b| && b[j] == x;
      var rest := b[..j] + b[j + 1..];
      assert b == b[..j] + [x] + b[j + 1..];
      assert a == [x] + a[1..];
      assert multiset(b) == multiset(b[..j]) + multiset{x} + multiset(b[j + 1..]);
      assert multiset(a) == multiset{x} + multiset(a[1..]);
      assert multiset(rest) == multiset(b[..j]) + multiset(b[j + 1..]);
      assert multiset(a[1..]) == multiset(a) - multiset{x};
      assert multiset(rest) == multiset(b) - multiset{x};
      CleanEntriesPermutation(a[1..], rest);
      CleanEntriesAppend([x], a[1..]);
      CleanEntriesAppend(b[..j], b[j + 1..]);
      CleanEntriesAppend(b[..j] + [x], b[j + 1..]);
      CleanEntriesAppend(b[..j], [x]);
    }
  }

  lemma LexIsTotalOrder()
    ensures TotalPreorder(LexLe) && Antisymmetric(LexLe)
  {
    forall a: string, b: string ensures LexLe(a, b) || LexLe(b, a) {
      LexTotal(a, b);
    }
    forall a: string, b: string, c: string | LexLe(a, b) && LexLe(b, c) ensures LexLe(a, c) {
      LexTransitive(a, b, c);
    }
    forall a: string, b: string | LexLe(a, b) && LexLe(b, a) ensures a == b {
      LexAntisymmetric(a, b);
    }
  }

  const ComparePrefix := "compare:"

  /** `build_compare_key`: the cleaned entries in ascending string order,
      comma-joined, after "compare:". */
  function CompareKey(repos: seq<string>): (key: string)
    ensures |key| >= |ComparePrefix| && key[..|ComparePrefix|] == ComparePrefix
    ensures key == ComparePrefix + Join(SortedEntries(repos), ",")
  {
    ComparePrefix + Join(SortedEntries(repos), ",")
  }

  /** The cleaned entries in ascending string order. */
  function SortedEntries(repos: seq<string>): (r: seq<string>)
    ensures Sorted(r, LexLe)
    ensures multiset(r) == multiset(CleanEntries(repos))
  {
    LexIsTotalOrder();
    SortBy(CleanEntries(repos), LexLe)
  }

  /** The key names a set of repositories, not a list: reordering the
      input does not change it. */
  lemma CompareKeyPermutationInvariant(a: seq<string>, b: seq<string>)
    requires multiset(a) == multiset(b)
    ensures CompareKey(a) == CompareKey(b)
  {
    LexIsTotalOrder();
    CleanEntriesPermutation(a, b);
    SortByPermutationInvariant(CleanEntries(a), CleanEntries(b), LexLe);
  }

  /** Surrounding blanks and blank entries do not change the key. */
  lemma CompareKeyIgnoresBlanks(a: seq<string>, pad: string)
    requires Trim(pad) == ""
    ensures CompareKey(a + [pad]) == CompareKey(a)
  {
    CleanEntriesAppend(a, [pad]);
    assert CleanEntries([pad]) == [] by {
      assert [pad][1..] == [];
    }
    assert CleanEntries(a + [pad]) == CleanEntries(a);
  }

  const SinglePrefix := "single:"

  /** `build_single_key`. */
  function SingleKey(fullName: string, metric: string, platform: string): (key: string)
    ensures |key| > |SinglePrefix| && key[..|SinglePrefix|] == SinglePrefix
  {
    SinglePrefix + platform + ":" + fullName + ":" + metric
  }

  /** The separator stands right after the left part. */
  lemma SeparatorAt(a: string, c: char, b: string)
    ensures |a| < |a + [c] + b| && (a + [c] + b)[|a|] == c
  {
  }

  /** `a + [c] + b` splits uniquely at a separator that `a` lacks. */
  lemma SplitAtFirst(a: string, b: string, a': string, b': string, c: char)
    requires c !in a && c !in a'
    requires a + [c] + b == a' + [c] + b'
    ensures a == a' && b == b'
  {
    if |a| < |a'| {
      SeparatorAt(a, c, b);
      assert false;
    } else if |a'| < |a| {
      SeparatorAt(a', c, b');
      assert false;
    }
    var s := a + [c] + b;
    assert a == s[..|a|] == a';
    assert b == s[|a| + 1..] == b';
  }

  /** `a + [c] + b` splits uniquely at a separator that `b` lacks. */
  lemma SplitAtLast(a: string, b: string, a': string, b': string, c: char)
    requires c !in b && c !in b'
    requires a + [c] + b == a' + [c] + b'
    ensures a == a' && b == b'
  {
    if |b| < |b'| {
      SeparatorAt(a, c, b);
      assert false;
    } else if |b'| < |b| {
      SeparatorAt(a', c, b');
      assert false;
    }
    var s := a + [c] + b;
    assert a == s[..|a|] == a';
    assert b == s[|a| + 1..] == b';
  }

  /** With colon-free platform and metric names the key determines all
      three parts; the repository name may contain colons. */
  lemma SingleKeyInjective(f: string, m: string, p: string, f': string, m': string, p': string)
    requires ':' !in p && ':' !in p' && ':' !in m && ':' !in m'
    requires SingleKey(f, m, p) == SingleKey(f', m', p')
    ensures f == f' && m == m' && p == p'
  {
    var k := SingleKey(f, m, p);
    assert k[|SinglePrefix|..] == p + [':'] + (f + [':'] + m);
    assert k[|SinglePrefix|..] == p' + [':'] + (f' + [':'] + m');
    SplitAtFirst(p, f + [':'] + m, p', f' + [':'] + m', ':');
    SplitAtLast(f, m, f', m', ':');
  }

  // ---------------------------------------------------------------------
  // Adding a favourite

  /** The request body's fields; `None` for a missing key or `null`. */
  datatype AddRequest = AddRequest(
    kind: Option<string>,
    uniqKey: Option<string>,
    title: Option<string>,
    payload: Option<Json>,
    fullName: Option<string>,
    metric: Option<string>,
    platform: Option<string>,
    url: Option<string>)

  datatype FavError =
    | PlanKeyMissing
    | SingleFieldsMissing
    | AlreadyFavorited
    | NoSuchFavorite
  {
    function Status(): int {
      match this
      case NoSuchFavorite => 404
      case _ => 400
    }
  }

  const PlanKind := "plan"
  const DefaultPlanTitle := "收藏方案"

  /** `(x or default).strip()` on a request field. */
  function Field(x: Option<string>, default: string): string {
    Trim(Or(x, default))
  }

  /** The kind as the endpoint reads it: a missing or empty kind is
      "single", and only "plan" selects the plan path. */
  predicate IsPlanRequest(req: AddRequest) {
    Field(req.kind, DefaultKind) == PlanKind
  }

  /** The id the table hands out next: one past the largest in use, as an
      integer primary key without AUTOINCREMENT does. */
  function NextId(rows: seq<Favorite>): (id: int)
    ensures forall i :: 0 <= i < |rows| ==> rows[i].id < id
    ensures id >= 1
  {
    if rows == [] then 1
    else
      var rest := NextId(rows[1..]);
      assert forall i :: 1 <= i < |rows| ==> rows[i] == rows[1..][i - 1];
      if rows[0].id + 1 > rest then rows[0].id + 1 else rest
  }

  /** The plan path: a non-blank `uniq_key` is required; the title defaults
      to "收藏方案" and the payload to `{}`. */
  function PlanRow(rows: seq<Favorite>, userId: int, req: AddRequest): (r: Result<Favorite, FavError>)
    ensures r.Err? <==> Field(req.uniqKey, "") == ""
    ensures r.Ok? ==> (&& r.value.kind == PlanKind && r.value.uniqKey == Field(req.uniqKey, "")
                       && r.value.title == Some(Field(req.title, DefaultPlanTitle))
                       && r.value.payload == EncodedPayload(if req.payload.Some? && Truthy(req.payload.value)
                                                            then req.payload.value else Obj([])))
  {
    var key := Field(req.uniqKey, "");
    if key == "" then Err(PlanKeyMissing)
    else
      var payload := if req.payload.Some? && Truthy(req.payload.value) then req.payload.value else Obj([]);
      Ok(NewFavorite(NextId(rows), userId, key, Some(PlanKind), None, None, None,
                     Some(Field(req.title, DefaultPlanTitle)), None, Some(EncodedPayload(payload))))
  }

  /** The single path: a non-blank repository and metric are required; the
      platform defaults to "github" and the key to `SingleKey`. */
  function SingleRow(rows: seq<Favorite>, userId: int, req: AddRequest): (r: Result<Favorite, FavError>)
    ensures r.Err? <==> Field(req.fullName, "") == "" || Field(req.metric, "") == ""
    ensures r.Ok? ==> (&& r.value.kind == DefaultKind
                       && r.value.fullName == Some(Field(req.fullName, ""))
                       && r.value.metric == Some(Field(req.metric, ""))
                       && r.value.platform == Some(Field(req.platform, DefaultPlatform))
                       && r.value.payload == Blank)
    ensures r.Ok? && Field(req.uniqKey, "") == "" ==>
      r.value.uniqKey == SingleKey(Field(req.fullName, ""), Field(req.metric, ""), Field(req.platform, DefaultPlatform))
    ensures r.Ok? && Field(req.uniqKey, "") != "" ==> r.value.uniqKey == Field(req.uniqKey, "")
  {
    var fullName := Field(req.fullName, "");
    var metric := Field(req.metric, "");
    var platform := Field(req.platform, DefaultPlatform);
    if fullName == "" || metric == "" then Err(SingleFieldsMissing)
    else
      var given := Field(req.uniqKey, "");
      var key := if given == "" then SingleKey(fullName, metric, platform) else given;
      Ok(NewFavorite(NextId(rows), userId, key, Some(DefaultKind), Some(fullName), Some(metric), Some(platform),
                     Some(Field(req.title, "")), Some(Field(req.url, "")), None))
  }

  /** `add_favorite`: the row the request describes is inserted under the
      caller's id, unless validation fails or the caller already has that
      key; on failure the table is unchanged. */
  function AddFavorite(rows: seq<Favorite>, userId: int, req: AddRequest): (out: (Result<Favorite, FavError>, seq<Favorite>))
    ensures out.0.Err? ==> out.1 == rows
    ensures out.0.Ok? ==> out.1 == rows + [out.0.value] && out.0.value.userId == userId
    ensures out.0.Ok? ==> forall i :: 0 <= i < |rows| ==> rows[i].id < out.0.value.id
    ensures IsPlanRequest(req) ==>
      (out.0 == Err(PlanKeyMissing) <==> Field(req.uniqKey, "") == "")
    ensures !IsPlanRequest(req) ==>
      (out.0 == Err(SingleFieldsMissing) <==> Field(req.fullName, "") == "" || Field(req.metric, "") == "")
    ensures out.0.Ok? ==> out.0.value.kind == (if IsPlanRequest(req) then PlanKind else DefaultKind)
    ensures out.0.Ok? ==> RequestRow(rows, userId, req) == Ok(out.0.value)
    ensures out.0.Ok? ==> !HasFavoriteKey(rows, userId, out.0.value.uniqKey)
    ensures UniqueFavorites(rows) ==> UniqueFavorites(out.1)
  {
    StoreRow(rows, RequestRow(rows, userId, req))
  }

  /** The payload `to_dict` reports for an added favourite: a plan's
      truthy payload as posted, otherwise `{}`. */
  lemma AddedPayloadReadsBack(rows: seq<Favorite>, userId: int, req: AddRequest)
    requires AddFavorite(rows, userId, req).0.Ok?
    ensures IsPlanRequest(req) && req.payload.Some? && Truthy(req.payload.value) ==>
      PayloadObject(AddFavorite(rows, userId, req).0.value.payload) == req.payload.value
    ensures !(IsPlanRequest(req) && req.payload.Some? && Truthy(req.payload.value)) ==>
      PayloadObject(AddFavorite(rows, userId, req).0.value.payload) == Obj([])
  {
  }

  /** The row the request's kind path builds, or that path's error. */
  function RequestRow(rows: seq<Favorite>, userId: int, req: AddRequest): (row: Result<Favorite, FavError>)
    ensures IsPlanRequest(req) ==> row == PlanRow(rows, userId, req)
    ensures !IsPlanRequest(req) ==> row == SingleRow(rows, userId, req)
  {
    if IsPlanRequest(req) then PlanRow(rows, userId, req) else SingleRow(rows, userId, req)
  }

  /** Commits a built row unless the user already holds its key. */
  function StoreRow(rows: seq<Favorite>, row: Result<Favorite, FavError>): (out: (Result<Favorite, FavError>, seq<Favorite>))
    ensures row.Err? ==> out == (Err(row.error), rows)
    ensures row.Ok? && HasFavoriteKey(rows, row.value.userId, row.value.uniqKey) ==> out == (Err(AlreadyFavorited), rows)
    ensures row.Ok? && !HasFavoriteKey(rows, row.value.userId, row.value.uniqKey) ==> out == (Ok(row.value), rows + [row.value])
    ensures UniqueFavorites(rows) ==> UniqueFavorites(out.1)
  {
    match row
    case Err(e) => (Err(e), rows)
    case Ok(f) =>
      match InsertFavorite(rows, f)
      case None => (Err(AlreadyFavorited), rows)
      case Some(rows') => (Ok(f), rows')
  }

  /** A request is refused as a duplicate exactly when it is valid and
      the caller already holds its key. */
  lemma DuplicateRefused(rows: seq<Favorite>, userId: int, req: AddRequest)
    ensures AddFavorite(rows, userId, req).0 == Err(AlreadyFavorited) <==>
      var row := RequestRow(rows, userId, req);
      row.Ok? && HasFavoriteKey(rows, userId, row.value.uniqKey)
  {
  }

  /** Sending the same valid request twice stores it once. */
  lemma SecondAddIsDuplicate(rows: seq<Favorite>, userId: int, req: AddRequest)
    requires AddFavorite(rows, userId, req).0.Ok?
    ensures AddFavorite(AddFavorite(rows, userId, req).1, userId, req).0 == Err(AlreadyFavorited)
  {
    var first := AddFavorite(rows, userId, req);
    var rows' := first.1;
    var f := first.0.value;
    assert rows'[|rows|] == f;
    var again := RequestRow(rows', userId, req);
    assert again.Ok? && again.value.uniqKey == f.uniqKey;
    assert HasFavoriteKey(rows', userId, f.uniqKey);
  }

  // ---------------------------------------------------------------------
  // Removing and listing

  /** Position of the first row with this id owned by this user. */
  function FindOwned(rows: seq<Favorite>, userId: int, favId: int): (i: Option<nat>)
    ensures i.None? <==> forall j :: 0 <= j < |rows| ==> !(rows[j].id == favId && rows[j].userId == userId)
    ensures i.Some? ==> (&& i.value < |rows| && rows[i.value].id == favId && rows[i.value].userId == userId
                         && forall j :: 0 <= j < i.value ==> !(rows[j].id == favId && rows[j].userId == userId))
  {
    if rows == [] then None
    else if rows[0].id == favId && rows[0].userId == userId then Some(0)
    else
      match FindOwned(rows[1..], userId, favId)
      case None =>
        assert forall j :: 1 <= j < |rows| ==> rows[j] == rows[1..][j - 1];
        None
      case Some(k) =>
        assert forall j :: 1 <= j < k + 1 ==> rows[j] == rows[1..][j - 1];
        Some(k + 1)
  }

  /** `remove_favorite`: only a row the caller owns is deleted; any other
      id is "not found" and changes nothing. */
  function RemoveFavorite(rows: seq<Favorite>, userId: int, favId: int): (r: Result<seq<Favorite>, FavError>)
    ensures r.Err? <==> forall j :: 0 <= j < |rows| ==> !(rows[j].id == favId && rows[j].userId == userId)
    ensures r.Err? ==> r.error == NoSuchFavorite
    ensures r.Ok? ==> (&& |r.value| == |rows| - 1
                       && exists i :: 0 <= i < |rows| && rows[i].id == favId && rows[i].userId == userId
                                      && r.value == rows[..i] + rows[i + 1..])
  {
    match FindOwned(rows, userId, favId)
    case None => Err(NoSuchFavorite)
    case Some(i) => Ok(rows[..i] + rows[i + 1..])
  }

  ghost predicate DistinctIds(rows: seq<Favorite>) {
    forall i, j :: 0 <= i < j < |rows| ==> rows[i].id != rows[j].id
  }

  /** With distinct ids (which `NextId` keeps), a removal deletes the
      favourite and nothing else: other users' rows are never touched. */
  lemma RemoveDeletesExactlyOne(rows: seq<Favorite>, userId: int, favId: int)
    requires DistinctIds(rows)
    requires RemoveFavorite(rows, userId, favId).Ok?
    ensures forall f :: f in RemoveFavorite(rows, userId, favId).value <==> f in rows && f.id != favId
  {
    var r := RemoveFavorite(rows, userId, favId).value;
    var i :| 0 <= i < |rows| && rows[i].id == favId && rows[i].userId == userId && r == rows[..i] + rows[i + 1..];
    forall f ensures f in r <==> f in rows && f.id != favId {
      if f in r {
        if f in rows[..i] {
          var j :| 0 <= j < i && rows[j] == f;
        } else {
          assert f in rows[i + 1..];
          var j :| i + 1 <= j < |rows| && rows[j] == f;
        }
      }
      if f in rows && f.id != favId {
        var j :| 0 <= j < |rows| && rows[j] == f;
        if j < i { assert f in rows[..i]; } else { assert rows[i + 1..][j - i - 1] == f; }
      }
    }
  }

  /** Appending under `NextId` keeps ids distinct. */
  lemma AddKeepsIdsDistinct(rows: seq<Favorite>, userId: int, req: AddRequest)
    requires DistinctIds(rows)
    ensures DistinctIds(AddFavorite(rows, userId, req).1)
  {
    var out := AddFavorite(rows, userId, req);
    if out.0.Ok? {
      AppendFreshId(rows, out.0.value);
    }
  }

  lemma AppendFreshId(rows: seq<Favorite>, f: Favorite)
    requires DistinctIds(rows)
    requires forall i :: 0 <= i < |rows| ==> rows[i].id < f.id
    ensures DistinctIds(rows + [f])
  {
    var rows' := rows + [f];
    forall i, j | 0 <= i < j < |rows'| ensures rows'[i].id != rows'[j].id {
      assert rows'[i] == rows[i];
      if j < |rows| {
        assert rows'[j] == rows[j];
      }
    }
  }

  function UserRows(rows: seq<Favorite>, userId: int): (mine: seq<Favorite>)
    ensures forall f :: f in mine <==> f in rows && f.userId == userId
    ensures |mine| <= |rows|
  {
    if rows == [] then []
    else (if rows[0].userId == userId then [rows[0]] else []) + UserRows(rows[1..], userId)
  }

  predicate IdDesc(a: Favorite, b: Favorite) {
    a.id >= b.id
  }

  lemma IdDescIsPreorder()
    ensures TotalPreorder(IdDesc)
  {
  }

  /** `list_favorites`: the caller's rows, newest (largest id) first. */
  function ListFavorites(rows: seq<Favorite>, userId: int): (list: seq<Favorite>)
    ensures forall f :: f in list <==> f in rows && f.userId == userId
    ensures forall i, j :: 0 <= i < j < |list| ==> list[i].id >= list[j].id
    ensures multiset(list) == multiset(UserRows(rows, userId))
  {
    IdDescIsPreorder();
    var sorted := SortBy(UserRows(rows, userId), IdDesc);
    assert forall f :: f in sorted <==> f in multiset(sorted);
    sorted
  }
}

=== FILE: favorites_store.dfy ===
/** The browser-side favourites list: how it normalises its inputs, how it
    finds an existing favourite, and how it updates after the server
    accepted an add or a delete. The server is the `FavoritesApi` model,
    so a `Session` pairs the local list with the server table. */
module FavoritesStore {
  import opened Base
  import opened Json
  import opened Text
  import opened Models
  import opened FavoritesApi

  const LegacySingleKind := "metric"
  const LegacyPlanKind := "compare"

  /** `(k || 'single').trim()`: a missing or empty kind reads as "single". */
  function NormKind(k: Option<string>): (r: string)
    ensures k.None? || k.value == "" ==> r == DefaultKind
    ensures k.Some? && k.value != "" ==> r == Trim(k.value)
  {
    Trim(Or(k, DefaultKind))
  }

  /** A normalised kind has no surrounding blanks, and it is blank only
      for a kind made of white space alone. */
  lemma NormKindIsStripped(k: Option<string>)
    ensures Trim(NormKind(k)) == NormKind(k)
    ensures NormKind(k) == "" <==> k.Some? && k.value != "" && AllSpace(k.value)
  {
    if k.None? || k.value == "" {
      DefaultKindIsStripped();
    } else {
      GivenKindIsStripped(k.value);
    }
  }

  lemma DefaultKindIsStripped()
    ensures Trim(DefaultKind) == DefaultKind != ""
  {
    assert NormKind(None) == Trim(DefaultKind);
    assert |DefaultKind| == 6;
  }

  lemma GivenKindIsStripped(v: string)
    requires v != ""
    ensures Trim(NormKind(Some(v))) == NormKind(Some(v))
    ensures NormKind(Some(v)) == "" <==> AllSpace(v)
  {
    assert NormKind(Some(v)) == Trim(v);
    TrimIdempotent(v);
    TrimEmptyIffAllSpace(v);
  }

  /** The client and the server read a kind alike: the client takes a row
      for a plan exactly when the server would have. */
  lemma NormKindAgreesWithServer(req: AddRequest)
    ensures NormKind(req.kind) == PlanKind <==> IsPlanRequest(req)
  {
  }

  // ---------------------------------------------------------------------
  // List updates

  /** Whether a list entry stands for the same favourite: the same id, or
      the same non-empty key. */
  predicate SameFavorite(x: Favorite, fav: Favorite) {
    x.id == fav.id || (x.uniqKey != "" && fav.uniqKey != "" && x.uniqKey == fav.uniqKey)
  }

  predicate Listed(list: seq<Favorite>, fav: Favorite) {
    exists i :: 0 <= i < |list| && SameFavorite(list[i], fav)
  }

  /** `unshiftIfNotExists`: a favourite not yet listed goes to the front;
      otherwise the list stays as it is. */
  function Unshift(list: seq<Favorite>, fav: Favorite): (r: seq<Favorite>)
    ensures !Listed(list, fav) ==> r == [fav] + list
    ensures Listed(list, fav) ==> r == list
  {
    if Listed(list, fav) then list else [fav] + list
  }

  /** Adding the same favourite twice lists it once. */
  lemma UnshiftIdempotent(list: seq<Favorite>, fav: Favorite)
    ensures Unshift(Unshift(list, fav), fav) == Unshift(list, fav)
  {
    if !Listed(list, fav) {
      assert SameFavorite(Unshift(list, fav)[0], fav);
    }
  }

  /** The local side of a successful delete: every entry with that id goes,
      the others stay. */
  function DropId(list: seq<Favorite>, favId: int): (r: seq<Favorite>)
    ensures forall x :: x in r <==> x in list && x.id != favId
    ensures |r| <= |list|
  {
    if list == [] then []
    else (if list[0].id != favId then [list[0]] else []) + DropId(list[1..], favId)
  }

  /** Dropping distributes over concatenation, so the kept entries keep
      their relative order. */
  lemma {:induction false} DropIdAppend(a: seq<Favorite>, b: seq<Favorite>, favId: int)
    ensures DropId(a + b, favId) == DropId(a, favId) + DropId(b, favId)
    decreases |a|
  {
    if a == [] {
      assert a + b == b;
    } else {
      assert (a + b)[0] == a[0];
      assert (a + b)[1..] == a[1..] + b;
      DropIdAppend(a[1..], b, favId);
    }
  }

  /** A list without the id comes back unchanged. */
  lemma {:induction false} DropAbsentId(list: seq<Favorite>, favId: int)
    requires forall i :: 0 <= i < |list| ==> list[i].id != favId
    ensures DropId(list, favId) == list
    decreases |list|
  {
    if list != [] {
      DropAbsentId(list[1..], favId);
    }
  }

  // ---------------------------------------------------------------------
  // Lookups

  /** An entry for this repository and metric, under the current kind or
      the legacy "metric". */
  predicate SingleMatch(x: Favorite, fullName: string, metric: string) {
    && NormKind(Some(x.kind)) in {DefaultKind, LegacySingleKind}
    && x.fullName == Some(fullName)
    && x.metric == Some(metric)
  }

  /** A plan entry with this key, under the current kind or the legacy
      "compare". */
  predicate PlanMatch(x: Favorite, uniqKey: string) {
    NormKind(Some(x.kind)) in {PlanKind, LegacyPlanKind} && x.uniqKey == uniqKey
  }

  /** `Array.prototype.find`: the first entry satisfying `p`. */
  function Find(list: seq<Favorite>, p: Favorite -> bool): (r: Option<Favorite>)
    ensures r.None? <==> forall i :: 0 <= i < |list| ==> !p(list[i])
    ensures r.Some? ==> r.value in list && p(r.value)
    ensures r.Some? ==> exists i :: 0 <= i < |list| && list[i] == r.value && forall j :: 0 <= j < i ==> !p(list[j])
  {
    if list == [] then None
    else if p(list[0]) then Some(list[0])
    else
      var rest := Find(list[1..], p);
      assert forall i :: 1 <= i < |list| ==> list[i] == list[1..][i - 1];
      rest
  }

  function FindSingle(list: seq<Favorite>, fullName: string, metric: string): Option<Favorite> {
    Find(list, (x: Favorite) => SingleMatch(x, fullName, metric))
  }

  function FindPlanByKey(list: seq<Favorite>, uniqKey: string): Option<Favorite> {
    Find(list, (x: Favorite) => PlanMatch(x, uniqKey))
  }

  // ---------------------------------------------------------------------
  // Inputs

  /** The two call shapes: an object (`full_name`, `fullName` or `repo`
      naming the repository) or two plain strings. `None` is `null` or
      `undefined`. */
  datatype SingleArg =
    | ObjectArg(fullNameSnake: Option<string>, fullNameCamel: Option<string>, repo: Option<string>,
                metric: Option<string>, platform: Option<string>, title: Option<string>, url: Option<string>)
    | StringArgs(first: Option<string>, second: Option<string>)

  datatype SingleInput = SingleInput(fullName: string, metric: string, platform: string, title: string, url: string)

  /** `a ?? b ?? c ?? ''`: the first present value. */
  function FirstPresent(a: Option<string>, b: Option<string>, c: Option<string>): (r: string)
    ensures a.Some? ==> r == a.value
    ensures a.None? && b.Some? ==> r == b.value
    ensures a.None? && b.None? ==> r == c.GetOr("")
  {
    a.GetOr(b.GetOr(c.GetOr("")))
  }

  /** `normalizeSingleInput`. Unlike `||`, `??` keeps an empty string, so
      `{full_name: "", repo: "a/b"}` names no repository. */
  function NormalizeSingle(arg: SingleArg): (n: SingleInput)
    ensures arg.StringArgs? ==> n == SingleInput(Trim(arg.first.GetOr("")), Trim(arg.second.GetOr("")), DefaultPlatform, "", "")
    ensures arg.ObjectArg? ==> && n.fullName == Trim(FirstPresent(arg.fullNameSnake, arg.fullNameCamel, arg.repo))
                               && n.metric == Trim(arg.metric.GetOr(""))
                               && n.platform == Trim(arg.platform.GetOr(DefaultPlatform))
                               && n.title == arg.title.GetOr("")
                               && n.url == arg.url.GetOr("")
  {
    match arg
    case ObjectArg(snake, camel, repo, metric, platform, title, url) =>
      SingleInput(Trim(FirstPresent(snake, camel, repo)), Trim(metric.GetOr("")),
                  Trim(platform.GetOr(DefaultPlatform)), title.GetOr(""), url.GetOr(""))
    case StringArgs(a, b) =>
      SingleInput(Trim(a.GetOr("")), Trim(b.GetOr("")), DefaultPlatform, "", "")
  }

  lemma EmptyNameShadowsRepo()
    ensures NormalizeSingle(ObjectArg(Some(""), None, Some("a/b"), Some("m"), None, None, None)).fullName == ""
  {
    assert Trim("") == "";
  }

  /** `isFavorited`: never for a blank repository or metric. */
  function IsFavorited(list: seq<Favorite>, arg: SingleArg): (b: bool)
    ensures NormalizeSingle(arg).fullName == "" || NormalizeSingle(arg).metric == "" ==> !b
    ensures b <==> && NormalizeSingle(arg).fullName != "" && NormalizeSingle(arg).metric != ""
                   && exists i :: 0 <= i < |list| && SingleMatch(list[i], NormalizeSingle(arg).fullName, NormalizeSingle(arg).metric)
  {
    var n := NormalizeSingle(arg);
    if n.fullName == "" || n.metric == "" then false
    else FindSingle(list, n.fullName, n.metric).Some?
  }

  function IsPlanKeyFavorited(list: seq<Favorite>, uniqKey: string): (b: bool)
    ensures b <==> exists i :: 0 <= i < |list| && PlanMatch(list[i], uniqKey)
  {
    FindPlanByKey(list, uniqKey).Some?
  }

  // ---------------------------------------------------------------------
  // Talking to the server

  /** The local list next to the server table it was loaded from. */
  datatype Session = Session(list: seq<Favorite>, table: seq<Favorite>)

  /** The list shows only rows of the signed-in user that the server holds. */
  ghost predicate Mirrors(s: Session, userId: int) {
    forall x :: x in s.list ==> x in s.table && x.userId == userId
  }

  /** `removeFavorite`: the server delete first; only when it succeeds is
      the id dropped from the list. */
  function Remove(s: Session, userId: int, favId: int): (out: (bool, Session))
    ensures !out.0 ==> out.1 == s
    ensures out.0 <==> RemoveFavorite(s.table, userId, favId).Ok?
    ensures out.0 ==> out.1 == Session(DropId(s.list, favId), RemoveFavorite(s.table, userId, favId).value)
  {
    match RemoveFavorite(s.table, userId, favId)
    case Err(_) => (false, s)
    case Ok(table') => (true, Session(DropId(s.list, favId), table'))
  }

  /** The body `addSingle` posts. */
  function SingleBody(n: SingleInput): AddRequest {
    AddRequest(Some(DefaultKind), Some(SingleKey(n.fullName, n.metric, n.platform)), Some(n.title), None,
               Some(n.fullName), Some(n.metric), Some(n.platform), Some(n.url))
  }

  /** `addSingle`: a blank repository or metric is refused locally;
      otherwise the server's new row is put at the front of the list. */
  function AddSingle(s: Session, userId: int, arg: SingleArg): (out: (bool, Session))
    ensures !out.0 ==> out.1 == s
    ensures NormalizeSingle(arg).fullName == "" || NormalizeSingle(arg).metric == "" ==> !out.0
    ensures NormalizeSingle(arg).fullName != "" && NormalizeSingle(arg).metric != "" ==>
      (out.0 <==> AddFavorite(s.table, userId, SingleBody(NormalizeSingle(arg))).0.Ok?)
    ensures out.0 ==> var added := AddFavorite(s.table, userId, SingleBody(NormalizeSingle(arg)));
      && added.0.Ok?
      && out.1 == Session(Unshift(s.list, added.0.value), added.1)
  {
    var n := NormalizeSingle(arg);
    if n.fullName == "" || n.metric == "" then (false, s)
    else
      var added := AddFavorite(s.table, userId, SingleBody(n));
      match added.0
      case Err(_) => (false, s)
      case Ok(f) => (true, Session(Unshift(s.list, f), added.1))
  }

  /** `toggleSingle`: removes the listed match when there is one, adds
      otherwise. */
  function ToggleSingle(s: Session, userId: int, arg: SingleArg): (out: (bool, Session))
    ensures !out.0 ==> out.1 == s
    ensures NormalizeSingle(arg).fullName == "" || NormalizeSingle(arg).metric == "" ==> !out.0
    ensures var n := NormalizeSingle(arg);
      n.fullName != "" && n.metric != "" && FindSingle(s.list, n.fullName, n.metric).Some? ==>
        out == Remove(s, userId, FindSingle(s.list, n.fullName, n.metric).value.id)
    ensures var n := NormalizeSingle(arg);
      n.fullName != "" && n.metric != "" && FindSingle(s.list, n.fullName, n.metric).None? ==>
        out == AddSingle(s, userId, arg)
  {
    var n := NormalizeSingle(arg);
    if n.fullName == "" || n.metric == "" then (false, s)
    else match FindSingle(s.list, n.fullName, n.metric)
      case Some(existing) => Remove(s, userId, existing.id)
      case None =>
        var arg' := ObjectArg(Some(n.fullName), None, None, Some(n.metric), Some(n.platform), Some(n.title), Some(n.url));
        NormalizedIsStripped(arg);
        RenormalizeIsIdentity(n);
        assert NormalizeSingle(arg') == n;
        AddSingle(s, userId, arg')
  }

  /** A stripped, non-empty field is read back as sent. */
  lemma FieldOfStripped(x: string, default: string)
    requires x != "" && Trim(x) == x
    ensures Field(Some(x), default) == x
  {
  }

  /** A field that starts and ends with non-space is read back as sent. */
  lemma FieldOfNonSpaceEnds(x: string, default: string)
    requires |x| > 0 && !IsSpace(x[0]) && !IsSpace(x[|x| - 1])
    ensures Field(Some(x), default) == x
  {
    TrimKeepsNonSpaceEnds(x);
  }

  lemma SingleKeyEnds(n: SingleInput)
    requires n.metric != "" && !IsSpace(n.metric[|n.metric| - 1])
    ensures |SingleKey(n.fullName, n.metric, n.platform)| > 0
    ensures !IsSpace(SingleKey(n.fullName, n.metric, n.platform)[0])
    ensures !IsSpace(SingleKey(n.fullName, n.metric, n.platform)[|SingleKey(n.fullName, n.metric, n.platform)| - 1])
  {
    var key := SingleKey(n.fullName, n.metric, n.platform);
    assert key[0] == 's';
    assert key[|key| - 1] == n.metric[|n.metric| - 1];
  }

  /** The server keeps the key `addSingle` sends as it is. */
  lemma SingleBodyKey(n: SingleInput)
    requires n.metric != "" && !IsSpace(n.metric[|n.metric| - 1])
    ensures Field(SingleBody(n).uniqKey, "") == SingleKey(n.fullName, n.metric, n.platform)
  {
    SingleKeyEnds(n);
    FieldOfNonSpaceEnds(SingleKey(n.fullName, n.metric, n.platform), "");
  }

  /** What the server makes of the body `addSingle` posts for a normalised
      input. */
  lemma SingleBodyRow(rows: seq<Favorite>, userId: int, n: SingleInput)
    requires n.fullName != "" && Trim(n.fullName) == n.fullName
    requires n.metric != "" && Trim(n.metric) == n.metric
    ensures var r := SingleRow(rows, userId, SingleBody(n));
      && r.Ok?
      && r.value.fullName == Some(n.fullName) && r.value.metric == Some(n.metric)
      && r.value.uniqKey == SingleKey(n.fullName, n.metric, n.platform)
  {
    FieldOfStripped(n.fullName, "");
    FieldOfStripped(n.metric, "");
    SingleBodyKey(n);
  }

  /** The key the client sends is the key the server would have derived
      itself, as long as the platform is not blank. */
  lemma ClientKeyMatchesServerDefault(rows: seq<Favorite>, userId: int, n: SingleInput)
    requires n.fullName != "" && Trim(n.fullName) == n.fullName
    requires n.metric != "" && Trim(n.metric) == n.metric
    requires n.platform != "" && Trim(n.platform) == n.platform
    ensures SingleRow(rows, userId, SingleBody(n)).Ok?
    ensures SingleRow(rows, userId, SingleBody(n)).value.uniqKey
         == SingleRow(rows, userId, SingleBody(n).(uniqKey := None)).value.uniqKey
  {
    SingleBodyRow(rows, userId, n);
    FieldOfStripped(n.fullName, "");
    FieldOfStripped(n.metric, "");
    FieldOfStripped(n.platform, DefaultPlatform);
  }

  lemma DefaultKindStripped()
    ensures Trim(DefaultKind) == DefaultKind
  {
    TrimKeepsNonSpaceEnds(DefaultKind);
  }

  lemma DefaultPlatformStripped()
    ensures Trim(DefaultPlatform) == DefaultPlatform
  {
    TrimKeepsNonSpaceEnds(DefaultPlatform);
  }

  lemma DefaultKindNormal()
    ensures NormKind(Some(DefaultKind)) == DefaultKind
  {
    DefaultKindStripped();
    assert Or(Some(DefaultKind), DefaultKind) == DefaultKind;
  }

  lemma DefaultKindRead()
    ensures Field(Some(DefaultKind), DefaultKind) == DefaultKind
  {
    DefaultKindStripped();
    assert Or(Some(DefaultKind), DefaultKind) == DefaultKind;
  }

  lemma BlankPlatformRead()
    ensures Field(Some(""), DefaultPlatform) == DefaultPlatform
  {
    DefaultPlatformStripped();
    assert Or(Some(""), DefaultPlatform) == DefaultPlatform;
  }

  /** A blank platform is where the two keys part: the client sends
      "single::…" while the server stores platform "github" and would have
      derived "single:github:…". */
  lemma BlankPlatformKeysDiverge(rows: seq<Favorite>, userId: int, n: SingleInput)
    requires n.fullName != "" && Trim(n.fullName) == n.fullName
    requires n.metric != "" && Trim(n.metric) == n.metric
    requires n.platform == ""
    ensures SingleRow(rows, userId, SingleBody(n)).Ok?
    ensures SingleRow(rows, userId, SingleBody(n)).value.platform == Some(DefaultPlatform)
    ensures SingleRow(rows, userId, SingleBody(n)).value.uniqKey == SingleKey(n.fullName, n.metric, "")
    ensures SingleRow(rows, userId, SingleBody(n).(uniqKey := None)).value.uniqKey
         == SingleKey(n.fullName, n.metric, DefaultPlatform)
  {
    SingleBodyRow(rows, userId, n);
    BlankPlatformRead();
    FieldOfStripped(n.fullName, "");
    FieldOfStripped(n.metric, "");
  }

  /** Normalising an already normalised input changes nothing. */
  lemma RenormalizeIsIdentity(n: SingleInput)
    requires Trim(n.fullName) == n.fullName && Trim(n.metric) == n.metric && Trim(n.platform) == n.platform
    ensures NormalizeSingle(ObjectArg(Some(n.fullName), None, None, Some(n.metric), Some(n.platform),
                                      Some(n.title), Some(n.url))) == n
  {
  }

  /** The row the server accepts for an `addSingle` body is a single
      favourite for that repository and metric. */
  lemma AcceptedSingleMatches(rows: seq<Favorite>, userId: int, n: SingleInput)
    requires n.fullName != "" && Trim(n.fullName) == n.fullName
    requires n.metric != "" && Trim(n.metric) == n.metric
    requires AddFavorite(rows, userId, SingleBody(n)).0.Ok?
    ensures SingleMatch(AddFavorite(rows, userId, SingleBody(n)).0.value, n.fullName, n.metric)
  {
    SingleBodyIsNotPlan(n);
    SingleBodyRow(rows, userId, n);
    var f := SingleRow(rows, userId, SingleBody(n)).value;
    assert f.kind == DefaultKind;
    DefaultKindNormal();
  }

  lemma SingleBodyIsNotPlan(n: SingleInput)
    ensures !IsPlanRequest(SingleBody(n))
  {
    DefaultKindRead();
  }

  /** A row the server has just created is not in a list that mirrors the
      user's rows: its id is new and the user had no row with its key. */
  lemma NewRowNotListed(s: Session, userId: int, req: AddRequest)
    requires Mirrors(s, userId)
    requires AddFavorite(s.table, userId, req).0.Ok?
    ensures !Listed(s.list, AddFavorite(s.table, userId, req).0.value)
  {
  }

  lemma NormalizedIsStripped(arg: SingleArg)
    ensures var n := NormalizeSingle(arg);
      Trim(n.fullName) == n.fullName && Trim(n.metric) == n.metric && Trim(n.platform) == n.platform
  {
    var n := NormalizeSingle(arg);
    match arg
    case ObjectArg(snake, camel, repo, metric, platform, _, _) =>
      TrimIdempotent(FirstPresent(snake, camel, repo));
      TrimIdempotent(metric.GetOr(""));
      TrimIdempotent(platform.GetOr(DefaultPlatform));
    case StringArgs(a, b) =>
      TrimIdempotent(a.GetOr(""));
      TrimIdempotent(b.GetOr(""));
      DefaultPlatformStripped();
  }

  lemma MatchAtFrontIsFavorited(list: seq<Favorite>, f: Favorite, arg: SingleArg)
    requires NormalizeSingle(arg).fullName != "" && NormalizeSingle(arg).metric != ""
    requires SingleMatch(f, NormalizeSingle(arg).fullName, NormalizeSingle(arg).metric)
    ensures IsFavorited([f] + list, arg)
  {
    assert ([f] + list)[0] == f;
  }

  /** Toggling a favourite the list does not show posts it: the toggle
      succeeds exactly when the server accepts the row, and then the list
      shows it. */
  lemma ToggleAddsWhenAbsent(s: Session, userId: int, arg: SingleArg)
    requires Mirrors(s, userId)
    requires var n := NormalizeSingle(arg); n.fullName != "" && n.metric != "" && FindSingle(s.list, n.fullName, n.metric).None?
    ensures ToggleSingle(s, userId, arg).0 <==> AddFavorite(s.table, userId, SingleBody(NormalizeSingle(arg))).0.Ok?
    ensures ToggleSingle(s, userId, arg).0 ==> IsFavorited(ToggleSingle(s, userId, arg).1.list, arg)
  {
    var n := NormalizeSingle(arg);
    var out := ToggleSingle(s, userId, arg);
    assert out == AddSingle(s, userId, arg);
    var added := AddFavorite(s.table, userId, SingleBody(n));
    if added.0.Ok? {
      NormalizedIsStripped(arg);
      AcceptedSingleMatches(s.table, userId, n);
      NewRowNotListed(s, userId, SingleBody(n));
      assert out.1.list == [added.0.value] + s.list;
      MatchAtFrontIsFavorited(s.list, added.0.value, arg);
    }
  }

  /** Toggling a favourite the list shows deletes it on the server and
      drops it from the list. */
  lemma ToggleRemovesWhenPresent(s: Session, userId: int, arg: SingleArg)
    requires Mirrors(s, userId)
    requires var n := NormalizeSingle(arg); n.fullName != "" && n.metric != "" && FindSingle(s.list, n.fullName, n.metric).Some?
    ensures var n := NormalizeSingle(arg);
      var existing := FindSingle(s.list, n.fullName, n.metric).value;
      && ToggleSingle(s, userId, arg).0
      && existing !in ToggleSingle(s, userId, arg).1.list
  {
    var n := NormalizeSingle(arg);
    var existing := FindSingle(s.list, n.fullName, n.metric).value;
    assert existing in s.table && existing.userId == userId;
  }

  // ---------------------------------------------------------------------
  // Plans

  /** `obj[k] = v` on an object's fields: the value is replaced where the
      key stands, or appended at the end. Afterwards `k` reads `v` and
      every other key reads as before. */
  function SetField(fields: seq<(string, Json)>, k: string, v: Json): (r: seq<(string, Json)>)
    ensures (k, v) in r
    ensures forall p :: p in r && p.0 != k ==> p in fields
    ensures forall p :: p in fields && p.0 != k ==> p in r
    ensures Get(r, k) == Some(v)
    ensures forall k' :: k' != k ==> Get(r, k') == Get(fields, k')
  {
    if exists i :: 0 <= i < |fields| && fields[i].0 == k then
      GetReplace(fields, k, v);
      Replace(fields, k, v)
    else
      GetAppend(fields, k, v);
      fields + [(k, v)]
  }

  /** Replacing every value under `k` makes `k` read `v` and leaves the
      other keys alone. */
  lemma {:induction false} GetReplace(fields: seq<(string, Json)>, k: string, v: Json)
    requires exists i :: 0 <= i < |fields| && fields[i].0 == k
    ensures Get(Replace(fields, k, v), k) == Some(v)
    ensures forall k' :: k' != k ==> Get(Replace(fields, k, v), k') == Get(fields, k')
    decreases |fields|
  {
    var r := Replace(fields, k, v);
    assert r[1..] == Replace(fields[1..], k, v);
    if fields[0].0 != k {
      var i :| 0 <= i < |fields| && fields[i].0 == k;
      assert fields[1..][i - 1].0 == k;
      GetReplace(fields[1..], k, v);
    } else {
      forall k' | k' != k ensures Get(r, k') == Get(fields, k') {
        if exists i :: 0 <= i < |fields[1..]| && fields[1..][i].0 == k {
          GetReplace(fields[1..], k, v);
        } else {
          ReplaceAbsent(fields[1..], k, v);
        }
      }
    }
  }

  lemma {:induction false} ReplaceAbsent(fields: seq<(string, Json)>, k: string, v: Json)
    requires forall i :: 0 <= i < |fields| ==> fields[i].0 != k
    ensures Replace(fields, k, v) == fields
    decreases |fields|
  {
    if fields != [] {
      ReplaceAbsent(fields[1..], k, v);
    }
  }

  /** Appending a key not yet present makes it read `v` and leaves the
      other keys alone. */
  lemma {:induction false} GetAppend(fields: seq<(string, Json)>, k: string, v: Json)
    requires forall i :: 0 <= i < |fields| ==> fields[i].0 != k
    ensures Get(fields + [(k, v)], k) == Some(v)
    ensures forall k' :: k' != k ==> Get(fields + [(k, v)], k') == Get(fields, k')
    decreases |fields|
  {
    if fields != [] {
      assert (fields + [(k, v)])[1..] == fields[1..] + [(k, v)];
      GetAppend(fields[1..], k, v);
    }
  }

  function Replace(fields: seq<(string, Json)>, k: string, v: Json): (r: seq<(string, Json)>)
    ensures |r| == |fields|
    ensures forall i :: 0 <= i < |fields| ==> r[i] == (if fields[i].0 == k then (k, v) else fields[i])
  {
    if fields == [] then []
    else [if fields[0].0 == k then (k, v) else fields[0]] + Replace(fields[1..], k, v)
  }

  /** The first field named `k`. */
  function Get(fields: seq<(string, Json)>, k: string): Option<Json> {
    if fields == [] then None
    else if fields[0].0 == k then Some(fields[0].1)
    else Get(fields[1..], k)
  }

  /** The repository list of a plan: `repos` when it is an array, else
      `projects` when that is, else empty. */
  function PlanRepos(payload: seq<(string, Json)>): (repos: Json)
    ensures repos.Arr?
  {
    match Get(payload, "repos")
    case Some(Arr(items)) => Arr(items)
    case _ =>
      match Get(payload, "projects")
      case Some(Arr(items)) => Arr(items)
      case _ => Arr([])
  }

  /** The payload posted for a plan: the caller's, with `repos` and
      `projects` both set to the plan's repository list. */
  function PlanPayload(payload: seq<(string, Json)>): (p: seq<(string, Json)>)
    ensures ("repos", PlanRepos(payload)) in p && ("projects", PlanRepos(payload)) in p
    ensures forall q :: q in payload && q.0 != "repos" && q.0 != "projects" ==> q in p
    ensures Get(p, "repos") == Some(PlanRepos(payload)) && Get(p, "projects") == Some(PlanRepos(payload))
    ensures forall k :: k != "repos" && k != "projects" ==> Get(p, k) == Get(payload, k)
  {
    SetField(SetField(payload, "repos", PlanRepos(payload)), "projects", PlanRepos(payload))
  }

  /** A destructured JavaScript argument: a default such as `payload = {}`
      replaces `undefined` only, so `null` stays distinct. */
  datatype JsArg<T> = Undefined | Null | Given(value: T)

  /** The fields of a plan payload that is not `null`: `{}` when undefined. */
  function PayloadFields(payload: JsArg<seq<(string, Json)>>): seq<(string, Json)> {
    match payload
    case Given(fields) => fields
    case _ => []
  }

  /** The request `addPlan` posts for a key, a title and the caller's
      payload fields. A missing title is sent as "" (a `null` one reaches
      the server as `null`, which it reads the same way). */
  function PlanBody(uniqKey: string, title: Option<string>, fields: seq<(string, Json)>): (body: AddRequest)
    ensures IsPlanRequest(body) && body.uniqKey == Some(uniqKey)
    ensures body.payload == Some(Obj(PlanPayload(fields)))
  {
    PlanKindRead();
    AddRequest(Some(PlanKind), Some(uniqKey), Some(title.GetOr("")),
               Some(Obj(PlanPayload(fields))), None, None, None, None)
  }

  /** `addPlan`: a missing or empty key is refused locally (an all-blank
      key reaches the server, which refuses it). An `undefined` payload is
      `{}`; a `null` one makes `payload.repos` throw before any request. */
  function AddPlan(s: Session, userId: int, uniqKey: Option<string>, title: Option<string>,
                   payload: JsArg<seq<(string, Json)>>): (out: (bool, Session))
    ensures !out.0 ==> out.1 == s
    ensures uniqKey.None? || uniqKey.value == "" ==> !out.0
    ensures payload.Null? ==> out == (false, s)
    ensures uniqKey.Some? && uniqKey.value != "" && !payload.Null? ==>
      var added := AddFavorite(s.table, userId,
                               PlanBody(uniqKey.value, title, PayloadFields(payload)));
      && (out.0 <==> added.0.Ok?)
      && (out.0 ==> out.1 == Session(Unshift(s.list, added.0.value), added.1))
  {
    if uniqKey.None? || uniqKey.value == "" then (false, s)
    else
      if payload.Null? then (false, s)
      else
        var body := PlanBody(uniqKey.value, title, PayloadFields(payload));
        var added := AddFavorite(s.table, userId, body);
        match added.0
        case Err(_) => (false, s)
        case Ok(f) => (true, Session(Unshift(s.list, f), added.1))
  }

  /** `togglePlanByKey`: removes the listed plan with that key, or adds. */
  function TogglePlan(s: Session, userId: int, uniqKey: Option<string>, title: Option<string>,
                      payload: JsArg<seq<(string, Json)>>): (out: (bool, Session))
    ensures !out.0 ==> out.1 == s
    ensures uniqKey.Some? && FindPlanByKey(s.list, uniqKey.value).Some? ==>
      out == Remove(s, userId, FindPlanByKey(s.list, uniqKey.value).value.id)
    ensures uniqKey.Some? && FindPlanByKey(s.list, uniqKey.value).None? ==>
      out == AddPlan(s, userId, uniqKey, title, payload)
    ensures uniqKey.None? ==> out == AddPlan(s, userId, uniqKey, title, payload) && !out.0
  {
    match uniqKey
    case Some(k) =>
      (match FindPlanByKey(s.list, k)
       case Some(existing) => Remove(s, userId, existing.id)
       case None => AddPlan(s, userId, uniqKey, title, payload))
    case None => AddPlan(s, userId, uniqKey, title, payload)
  }

  /** Toggling a stripped key the list does not show posts the plan: with
      a payload that is not `null`, the toggle succeeds exactly when the
      server accepts it, and then the list shows a plan under that key; a
      `null` payload fails before anything is sent. */
  lemma TogglePlanAddsWhenAbsent(s: Session, userId: int, k: string, title: Option<string>,
                                 payload: JsArg<seq<(string, Json)>>)
    requires Mirrors(s, userId)
    requires k != "" && Trim(k) == k
    requires FindPlanByKey(s.list, k).None?
    ensures payload.Null? ==> TogglePlan(s, userId, Some(k), title, payload) == (false, s)
    ensures !payload.Null? ==>
      var body := PlanBody(k, title, PayloadFields(payload));
      TogglePlan(s, userId, Some(k), title, payload).0 <==> AddFavorite(s.table, userId, body).0.Ok?
    ensures TogglePlan(s, userId, Some(k), title, payload).0 ==>
      IsPlanKeyFavorited(TogglePlan(s, userId, Some(k), title, payload).1.list, k)
  {
    var out := TogglePlan(s, userId, Some(k), title, payload);
    assert out == AddPlan(s, userId, Some(k), title, payload);
    if !payload.Null? {
      var body := PlanBody(k, title, PayloadFields(payload));
      var added := AddFavorite(s.table, userId, body);
      assert out.0 <==> added.0.Ok?;
      if added.0.Ok? {
        PlanKindRead();
        assert Field(Some(k), "") == k;
        var f := added.0.value;
        assert f.kind == PlanKind && f.uniqKey == k;
        NewRowNotListed(s, userId, body);
        assert out.1.list == Unshift(s.list, f);
        assert out.1.list[0] == f;
        assert PlanMatch(out.1.list[0], k);
      }
    }
  }

  lemma PlanKindStripped()
    ensures Trim(PlanKind) == PlanKind
  {
    TrimKeepsNonSpaceEnds(PlanKind);
  }

  lemma PlanKindRead()
    ensures NormKind(Some(PlanKind)) == PlanKind
    ensures Field(Some(PlanKind), DefaultKind) == PlanKind
  {
    PlanKindStripped();
    var o := Some(PlanKind);
    assert o.value != "" by { assert |PlanKind| == 4; }
    assert Or(o, DefaultKind) == PlanKind;
    assert Field(o, DefaultKind) == Trim(PlanKind);
  }
}

=== FILE: json.dfy ===
/** Decoded JSON documents, as far as the model needs to look inside them. */
module Json {
  import opened Base

  datatype Json =
    | Null
    | Bool(b: bool)
    | Num(n: real)
    | Str(s: string)
    | Arr(items: seq<Json>)
    | Obj(fields: seq<(string, Json)>)

  /** Python truthiness of a decoded value: `null`, `false`, `0`, `""`,
      `[]` and `{}` are falsy, everything else is truthy. */
  predicate Truthy(j: Json) {
    match j
    case Null => false
    case Bool(b) => b
    case Num(n) => n != 0.0
    case Str(s) => |s| > 0
    case Arr(items) => |items| > 0
    case Obj(fields) => |fields| > 0
  }

  /** The outcome of Python's `float(v)` on a decoded value: numbers convert,
      booleans become 1.0 or 0.0, `null`, arrays and objects raise. */
  function ToFloat(j: Json): (r: Option<real>)
    ensures j.Num? ==> r == Some(j.n)
    ensures j.Null? || j.Arr? || j.Obj? || j.Str? ==> r.None?
  {
    match j
    case Num(n) => Some(n)
    case Bool(b) => Some(if b then 1.0 else 0.0)
    case _ => None
  }
}

=== FILE: metric_cache.dfy ===
/** Reading one metric series through the database cache: a row younger than
    a day is served as is; otherwise the upstream OpenDigger document is
    fetched, reduced to its monthly entries and written back. The upstream
    response and the clock are parameters. */
module MetricCache {
  import opened Base
  import opened Json
  import opened Text
  import opened MetricUtils
  import opened Models

  /** A day, in seconds. */
  const CacheTtlSeconds := 24 * 60 * 60

  /** What the upstream request produced: an HTTP error status (absent when
      the error carries no response), a transport failure, a body that is
      not JSON, or a decoded JSON body. */
  datatype Upstream =
    | HttpError(code: Option<int>)
    | Unreachable
    | NotJson
    | Body(value: Json)

  datatype FetchError =
    | NoSuchMetric             // upstream answered 404
    | UpstreamHttp(code: Option<int>)
    | UpstreamUnreachable
    | NotAnObject
    | NoMonthlyData
    | UndecodableBody          // escapes the handler: the framework answers 500
  {
    function Status(): int {
      match this
      case NoSuchMetric => 404
      case UpstreamHttp(_) => 502
      case UpstreamUnreachable => 502
      case NotAnObject => 502
      case NoMonthlyData => 404
      case UndecodableBody => 500
    }
  }

  datatype Fetched = Fetched(data: seq<Record>, cached: bool)

  /** A key of the upstream document that names a month: seven characters
      with exactly one dash ("2024-01"). */
  predicate IsMonthKey(k: string) {
    |k| == 7 && Count(k, '-') == 1
  }

  /** The `{"month": k, "count": v}` records of the document's entries
      whose key `isMonth` accepts, in document order. */
  function MonthlyRecords(fields: seq<(string, Json)>, isMonth: string -> bool): (rs: seq<Record>)
    ensures |rs| <= |fields|
    ensures forall r :: r in rs ==> r.month.Some? && isMonth(r.month.value) && r.count.Some?
  {
    if fields == [] then []
    else
      var rest := MonthlyRecords(fields[..|fields| - 1], isMonth);
      var (k, v) := fields[|fields| - 1];
      if isMonth(k) then rest + [Record(Some(k), Some(v))] else rest
  }

  /** Exactly the month-keyed entries survive, and nothing else. */
  lemma {:induction false} MonthlyRecordsExact(fields: seq<(string, Json)>, isMonth: string -> bool, k: string, v: Json)
    ensures Record(Some(k), Some(v)) in MonthlyRecords(fields, isMonth) <==> (k, v) in fields && isMonth(k)
  {
    if fields != [] {
      var init := fields[..|fields| - 1];
      var last := fields[|fields| - 1];
      MonthlyRecordsExact(init, isMonth, k, v);
      assert fields == init + [last];
      assert (k, v) in fields <==> (k, v) in init || (k, v) == last;
      if isMonth(last.0) {
        assert MonthlyRecords(fields, isMonth) == MonthlyRecords(init, isMonth) + [Record(Some(last.0), Some(last.1))];
      } else {
        assert MonthlyRecords(fields, isMonth) == MonthlyRecords(init, isMonth);
      }
    }
  }

  /** A document whose every key is a month loses nothing. */
  lemma {:induction false} MonthOnlyDocumentKeepsAll(fields: seq<(string, Json)>, isMonth: string -> bool)
    requires forall i :: 0 <= i < |fields| ==> isMonth(fields[i].0)
    ensures |MonthlyRecords(fields, isMonth)| == |fields|
  {
    if fields != [] {
      MonthOnlyDocumentKeepsAll(fields[..|fields| - 1], isMonth);
    }
  }

  predicate Fresh(row: SeriesRow, now: int) {
    row.updatedAt.Some? && now - row.updatedAt.value < CacheTtlSeconds
  }

  function SeriesKeyOf(platform: string, entity: string, repo: Option<string>, metric: string): SeriesKey {
    SeriesKey(platform, entity, RepoColumn(repo), metric)
  }

  /** `fetch_and_cache_data_db`. The upstream response is consulted only on
      a miss; an error leaves the table as it was; a success replaces the
      row with the monthly records and stamps it `now`. */
  function FetchAndCache(store: Store, platform: string, entity: string, repo: Option<string>,
                         metric: string, upstream: Upstream, now: int): (out: (Result<Fetched, FetchError>, Store))
    ensures var key := SeriesKeyOf(platform, entity, repo, metric);
      key in store && Fresh(store[key], now) ==>
        out == (Ok(Fetched(ToRecords(store[key]), true)), store)
    ensures out.0.Err? ==> out.1 == store
    ensures out.0.Ok? && out.0.value.cached ==>
      var key := SeriesKeyOf(platform, entity, repo, metric);
      key in store && Fresh(store[key], now)
    ensures var key := SeriesKeyOf(platform, entity, repo, metric);
      !(key in store && Fresh(store[key], now)) ==>
        (out.0.Ok? <==> upstream.Body? && upstream.value.Obj? && MonthlyRecords(upstream.value.fields, IsMonthKey) != [])
    ensures out.1.Keys == store.Keys || out.1.Keys == store.Keys + {SeriesKeyOf(platform, entity, repo, metric)}
    ensures out.0.Ok? && !out.0.value.cached ==>
      && upstream.Body? && upstream.value.Obj?
      && out.0.value.data == MonthlyRecords(upstream.value.fields, IsMonthKey) != []
      && out.1 == Upsert(store, SeriesKeyOf(platform, entity, repo, metric), Encoded(out.0.value.data), now)
    ensures out.0.Err? ==> match out.0.error
      case NoSuchMetric => upstream == HttpError(Some(404))
      case UpstreamHttp(c) => upstream == HttpError(c) && c != Some(404)
      case UpstreamUnreachable => upstream == Unreachable
      case UndecodableBody => upstream == NotJson
      case NotAnObject => upstream.Body? && !upstream.value.Obj?
      case NoMonthlyData => upstream.Body? && upstream.value.Obj? && MonthlyRecords(upstream.value.fields, IsMonthKey) == []
  {
    var key := SeriesKeyOf(platform, entity, repo, metric);
    if key in store && Fresh(store[key], now) then
      (Ok(Fetched(ToRecords(store[key]), true)), store)
    else
      match upstream
      case HttpError(code) =>
        (Err(if code == Some(404) then NoSuchMetric else UpstreamHttp(code)), store)
      case Unreachable => (Err(UpstreamUnreachable), store)
      case NotJson => (Err(UndecodableBody), store)
      case Body(doc) =>
        if !doc.Obj? then (Err(NotAnObject), store)
        else
          var recs := MonthlyRecords(doc.fields, IsMonthKey);
          if recs == [] then (Err(NoMonthlyData), store)
          else (Ok(Fetched(recs, false)), Upsert(store, key, Encoded(recs), now))
  }

  /** A series just fetched from upstream is served from the table,
      unchanged, by every call within the following day, whatever upstream
      would say then. */
  lemma RefreshThenCached(store: Store, platform: string, entity: string, repo: Option<string>,
                          metric: string, upstream: Upstream, now: int, later: Upstream, now': int)
    requires now <= now' < now + CacheTtlSeconds
    requires var first := FetchAndCache(store, platform, entity, repo, metric, upstream, now).0;
      first.Ok? && !first.value.cached
    ensures var first := FetchAndCache(store, platform, entity, repo, metric, upstream, now);
      var second := FetchAndCache(first.1, platform, entity, repo, metric, later, now');
      second == (Ok(Fetched(first.0.value.data, true)), first.1)
  {
    var key := SeriesKeyOf(platform, entity, repo, metric);
    var first := FetchAndCache(store, platform, entity, repo, metric, upstream, now);
    assert first.1[key] == SeriesRow(Encoded(first.0.value.data), Some(now));
  }

  /** Once a day has passed the cached row no longer answers: for every
      upstream answer the outcome is the one an empty table would give, and
      the stale row is either left alone (on an error) or overwritten. */
  lemma StaleRowRefetched(store: Store, platform: string, entity: string, repo: Option<string>,
                          metric: string, now: int)
    requires var key := SeriesKeyOf(platform, entity, repo, metric);
      key in store && store[key].updatedAt.Some? && now - store[key].updatedAt.value >= CacheTtlSeconds
    ensures FetchAndCache(store, platform, entity, repo, metric, Unreachable, now) == (Err(UpstreamUnreachable), store)
    ensures forall up: Upstream {:trigger FetchAndCache(store, platform, entity, repo, metric, up, now)} ::
      var out := FetchAndCache(store, platform, entity, repo, metric, up, now);
      && out.0 == FetchAndCache(map[], platform, entity, repo, metric, up, now).0
      && (out.0.Err? ==> out.1 == store)
      && (out.0.Ok? ==> out.1 == Upsert(store, SeriesKeyOf(platform, entity, repo, metric), Encoded(out.0.value.data), now))
  {
  }
}

=== FILE: metric_utils.dfy ===
/** The shared statistics helpers: mean, population spread, the latest-n
    extraction from monthly records, and the weighted health score. Floats
    are modelled as `real`; the standard deviation is modelled through the
    variance it is the square root of, and rounding is not modelled. */
module MetricUtils {
  import opened Base
  import opened Json
  import Text
  import Sorting

  function Sum(s: seq<real>): real {
    if |s| == 0 then 0.0 else s[0] + Sum(s[1..])
  }

  lemma {:induction false} SumBounds(s: seq<real>, lo: real, hi: real)
    requires forall i :: 0 <= i < |s| ==> lo <= s[i] <= hi
    ensures |s| as real * lo <= Sum(s) <= |s| as real * hi
  {
    if |s| > 0 {
      SumBounds(s[1..], lo, hi);
    }
  }

  /** `mean`: the arithmetic mean, and 0.0 for an empty list. */
  function Mean(s: seq<real>): (m: real)
    ensures |s| == 0 ==> m == 0.0
    ensures |s| > 0 ==> m * |s| as real == Sum(s)
  {
    if |s| == 0 then 0.0 else Sum(s) / |s| as real
  }

  /** The mean lies between any lower and upper bound of the values. */
  lemma MeanBounds(s: seq<real>, lo: real, hi: real)
    requires |s| > 0
    requires forall i :: 0 <= i < |s| ==> lo <= s[i] <= hi
    ensures lo <= Mean(s) <= hi
  {
    SumBounds(s, lo, hi);
    DivisionBounds(Sum(s), |s| as real, lo, hi);
  }

  lemma DivisionBounds(x: real, n: real, lo: real, hi: real)
    requires n > 0.0 && n * lo <= x <= n * hi
    ensures lo <= x / n <= hi
  {
    assert x / n * n == x;
  }

  function SquaredDeviations(s: seq<real>, m: real): (d: seq<real>)
    ensures |d| == |s|
    ensures forall i :: 0 <= i < |s| ==> d[i] == (s[i] - m) * (s[i] - m)
  {
    if |s| == 0 then [] else [(s[0] - m) * (s[0] - m)] + SquaredDeviations(s[1..], m)
  }

  lemma {:induction false} SumNonNegative(s: seq<real>)
    requires forall i :: 0 <= i < |s| ==> s[i] >= 0.0
    ensures Sum(s) >= 0.0
  {
    if |s| > 0 {
      SumNonNegative(s[1..]);
    }
  }

  /** The population variance, whose square root `std_population` returns:
      the mean squared deviation from the mean, 0.0 for an empty list. It
      is never negative. */
  function Variance(s: seq<real>): (v: real)
    ensures |s| == 0 ==> v == 0.0
    ensures v >= 0.0
  {
    if |s| == 0 then 0.0
    else
      var d := SquaredDeviations(s, Mean(s));
      SumNonNegative(d);
      Sum(d) / |s| as real
  }

  /** A constant list has that constant as its mean and no spread. */
  lemma {:induction false} ConstantHasNoSpread(s: seq<real>, c: real)
    requires |s| > 0
    requires forall i :: 0 <= i < |s| ==> s[i] == c
    ensures Mean(s) == c
    ensures Variance(s) == 0.0
  {
    MeanBounds(s, c, c);
    var d := SquaredDeviations(s, c);
    SumBounds(d, 0.0, 0.0);
  }

  /** The values 1.0, 2.0, ..., 12.0, in order. */
  predicate IsOneToTwelve(s: seq<real>) {
    |s| == 12 && forall i :: 0 <= i < 12 ==> s[i] == (i + 1) as real
  }

  /** The twelve values 1..12 have mean 6.5 and population variance 143/12
      (standard deviation about 3.4521). */
  lemma OneToTwelve(s: seq<real>)
    requires IsOneToTwelve(s)
    ensures Mean(s) == 6.5
    ensures Variance(s) == 143.0 / 12.0
  {
    OneToTwelveSum(s);
    assert Mean(s) == 78.0 / 12.0;
    var dd := SquaredDeviations(s, 6.5);
    OneToTwelveDeviations(s, dd);
    SumOfDeviations(dd);
    assert Variance(s) == Sum(dd) / 12.0;
  }

  lemma OneToTwelveSum(s: seq<real>)
    requires IsOneToTwelve(s)
    ensures Sum(s) == 78.0
  {
    assert s[11] == 12.0 && s[10] == 11.0 && s[9] == 10.0 && s[8] == 9.0;
    assert s[7] == 8.0 && s[6] == 7.0 && s[5] == 6.0 && s[4] == 5.0;
    assert s[3] == 4.0 && s[2] == 3.0 && s[1] == 2.0 && s[0] == 1.0;
    assert Sum(s[11..]) == 12.0;
    assert Sum(s[10..]) == 23.0;
    assert Sum(s[9..]) == 33.0;
    assert Sum(s[8..]) == 42.0;
    assert Sum(s[7..]) == 50.0;
    assert Sum(s[6..]) == 57.0;
    assert Sum(s[5..]) == 63.0;
    assert Sum(s[4..]) == 68.0;
    assert Sum(s[3..]) == 72.0;
    assert Sum(s[2..]) == 75.0;
    assert Sum(s[1..]) == 77.0;
  }

  /** The squared deviations of 1..12 from 6.5 are the squares of
      5.5, 4.5, ..., 0.5 and back up again. */
  predicate IsTwelveDeviations(d: seq<real>) {
    && |d| == 12
    && d[0] == 30.25 && d[1] == 20.25 && d[2] == 12.25 && d[3] == 6.25
    && d[4] == 2.25 && d[5] == 0.25 && d[6] == 0.25 && d[7] == 2.25
    && d[8] == 6.25 && d[9] == 12.25 && d[10] == 20.25 && d[11] == 30.25
  }

  lemma OneToTwelveDeviations(s: seq<real>, dd: seq<real>)
    requires IsOneToTwelve(s) && dd == SquaredDeviations(s, 6.5)
    ensures IsTwelveDeviations(dd)
  {
    assert s[0] == 1.0 && s[1] == 2.0 && s[2] == 3.0 && s[3] == 4.0 && s[4] == 5.0 && s[5] == 6.0;
    assert s[6] == 7.0 && s[7] == 8.0 && s[8] == 9.0 && s[9] == 10.0 && s[10] == 11.0 && s[11] == 12.0;
  }

  lemma SumOfDeviations(d: seq<real>)
    requires IsTwelveDeviations(d)
    ensures Sum(d) == 143.0
  {
    assert Sum(d[11..]) == 30.25;
    assert Sum(d[10..]) == 50.5;
    assert Sum(d[9..]) == 62.75;
    assert Sum(d[8..]) == 69.0;
    assert Sum(d[7..]) == 71.25;
    assert Sum(d[6..]) == 71.5;
    assert Sum(d[5..]) == 71.75;
    assert Sum(d[4..]) == 74.0;
    assert Sum(d[3..]) == 80.25;
    assert Sum(d[2..]) == 92.5;
    assert Sum(d[1..]) == 112.75;
  }

  /** The largest element. */
  function MaxOf(s: seq<real>): (m: real)
    requires |s| > 0
    ensures m in s
    ensures forall i :: 0 <= i < |s| ==> s[i] <= m
  {
    if |s| == 1 then s[0]
    else
      var m := MaxOf(s[..|s| - 1]);
      if s[|s| - 1] > m then s[|s| - 1] else m
  }

  /** The smallest element. */
  function MinOf(s: seq<real>): (m: real)
    requires |s| > 0
    ensures m in s
    ensures forall i :: 0 <= i < |s| ==> m <= s[i]
  {
    if |s| == 1 then s[0]
    else
      var m := MinOf(s[..|s| - 1]);
      if s[|s| - 1] < m then s[|s| - 1] else m
  }

  /** The mean of a non-empty list lies between its least and greatest
      element. */
  lemma MeanWithinRange(s: seq<real>)
    requires |s| > 0
    ensures MinOf(s) <= Mean(s) <= MaxOf(s)
  {
    MeanBounds(s, MinOf(s), MaxOf(s));
  }

  // ---------------------------------------------------------------------
  // Latest-n extraction

  /** A stored monthly record `{"month": ..., "count": ...}`; either key may
      be missing. */
  datatype Record = Record(month: Option<string>, count: Option<Json>)

  /** The sort key: the month, or "" when the key is missing. */
  function MonthKey(r: Record): string {
    r.month.GetOr("")
  }

  predicate MonthLe(a: Record, b: Record) {
    Text.LexLe(MonthKey(a), MonthKey(b))
  }

  lemma MonthOrderIsPreorder()
    ensures Sorting.TotalPreorder(MonthLe)
  {
    forall a: Record, b: Record ensures MonthLe(a, b) || MonthLe(b, a) {
      Text.LexTotal(MonthKey(a), MonthKey(b));
    }
    forall a: Record, b: Record, c: Record | MonthLe(a, b) && MonthLe(b, c) ensures MonthLe(a, c) {
      Text.LexTransitive(MonthKey(a), MonthKey(b), MonthKey(c));
    }
  }

  /** `sorted(records, key=month)`: ascending by month, a permutation. */
  function SortByMonth(rs: seq<Record>): (sorted: seq<Record>)
    ensures Sorting.Sorted(sorted, MonthLe)
    ensures multiset(sorted) == multiset(rs)
    ensures |sorted| == |rs|
  {
    MonthOrderIsPreorder();
    Sorting.SortBy(rs, MonthLe)
  }

  function Min(a: int, b: int): int {
    if a <= b then a else b
  }

  /** The last `n` elements (all of them when there are fewer). */
  function Last<T>(s: seq<T>, n: nat): (r: seq<T>)
    ensures |r| == Min(n, |s|)
    ensures r == s[|s| - |r|..]
  {
    s[|s| - Min(n, |s|)..]
  }

  /** Python's `s[-n:]` for a natural `n`: for `n == 0` this is `s[0:]`, the
      whole list. */
  function PySuffix<T>(s: seq<T>, n: nat): (r: seq<T>)
    ensures n > 0 ==> r == Last(s, n)
    ensures n == 0 ==> r == s
  {
    if n == 0 then s else s[|s| - Min(n, |s|)..]
  }

  /** The value one record contributes: `float(count)`, or nothing for a
      missing or null count or one `float()` rejects. */
  function CountValue(r: Record): (v: Option<real>)
    ensures r.count.None? ==> v.None?
    ensures r.count.Some? ==> v == ToFloat(r.count.value)
  {
    match r.count
    case None => None
    case Some(j) => ToFloat(j)
  }

  /** The numeric values of the records, in order: a record without one is
      skipped, every other contributes its value. */
  function Values(rs: seq<Record>): (vs: seq<real>)
    ensures |vs| <= |rs|
    ensures (forall i :: 0 <= i < |rs| ==> rs[i].count.Some? && rs[i].count.value.Num?) ==>
      |vs| == |rs| && forall i :: 0 <= i < |rs| ==> vs[i] == rs[i].count.value.n
    ensures forall x :: x in vs ==> exists i :: 0 <= i < |rs| && CountValue(rs[i]) == Some(x)
    ensures forall i :: 0 <= i < |rs| && CountValue(rs[i]).Some? ==> CountValue(rs[i]).value in vs
    ensures vs == [] <==> forall i :: 0 <= i < |rs| ==> CountValue(rs[i]).None?
  {
    if |rs| == 0 then []
    else
      var head := match CountValue(rs[0]) case Some(x) => [x] case None => [];
      var rest := Values(rs[1..]);
      assert forall i :: 1 <= i < |rs| ==> rs[i] == rs[1..][i - 1];
      head + rest
  }

  /** A single record gives its numeric count, or nothing. */
  lemma ValuesSingle(r: Record)
    ensures Values([r]) == (if CountValue(r).Some? then [CountValue(r).value] else [])
  {
    assert [r][1..] == [];
  }

  /** Extraction distributes over concatenation: with `ValuesSingle`, the
      kept values keep the order of their records. */
  lemma {:induction false} ValuesAppend(a: seq<Record>, b: seq<Record>)
    ensures Values(a + b) == Values(a) + Values(b)
    decreases |a|
  {
    if a == [] {
      assert a + b == b;
    } else {
      assert (a + b)[0] == a[0];
      assert (a + b)[1..] == a[1..] + b;
      ValuesAppend(a[1..], b);
    }
  }

  /** The `n` records with the latest months: as many as there are, up to
      `n`, taken from the input, none of them earlier than a record left
      out. */
  function LatestRecords(rs: seq<Record>, n: nat): (latest: seq<Record>)
    ensures |latest| == Min(n, |rs|)
    ensures Sorting.Sorted(latest, MonthLe)
    ensures multiset(latest) <= multiset(rs)
    ensures Sorting.LeftOutBefore(multiset(rs), latest, MonthLe)
  {
    var sorted := SortByMonth(rs);
    var k := |rs| - Min(n, |rs|);
    Sorting.SortedSuffix(sorted, k, MonthLe);
    Sorting.SuffixIsBottom(sorted, k, MonthLe);
    sorted[k..]
  }

  /** `tail_n_values` as written: `sorted(...)[-n:]` keeps every record
      when `n` is 0. */
  function TailNValuesAsWritten(rs: seq<Record>, n: nat): (vs: seq<real>)
    ensures |rs| == 0 ==> vs == []
  {
    if |rs| == 0 then [] else Values(PySuffix(SortByMonth(rs), n))
  }

  /** `n = 0` asks for no months, yet the slice `[-0:]` returns them all. */
  lemma TailNValuesZeroKeepsAll()
    ensures TailNValuesAsWritten([Record(Some("2024-01"), Some(Num(5.0)))], 0) == [5.0]
  {
    var rs := [Record(Some("2024-01"), Some(Num(5.0)))];
    assert SortByMonth(rs) == rs by {
      assert multiset(SortByMonth(rs)) == multiset(rs);
      assert |SortByMonth(rs)| == 1;
      assert SortByMonth(rs)[0] in multiset(rs);
    }
  }

  /** `tail_n_values` with the slice taking the last `min(n, len)` records:
      the numeric counts of the latest `n` months, oldest first, at most
      `n` of them. */
  function TailNValues(rs: seq<Record>, n: nat): (vs: seq<real>)
    ensures |rs| == 0 ==> vs == []
    ensures |vs| <= n && |vs| <= |rs|
  {
    if |rs| == 0 then [] else Values(Last(SortByMonth(rs), n))
  }

  /** The values come from the latest `n` records, as `LatestRecords`
      characterises them. */
  lemma TailNValuesAreLatest(rs: seq<Record>, n: nat)
    ensures TailNValues(rs, n) == Values(LatestRecords(rs, n))
  {
    var sorted := SortByMonth(rs);
    assert LatestRecords(rs, n) == sorted[|rs| - Min(n, |rs|)..];
    assert Last(sorted, n) == sorted[|rs| - Min(n, |rs|)..];
  }

  /** The window every caller uses: `_tail12`. */
  const MonthsConsidered: nat := 12

  /** For every positive `n` the corrected extraction and the code as
      written agree; every caller in the system passes 12. */
  lemma TailNValuesAgreeForPositiveN(rs: seq<Record>, n: nat)
    requires n > 0
    ensures TailNValues(rs, n) == TailNValuesAsWritten(rs, n)
  {
  }

  // ---------------------------------------------------------------------
  // Health score

  /** Weights of the three normalised components. */
  datatype Weights = Weights(openrank: real, activity: real, stability: real)

  const DefaultWeights := Weights(0.5, 0.3, 0.2)

  predicate Unit(x: real) {
    0.0 <= x <= 1.0
  }

  lemma WeightedUnit(w: real, x: real) returns (p: real)
    requires w >= 0.0 && Unit(x)
    ensures p == w * x && 0.0 <= p <= w
  {
    p := w * x;
    assert w * (1.0 - x) >= 0.0;
  }

  lemma SumWithin(a: real, b: real, c: real, wa: real, wb: real, wc: real)
    requires 0.0 <= a <= wa && 0.0 <= b <= wb && 0.0 <= c <= wc
    requires wa + wb + wc == 1.0
    ensures Unit(a + b + c)
  {
  }

  /** `calculate_health_score` without rounding: the weighted sum of the
      three components, with weights 0.5/0.3/0.2 unless given. With the
      default weights, components in [0, 1] give a score in [0, 1], and
      three perfect components give exactly 1. */
  function HealthScore(orNorm: real, actNorm: real, stabNorm: real, weights: Option<Weights>): (score: real)
    ensures weights.None? && Unit(orNorm) && Unit(actNorm) && Unit(stabNorm) ==> Unit(score)
    ensures weights.None? && orNorm == 1.0 && actNorm == 1.0 && stabNorm == 1.0 ==> score == 1.0
    ensures weights.None? ==> score == 0.5 * orNorm + 0.3 * actNorm + 0.2 * stabNorm
  {
    var w := weights.GetOr(DefaultWeights);
    w.openrank * orNorm + w.activity * actNorm + w.stability * stabNorm
  }

  /** Any non-negative weights summing to 1 keep the score in [0, 1]. */
  lemma HealthScoreConvex(orNorm: real, actNorm: real, stabNorm: real, w: Weights)
    requires Unit(orNorm) && Unit(actNorm) && Unit(stabNorm)
    requires w.openrank >= 0.0 && w.activity >= 0.0 && w.stability >= 0.0
    requires w.openrank + w.activity + w.stability == 1.0
    ensures Unit(HealthScore(orNorm, actNorm, stabNorm, Some(w)))
  {
    var a := WeightedUnit(w.openrank, orNorm);
    var b := WeightedUnit(w.activity, actNorm);
    var c := WeightedUnit(w.stability, stabNorm);
    SumWithin(a, b, c, w.openrank, w.activity, w.stability);
  }

  /** A higher component never lowers the default-weighted score. */
  lemma HealthScoreMonotone(o1: real, a1: real, s1: real, o2: real, a2: real, s2: real)
    requires o1 <= o2 && a1 <= a2 && s1 <= s2
    ensures HealthScore(o1, a1, s1, None) <= HealthScore(o2, a2, s2, None)
  {
  }
}

=== FILE: models.dfy ===
/** The three tables: users, favourites and cached metric series, with their
    uniqueness constraints, column defaults and decoding fallbacks. The
    database is a value; JSON text columns are modelled by what they decode
    to. */
module Models {
  import opened Base
  import opened Json
  import opened MetricUtils

  // ---------------------------------------------------------------------
  // MetricSeries

  /** The unique identity of a cached series. */
  datatype SeriesKey = SeriesKey(platform: string, entity: string, repo: string, metric: string)

  /** The `data_json` column: a well-formed list of monthly records (the
      only thing this system writes; the column default "[]" is
      `Encoded([])`), a JSON value that decodes falsy (`null`, `0`, `""`,
      `{}`), or text that does not parse. */
  datatype SeriesText = Encoded(records: seq<Record>) | FalsyJson | Corrupt

  const EmptySeriesText := Encoded([])

  datatype SeriesRow = SeriesRow(dataJson: SeriesText, updatedAt: Option<int>)

  /** The table as a map from identity to row: at most one row per
      `(platform, entity, repo, metric)` holds by construction. */
  type Store = map<SeriesKey, SeriesRow>

  /** `repo or ""`: user-level series are stored under the empty repo. */
  function RepoColumn(repo: Option<string>): (r: string)
    ensures repo.None? ==> r == ""
    ensures repo.Some? ==> r == repo.value
  {
    match repo
    case None => ""
    case Some(s) => s
  }

  /** `MetricSeries.to_records`: the decoded list, or `[]` when the text does
      not parse or decodes to a falsy value. */
  function ToRecords(row: SeriesRow): (rs: seq<Record>)
    ensures row.dataJson.Encoded? ==> rs == row.dataJson.records
    ensures !row.dataJson.Encoded? ==> rs == []
  {
    match row.dataJson
    case Encoded(records) => records
    case _ => []
  }

  /** A freshly inserted row: `data_json` defaults to "[]" and `updated_at`
      to the insertion time. */
  function NewSeriesRow(dataJson: Option<SeriesText>, now: int): (row: SeriesRow)
    ensures row.updatedAt == Some(now)
    ensures dataJson.None? ==> ToRecords(row) == []
    ensures dataJson.Some? ==> row.dataJson == dataJson.value
  {
    SeriesRow(dataJson.GetOr(EmptySeriesText), Some(now))
  }

  /** Insert-or-update of one series: the row for `key` gets the new text and
      is stamped `now`; every other row is untouched, and the table grows by
      one row exactly when the key was absent. */
  function Upsert(store: Store, key: SeriesKey, text: SeriesText, now: int): (store': Store)
    ensures key in store' && store'[key] == SeriesRow(text, Some(now))
    ensures forall k :: k != key ==> (k in store' <==> k in store) && (k in store ==> store'[k] == store[k])
    ensures store'.Keys == store.Keys + {key}
  {
    if key in store then store[key := store[key].(dataJson := text, updatedAt := Some(now))]
    else store[key := NewSeriesRow(Some(text), now)]
  }

  /** What an upsert writes is what `to_records` reads back: the records
      of an encoded list, nothing for a falsy or unreadable text. */
  lemma UpsertReadsBack(store: Store, key: SeriesKey, text: SeriesText, now: int)
    ensures text.Encoded? ==> ToRecords(Upsert(store, key, text, now)[key]) == text.records
    ensures !text.Encoded? ==> ToRecords(Upsert(store, key, text, now)[key]) == []
  {
  }

  lemma UpsertGrowsByAtMostOne(store: Store, key: SeriesKey, text: SeriesText, now: int)
    ensures key in store ==> |Upsert(store, key, text, now)| == |store|
    ensures key !in store ==> |Upsert(store, key, text, now)| == |store| + 1
  {
    var s' := Upsert(store, key, text, now);
    if key in store {
      assert s'.Keys == store.Keys;
    } else {
      assert s'.Keys == store.Keys + {key};
    }
  }

  // ---------------------------------------------------------------------
  // Favorite

  /** The `payload` column: empty text (the column default), the text of a
      JSON value, or text that does not parse. */
  datatype PayloadText = Blank | EncodedPayload(value: Json) | CorruptPayload

  datatype Favorite = Favorite(
    id: int,
    userId: int,
    kind: string,
    uniqKey: string,
    fullName: Option<string>,
    metric: Option<string>,
    platform: Option<string>,
    title: Option<string>,
    url: Option<string>,
    payload: PayloadText)

  const DefaultKind := "single"
  const DefaultPlatform := "github"

  /** A new favourite row with the column defaults applied to the columns
      the caller leaves out: kind "single", platform "github", payload "". */
  function NewFavorite(id: int, userId: int, uniqKey: string, kind: Option<string>,
                       fullName: Option<string>, metric: Option<string>, platform: Option<string>,
                       title: Option<string>, url: Option<string>, payload: Option<PayloadText>): (f: Favorite)
    ensures kind.None? ==> f.kind == "single"
    ensures platform.None? ==> f.platform == Some("github")
    ensures payload.None? ==> f.payload == Blank
    ensures f.id == id && f.userId == userId && f.uniqKey == uniqKey
  {
    Favorite(id, userId, kind.GetOr(DefaultKind), uniqKey, fullName, metric,
             Some(platform.GetOr(DefaultPlatform)), title, url, payload.GetOr(Blank))
  }

  /** The decoded payload `Favorite.to_dict` reports: `{}` when the text is
      empty or does not parse, the decoded value otherwise. */
  function PayloadObject(p: PayloadText): (j: Json)
    ensures p.EncodedPayload? ==> j == p.value
    ensures !p.EncodedPayload? ==> j == Obj([])
  {
    match p
    case EncodedPayload(v) => v
    case _ => Obj([])
  }

  /** The `uq_user_uniq_key` constraint. */
  ghost predicate UniqueFavorites(rows: seq<Favorite>) {
    forall i, j :: 0 <= i < j < |rows| ==>
      !(rows[i].userId == rows[j].userId && rows[i].uniqKey == rows[j].uniqKey)
  }

  predicate HasFavoriteKey(rows: seq<Favorite>, userId: int, uniqKey: string) {
    exists i :: 0 <= i < |rows| && rows[i].userId == userId && rows[i].uniqKey == uniqKey
  }

  /** The database's insert under the unique constraint: it fails, leaving
      the table as it was, exactly when the user already has a favourite
      with that key; otherwise the row is appended. */
  function InsertFavorite(rows: seq<Favorite>, f: Favorite): (r: Option<seq<Favorite>>)
    ensures r.None? <==> HasFavoriteKey(rows, f.userId, f.uniqKey)
    ensures r.Some? ==> r.value == rows + [f]
    ensures UniqueFavorites(rows) && r.Some? ==> UniqueFavorites(r.value)
  {
    if exists i :: 0 <= i < |rows| && rows[i].userId == f.userId && rows[i].uniqKey == f.uniqKey then None
    else Some(rows + [f])
  }

  // ---------------------------------------------------------------------
  // User

  datatype User = User(id: int, username: string, email: string, passwordHash: string)

  /** The unique indexes on `username` and `email`. */
  ghost predicate UniqueUsers(users: seq<User>) {
    forall i, j :: 0 <= i < j < |users| ==>
      users[i].username != users[j].username && users[i].email != users[j].email
  }
}

=== FILE: rate_limiter.dfy ===
/** The in-memory sliding-window rate limiter and the decorator that gates
    request handlers with it. The limiter's lock makes every call atomic, so
    it is modelled as a sequential state transformer; clock readings are
    integer seconds passed in by the caller. */
module RateLimiter {
  import opened Base
  import Text

  /** Timestamps of the admitted requests still on record, per limit key.
      A key that was never used behaves like an empty record. */
  datatype Limiter = Limiter(records: map<string, seq<int>>) {
    function Record(key: string): seq<int> {
      if key in records then records[key] else []
    }
  }

  const Empty := Limiter(map[])

  /** The timestamps strictly after `windowStart`, in their original order. */
  function Prune(ts: seq<int>, windowStart: int): (r: seq<int>)
    ensures |r| <= |ts|
    ensures forall i :: 0 <= i < |r| ==> r[i] > windowStart
  {
    if |ts| == 0 then []
    else
      var last := ts[|ts| - 1];
      assert ts == ts[..|ts| - 1] + [last];
      Prune(ts[..|ts| - 1], windowStart) + (if last > windowStart then [last] else [])
  }

  /** Pruning keeps every timestamp later than the window start. */
  lemma {:induction false} PruneKeepsWindow(ts: seq<int>, windowStart: int, t: int)
    requires t in ts && t > windowStart
    ensures t in Prune(ts, windowStart)
  {
    var n := |ts| - 1;
    assert ts == ts[..n] + [ts[n]];
    if t != ts[n] {
      PruneKeepsWindow(ts[..n], windowStart, t);
    }
  }

  datatype Decision = Decision(allowed: bool, remaining: int)

  /** The decision for one key's record: prune it to the window, then admit
      and append `now` if fewer than `maxRequests` timestamps remain. A
      rejection leaves the pruned record as it is, so it consumes no quota. */
  function Check(record: seq<int>, maxRequests: int, windowSeconds: int, now: int): (out: (Decision, seq<int>))
    ensures out.0.allowed <==> |Prune(record, now - windowSeconds)| < maxRequests
    ensures !out.0.allowed ==> out.0.remaining == 0 && out.1 == Prune(record, now - windowSeconds)
    ensures out.0.allowed ==>
      && out.1 == Prune(record, now - windowSeconds) + [now]
      && out.0.remaining == maxRequests - |out.1|
      && out.0.remaining >= 0
  {
    var kept := Prune(record, now - windowSeconds);
    var count := |kept|;
    if count >= maxRequests then (Decision(false, 0), kept)
    else (Decision(true, maxRequests - count - 1), kept + [now])
  }

  /** `RateLimiter.is_allowed`: decide on the key's record and store the
      updated record; every other key is left as it was. */
  function IsAllowed(l: Limiter, key: string, maxRequests: int, windowSeconds: int, now: int)
    : (out: (Decision, Limiter))
    ensures out.0 == Check(l.Record(key), maxRequests, windowSeconds, now).0
    ensures key in out.1.records
    ensures out.1.Record(key) == Check(l.Record(key), maxRequests, windowSeconds, now).1
    ensures forall k :: k != key ==> (k in out.1.records <==> k in l.records) && out.1.Record(k) == l.Record(k)
  {
    var (d, kept) := Check(l.Record(key), maxRequests, windowSeconds, now);
    (d, Limiter(l.records[key := kept]))
  }

  /** After any call with a positive window, nothing at or before the window
      start is left on the key's record. */
  lemma RecordHoldsOnlyWindow(l: Limiter, key: string, maxRequests: int, windowSeconds: int, now: int)
    requires windowSeconds > 0
    ensures var l' := IsAllowed(l, key, maxRequests, windowSeconds, now).1;
      forall t :: t in l'.Record(key) ==> t > now - windowSeconds
  {
  }

  /** An unseen key admits its first call with `maxRequests - 1` left, and a
      limit of zero admits nothing. */
  lemma FreshKeyAndZeroLimit(l: Limiter, key: string, maxRequests: int, windowSeconds: int, now: int)
    ensures key !in l.records && maxRequests >= 1 ==>
      IsAllowed(l, key, maxRequests, windowSeconds, now).0 == Decision(true, maxRequests - 1)
    ensures maxRequests <= 0 ==>
      IsAllowed(l, key, maxRequests, windowSeconds, now).0 == Decision(false, 0)
  {
  }

  /** Once a whole window has passed since every recorded call, the next
      call is admitted with the full quota minus one. */
  lemma {:induction false} QuietWindowAdmits(record: seq<int>, maxRequests: int, windowSeconds: int, now: int)
    requires maxRequests >= 1
    requires forall i :: 0 <= i < |record| ==> record[i] <= now - windowSeconds
    ensures Check(record, maxRequests, windowSeconds, now) == (Decision(true, maxRequests - 1), [now])
  {
    PruneAllStale(record, now - windowSeconds);
    assert Prune(record, now - windowSeconds) + [now] == [now];
  }

  lemma {:induction false} PruneAllStale(ts: seq<int>, windowStart: int)
    requires forall i :: 0 <= i < |ts| ==> ts[i] <= windowStart
    ensures Prune(ts, windowStart) == []
  {
    if |ts| > 0 {
      PruneAllStale(ts[..|ts| - 1], windowStart);
    }
  }

  /** `RateLimiter.reset`: forget one key's record. */
  function Reset(l: Limiter, key: string): (l': Limiter)
    ensures key !in l'.records && l'.Record(key) == []
    ensures forall k :: k != key ==> l'.Record(k) == l.Record(k) && (k in l'.records <==> k in l.records)
  {
    Limiter(l.records - {key})
  }

  // ---------------------------------------------------------------------
  // Traces of calls for one key

  /** The admissions of a sequence of calls for one key, and that key's
      record after them (calls for other keys never touch it). */
  function Trace(record: seq<int>, maxRequests: int, windowSeconds: int, times: seq<int>)
    : (out: (seq<bool>, seq<int>))
    ensures |out.0| == |times|
  {
    if |times| == 0 then ([], record)
    else
      var before := Trace(record, maxRequests, windowSeconds, times[..|times| - 1]);
      var step := Check(before.1, maxRequests, windowSeconds, times[|times| - 1]);
      (before.0 + [step.0.allowed], step.1)
  }

  /** The timestamps of the admitted calls that are later than `cutoff`. */
  function AdmittedAfter(times: seq<int>, admitted: seq<bool>, cutoff: int): seq<int>
    requires |times| == |admitted|
  {
    if |times| == 0 then []
    else
      var n := |times| - 1;
      AdmittedAfter(times[..n], admitted[..n], cutoff)
        + (if admitted[n] && times[n] > cutoff then [times[n]] else [])
  }

  predicate NonDecreasing(times: seq<int>) {
    forall i, j :: 0 <= i <= j < |times| ==> times[i] <= times[j]
  }

  lemma {:induction false} PruneAdmittedAfter(times: seq<int>, admitted: seq<bool>, c1: int, c2: int)
    requires |times| == |admitted| && c1 <= c2
    ensures Prune(AdmittedAfter(times, admitted, c1), c2) == AdmittedAfter(times, admitted, c2)
  {
    if |times| > 0 {
      var n := |times| - 1;
      var prev := AdmittedAfter(times[..n], admitted[..n], c1);
      var tail := if admitted[n] && times[n] > c1 then [times[n]] else [];
      assert AdmittedAfter(times, admitted, c1) == prev + tail;
      PruneAppend(prev, tail, c2);
      PruneAdmittedAfter(times[..n], admitted[..n], c1, c2);
      assert Prune(tail, c2) == (if admitted[n] && times[n] > c2 then [times[n]] else []) by {
        if |tail| == 1 {
          assert tail[..0] == [];
        }
      }
    }
  }

  lemma {:induction false} PruneAppend(a: seq<int>, b: seq<int>, c: int)
    requires |b| <= 1
    ensures Prune(a + b, c) == Prune(a, c) + Prune(b, c)
  {
    if |b| == 1 {
      assert (a + b)[..|a + b| - 1] == a;
      assert b[..0] == [];
    } else {
      assert a + b == a;
    }
  }

  /** The record the limiter keeps for a key that started empty is exactly
      the admitted calls inside the window ending at the latest call. */
  lemma {:induction false} TraceRecord(maxRequests: int, windowSeconds: int, times: seq<int>)
    requires windowSeconds > 0 && maxRequests >= 0
    requires NonDecreasing(times)
    ensures |times| > 0 ==>
      Trace([], maxRequests, windowSeconds, times).1
        == AdmittedAfter(times, Trace([], maxRequests, windowSeconds, times).0, times[|times| - 1] - windowSeconds)
    ensures |times| == 0 ==> Trace([], maxRequests, windowSeconds, times).1 == []
  {
    if |times| > 0 {
      var n := |times| - 1;
      var now := times[n];
      var cut := now - windowSeconds;
      var prefix := times[..n];
      var before := Trace([], maxRequests, windowSeconds, prefix);
      assert NonDecreasing(prefix);
      TraceRecord(maxRequests, windowSeconds, prefix);
      StepKeepsWindow(prefix, before.0, before.1, now, maxRequests, windowSeconds);
      assert prefix + [now] == times;
    }
  }

  /** Pruning the record at a later call leaves the admitted calls inside
      that call's window. */
  lemma {:induction false} PrunedRecordIsWindow(prefix: seq<int>, admitted: seq<bool>, record: seq<int>, now: int, windowSeconds: int)
    requires |prefix| == |admitted| && windowSeconds > 0
    requires forall i :: 0 <= i < |prefix| ==> prefix[i] <= now
    requires |prefix| > 0 ==> record == AdmittedAfter(prefix, admitted, prefix[|prefix| - 1] - windowSeconds)
    requires |prefix| == 0 ==> record == []
    ensures Prune(record, now - windowSeconds) == AdmittedAfter(prefix, admitted, now - windowSeconds)
  {
    if |prefix| > 0 {
      PruneAdmittedAfter(prefix, admitted, prefix[|prefix| - 1] - windowSeconds, now - windowSeconds);
    }
  }

  /** One more call at `now`, no earlier than any before it, keeps the
      record equal to the admitted calls inside the window. */
  lemma {:induction false} StepKeepsWindow(prefix: seq<int>, admitted: seq<bool>, record: seq<int>, now: int,
                        maxRequests: int, windowSeconds: int)
    requires |prefix| == |admitted| && windowSeconds > 0
    requires forall i :: 0 <= i < |prefix| ==> prefix[i] <= now
    requires |prefix| > 0 ==> record == AdmittedAfter(prefix, admitted, prefix[|prefix| - 1] - windowSeconds)
    requires |prefix| == 0 ==> record == []
    ensures var step := Check(record, maxRequests, windowSeconds, now);
      step.1 == AdmittedAfter(prefix + [now], admitted + [step.0.allowed], now - windowSeconds)
  {
    var cut := now - windowSeconds;
    var pruned := Prune(record, cut);
    assert pruned == AdmittedAfter(prefix, admitted, cut) by {
      PrunedRecordIsWindow(prefix, admitted, record, now, windowSeconds);
    }
    var step := Check(record, maxRequests, windowSeconds, now);
    var allowed := step.0.allowed;
    assert step.1 == (if allowed then pruned + [now] else pruned);
    assert AdmittedAfter(prefix + [now], admitted + [allowed], cut) == (if allowed then pruned + [now] else pruned) by {
      StepRecord(prefix, admitted, now, cut, allowed, pruned);
    }
  }

  /** A record that started empty never holds more than the limit. */
  lemma {:induction false} TraceBound(maxRequests: int, windowSeconds: int, times: seq<int>)
    requires maxRequests >= 0
    ensures |Trace([], maxRequests, windowSeconds, times).1| <= maxRequests
  {
    if |times| > 0 {
      TraceBound(maxRequests, windowSeconds, times[..|times| - 1]);
    }
  }

  lemma {:induction false} StepRecord(prefix: seq<int>, admitted: seq<bool>, now: int, cut: int, allowed: bool, pruned: seq<int>)
    requires |prefix| == |admitted| && now > cut
    requires pruned == AdmittedAfter(prefix, admitted, cut)
    ensures AdmittedAfter(prefix + [now], admitted + [allowed], cut)
      == (if allowed then pruned + [now] else pruned)
  {
    assert (prefix + [now])[..|prefix|] == prefix;
    assert (admitted + [allowed])[..|prefix|] == admitted;
  }

  /** Within one window, a fresh key admits exactly its first `maxRequests`
      calls and rejects every later one; its record is the admitted calls. */
  lemma {:induction false} WindowAdmitsFirstLimit(maxRequests: int, windowSeconds: int, times: seq<int>)
    requires windowSeconds > 0 && maxRequests >= 0
    requires NonDecreasing(times) && |times| > 0
    requires times[|times| - 1] - windowSeconds < times[0]
    ensures forall i :: 0 <= i < |times| ==> (Trace([], maxRequests, windowSeconds, times).0[i] <==> i < maxRequests)
    ensures Trace([], maxRequests, windowSeconds, times).1 == times[..if maxRequests < |times| then maxRequests else |times|]
  {
    var n := |times| - 1;
    var now := times[n];
    var prefix := times[..n];
    var before := Trace([], maxRequests, windowSeconds, prefix);
    if n == 0 {
      assert before == ([], []);
    } else {
      assert NonDecreasing(prefix);
      assert prefix[|prefix| - 1] - windowSeconds < prefix[0];
      WindowAdmitsFirstLimit(maxRequests, windowSeconds, prefix);
    }
    var m := if maxRequests < n then maxRequests else n;
    assert before.1 == times[..m];
    FreshRecordStep(times, m, maxRequests, windowSeconds);
    var step := Check(before.1, maxRequests, windowSeconds, now);
    var out := Trace([], maxRequests, windowSeconds, times);
    assert out.0 == before.0 + [step.0.allowed];
    assert out.1 == step.1;
    forall i | 0 <= i < |times| ensures out.0[i] <==> i < maxRequests {
      if i < n {
        assert out.0[i] == before.0[i];
      }
    }
  }

  /** One more call at the last of `times`, on a record holding the first
      `m` of them, all within one window: admitted exactly when the record
      is below the limit, and then the record grows by that call. */
  lemma {:induction false} FreshRecordStep(times: seq<int>, m: nat, maxRequests: int, windowSeconds: int)
    requires NonDecreasing(times) && |times| > 0 && m <= |times| - 1
    requires m == |times| - 1 || m == maxRequests
    requires times[|times| - 1] - windowSeconds < times[0]
    ensures var step := Check(times[..m], maxRequests, windowSeconds, times[|times| - 1]);
      && (step.0.allowed <==> m < maxRequests)
      && step.1 == (if m < maxRequests then times[..m + 1] else times[..m])
  {
    var now := times[|times| - 1];
    var record := times[..m];
    forall i | 0 <= i < |record| ensures record[i] > now - windowSeconds {
      assert record[i] == times[i] && times[0] <= times[i];
    }
    PruneAllFresh(record, now - windowSeconds);
    assert |record| == m;
    var step := Check(record, maxRequests, windowSeconds, now);
    assert step.0.allowed <==> m < maxRequests;
    if m < maxRequests {
      assert step.1 == record + [now];
      assert record + [now] == times[..m + 1];
    } else {
      assert step.1 == record;
    }
  }

  lemma {:induction false} PruneAllFresh(ts: seq<int>, windowStart: int)
    requires forall i :: 0 <= i < |ts| ==> ts[i] > windowStart
    ensures Prune(ts, windowStart) == ts
  {
    if |ts| > 0 {
      PruneAllFresh(ts[..|ts| - 1], windowStart);
    }
  }

  /** Over any run of calls for a fresh key, at most `maxRequests` of the
      admitted calls fall in the window that ends at the latest call. */
  lemma WindowAdmitsAtMostLimit(maxRequests: int, windowSeconds: int, times: seq<int>)
    requires windowSeconds > 0 && maxRequests >= 0
    requires NonDecreasing(times) && |times| > 0
    ensures var admitted := Trace([], maxRequests, windowSeconds, times).0;
      |AdmittedAfter(times, admitted, times[|times| - 1] - windowSeconds)| <= maxRequests
  {
    TraceRecord(maxRequests, windowSeconds, times);
    TraceBound(maxRequests, windowSeconds, times);
  }

  /** Two calls at t=0 are admitted and the third rejected under a limit of
      2 per 60 seconds; a call at t=60 is admitted again. */
  lemma TwoPerMinuteScenario()
    ensures Trace([], 2, 60, [0, 0, 0, 60]).0 == [true, true, false, true]
  {
    assert [0, 0, 0, 60][..3] == [0, 0, 0];
    assert [0, 0, 0][..2] == [0, 0];
    assert [0, 0][..1] == [0];
    assert [0][..0] == [];
    assert Prune([0], -60) == [0];
    assert Prune([0, 0], -60) == [0, 0];
    assert Prune([0, 0], 0) == [];
  }

  // ---------------------------------------------------------------------
  // The decorator

  /** What a wrapped handler returned: a response object (which carries
      headers) or a bare value such as a `(body, status)` tuple. */
  datatype HandlerOutput =
    | WithHeaders(status: int, headers: map<string, string>, body: string)
    | Bare(status: int)

  datatype Outcome =
    /** The 429 reply; the handler was not invoked. */
    | Rejected(status: int, headers: map<string, string>, errorCode: string, retrySeconds: int)
    /** The handler ran once; its output, with the quota headers added when
        it is a response object. */
    | Invoked(output: HandlerOutput)

  /** The `rate_limit` wrapper: consult the limiter, then either reject or
      invoke the handler (whose output is `handler`). */
  function Guard(l: Limiter, key: string, maxRequests: int, windowSeconds: int, now: int,
                 handler: HandlerOutput): (out: (Outcome, Limiter))
    ensures var (d, l1) := IsAllowed(l, key, maxRequests, windowSeconds, now);
      && out.1 == l1
      && (out.0.Rejected? <==> !d.allowed)
      && (out.0.Rejected? ==>
            && out.0.status == 429
            && out.0.errorCode == "RATE_LIMIT_EXCEEDED"
            && out.0.retrySeconds == windowSeconds
            && out.0.headers == map["Retry-After" := Text.IntToString(windowSeconds),
                                    "X-RateLimit-Limit" := Text.IntToString(maxRequests),
                                    "X-RateLimit-Remaining" := "0"])
      && (out.0.Invoked? && handler.WithHeaders? ==>
            && out.0.output.WithHeaders?
            && out.0.output.status == handler.status
            && out.0.output.body == handler.body
            && out.0.output.headers.Keys == handler.headers.Keys + {"X-RateLimit-Limit", "X-RateLimit-Remaining"}
            && (forall h :: h in handler.headers && h != "X-RateLimit-Limit" && h != "X-RateLimit-Remaining" ==>
                  out.0.output.headers[h] == handler.headers[h])
            && out.0.output.headers["X-RateLimit-Limit"] == Text.IntToString(maxRequests)
            && out.0.output.headers["X-RateLimit-Remaining"] == Text.IntToString(d.remaining))
      && (out.0.Invoked? && handler.Bare? ==> out.0.output == handler)
  {
    var (d, l1) := IsAllowed(l, key, maxRequests, windowSeconds, now);
    if !d.allowed then
      (Rejected(429,
                map["Retry-After" := Text.IntToString(windowSeconds),
                    "X-RateLimit-Limit" := Text.IntToString(maxRequests),
                    "X-RateLimit-Remaining" := "0"],
                "RATE_LIMIT_EXCEEDED", windowSeconds), l1)
    else
      match handler
      case WithHeaders(status, headers, body) =>
        (Invoked(WithHeaders(status, headers["X-RateLimit-Limit" := Text.IntToString(maxRequests)]
                                            ["X-RateLimit-Remaining" := Text.IntToString(d.remaining)], body)), l1)
      case Bare(_) => (Invoked(handler), l1)
  }

  // ---------------------------------------------------------------------
  // Limit keys

  /** The address header value: `X-Forwarded-For` if sent, else the peer
      address. */
  function RawAddress(forwardedFor: Option<string>, remoteAddr: Option<string>): Option<string> {
    if forwardedFor.Some? then forwardedFor else remoteAddr
  }

  /** The client address of the default key: the raw address cut to its
      first comma-separated entry, trimmed, when it lists several. */
  function ClientAddress(forwardedFor: Option<string>, remoteAddr: Option<string>): (ip: Option<string>)
    ensures var raw := RawAddress(forwardedFor, remoteAddr);
      && (raw.None? ==> ip.None?)
      && (raw.Some? && ',' !in raw.value ==> ip == raw)
      && (raw.Some? && ',' in raw.value ==>
            ip == Some(Text.Trim(raw.value[..Text.IndexOf(raw.value, ',')])) && ',' !in ip.value)
  {
    var raw := RawAddress(forwardedFor, remoteAddr);
    if raw.Some? && raw.value != "" && ',' in raw.value then
      var first := Text.Split(raw.value, ',')[0];
      Text.SplitHead(raw.value, ',');
      Text.TrimKeepsOut(first, ',');
      Some(Text.Trim(first))
    else raw
  }

  /** The default key: client address, a colon, and the endpoint name.
      The key ends in the endpoint, so by `KeysSeparateEndpoints` two
      endpoints never share a quota, and the address part never lists
      several hops: clients behind a proxy chain are keyed by the first. */
  function DefaultKey(forwardedFor: Option<string>, remoteAddr: Option<string>, endpoint: Option<string>): (k: string)
    ensures k == Text.Show(ClientAddress(forwardedFor, remoteAddr)) + ":" + Text.Show(endpoint)
    ensures EndsWithEndpoint(k, endpoint)
    ensures ',' !in k[..|k| - |Text.Show(endpoint)| - 1]
  {
    var addr := ClientAddress(forwardedFor, remoteAddr);
    var ip := Text.Show(addr);
    assert ',' !in ip by {
      if addr.None? {
        assert ip == ['N', 'o', 'n', 'e'];
      } else {
        var raw := RawAddress(forwardedFor, remoteAddr);
        assert raw.Some?;
        assert ip == addr.value;
      }
    }
    var tail := ":" + Text.Show(endpoint);
    var k := ip + tail;
    assert k[..|k| - |tail|] == ip;
    assert k[|k| - |tail|..] == tail;
    k
  }

  /** `k` is some prefix, a colon, and the endpoint as rendered. */
  predicate EndsWithEndpoint(k: string, endpoint: Option<string>) {
    |k| > |Text.Show(endpoint)| && k[|k| - |Text.Show(endpoint)| - 1..] == ":" + Text.Show(endpoint)
  }

  /** The JWT identity lookup of `rate_limit_by_user`: it yields an identity
      (possibly `None`) or raises. */
  datatype Identity = Identified(id: Option<string>) | LookupFailed

  /** `rate_limit_by_user`'s key: by user id, falling back to the raw
      forwarded-for header (else the peer address) when the lookup raises. */
  function UserKey(identity: Identity, forwardedFor: Option<string>, remoteAddr: Option<string>,
                   endpoint: Option<string>): (k: string)
    ensures identity.Identified? ==> k == "user:" + Text.Show(identity.id) + ":" + Text.Show(endpoint)
    ensures identity.LookupFailed? ==>
      k == "ip:" + Text.Show(RawAddress(forwardedFor, remoteAddr)) + ":" + Text.Show(endpoint)
    ensures identity.Identified? <==> |k| >= 5 && k[..5] == "user:"
    ensures identity.LookupFailed? <==> |k| >= 3 && k[..3] == "ip:"
    ensures EndsWithEndpoint(k, endpoint)
  {
    var tail := ":" + Text.Show(endpoint);
    match identity
    case Identified(id) =>
      var k := "user:" + Text.Show(id) + tail;
      assert k[..5] == "user:" && k[0] == 'u';
      assert |k| >= 3 ==> k[..3][0] != "ip:"[0];
      assert k[|k| - |tail|..] == tail;
      k
    case LookupFailed =>
      var k := "ip:" + Text.Show(RawAddress(forwardedFor, remoteAddr)) + tail;
      assert k[..3] == "ip:" && k[0] == 'i';
      assert |k| >= 5 ==> k[..5][0] != "user:"[0];
      assert k[|k| - |tail|..] == tail;
      k
  }

  /** A per-user key never coincides with a fallback address key, so the two
      never share quota. */
  lemma UserAndAddressKeysDisjoint(id: Option<string>, forwardedFor: Option<string>, remoteAddr: Option<string>,
                                   e1: Option<string>, e2: Option<string>)
    ensures UserKey(Identified(id), forwardedFor, remoteAddr, e1) != UserKey(LookupFailed, forwardedFor, remoteAddr, e2)
  {
    var a := UserKey(Identified(id), forwardedFor, remoteAddr, e1);
    var b := UserKey(LookupFailed, forwardedFor, remoteAddr, e2);
    assert a[0] == 'u' && b[0] == 'i';
  }

  lemma ColonInsideLongerSuffix(a: string, e1: string, b: string, e2: string)
    requires a + ":" + e1 == b + ":" + e2 && |e1| < |e2|
    ensures ':' in e2
  {
    var s := a + ":" + e1;
    var p := |s| - |e1| - 1;
    assert s[p] == ':';
    assert s[p] == (b + ":" + e2)[p];
    assert (b + ":" + e2)[p] == e2[p - |b| - 1];
  }

  /** Distinct endpoints never share quota: when endpoint names hold no
      colon, the key determines the endpoint, whatever the addresses. */
  lemma KeysSeparateEndpoints(a: string, b: string, e1: string, e2: string)
    requires ':' !in e1 && ':' !in e2
    requires a + ":" + e1 == b + ":" + e2
    ensures e1 == e2
  {
    var s := a + ":" + e1;
    if |e1| < |e2| {
      ColonInsideLongerSuffix(a, e1, b, e2);
      assert false;
    } else if |e2| < |e1| {
      ColonInsideLongerSuffix(b, e2, a, e1);
      assert false;
    } else {
      assert e1 == s[|s| - |e1|..];
      assert e2 == (b + ":" + e2)[|s| - |e2|..];
    }
  }

  /** The same for the keys the decorator builds: two default keys that
      coincide name the same endpoint, whatever the clients' addresses. */
  lemma DefaultKeysSeparateEndpoints(f1: Option<string>, r1: Option<string>, e1: Option<string>,
                                     f2: Option<string>, r2: Option<string>, e2: Option<string>)
    requires ':' !in Text.Show(e1) && ':' !in Text.Show(e2)
    requires DefaultKey(f1, r1, e1) == DefaultKey(f2, r2, e2)
    ensures Text.Show(e1) == Text.Show(e2)
  {
    KeysSeparateEndpoints(Text.Show(ClientAddress(f1, r1)), Text.Show(ClientAddress(f2, r2)),
                          Text.Show(e1), Text.Show(e2));
  }
}

=== FILE: sorting.dfy ===
/** Python's `sorted(...)` as an insertion sort over a caller-chosen
    ordering, with the facts the rest of the model relies on: the output is
    ordered, it is a permutation of the input, it keeps tied elements in
    their input order, and under a total order it is the only ordered
    permutation. */
module Sorting {

  /** `le` is total and transitive: a valid sort key comparison. */
  ghost predicate TotalPreorder<T(!new)>(le: (T, T) -> bool) {
    && (forall a, b :: le(a, b) || le(b, a))
    && (forall a, b, c :: le(a, b) && le(b, c) ==> le(a, c))
  }

  /** No two distinct values compare equal. */
  ghost predicate Antisymmetric<T(!new)>(le: (T, T) -> bool) {
    forall a, b :: le(a, b) && le(b, a) ==> a == b
  }

  predicate Sorted<T>(s: seq<T>, le: (T, T) -> bool) {
    forall i, j :: 0 <= i < j < |s| ==> le(s[i], s[j])
  }

  lemma SortedSuffix<T>(s: seq<T>, k: nat, le: (T, T) -> bool)
    requires Sorted(s, le) && k <= |s|
    ensures Sorted(s[k..], le)
  {
    forall i, j | 0 <= i < j < |s| - k ensures le(s[k..][i], s[k..][j]) {
      assert s[k..][i] == s[k + i] && s[k..][j] == s[k + j];
    }
  }

  lemma SortedPrefix<T>(s: seq<T>, k: nat, le: (T, T) -> bool)
    requires Sorted(s, le) && k <= |s|
    ensures Sorted(s[..k], le)
  {
  }

  /** Places `x` before the first element it is `le` to, so it goes ahead of
      the elements it ties with. */
  function Insert<T(!new)>(x: T, s: seq<T>, le: (T, T) -> bool): (r: seq<T>)
    requires TotalPreorder(le)
    requires Sorted(s, le)
    ensures Sorted(r, le)
    ensures multiset(r) == multiset(s) + multiset{x}
    ensures |r| == |s| + 1
  {
    if |s| == 0 then [x]
    else if le(x, s[0]) then [x] + s
    else
      var rest := Insert(x, s[1..], le);
      assert s == [s[0]] + s[1..];
      assert forall m :: 0 <= m < |s[1..]| ==> le(s[0], s[1..][m]) by {
        forall m | 0 <= m < |s[1..]| ensures le(s[0], s[1..][m]) {
          assert s[1..][m] == s[m + 1];
        }
      }
      LowerBoundKept(s[0], rest, s[1..], x, le);
      [s[0]] + rest
  }

  /** A lower bound of `t` and of `x` bounds any arrangement of both. */
  lemma LowerBoundKept<T>(y: T, r: seq<T>, t: seq<T>, x: T, le: (T, T) -> bool)
    requires multiset(r) == multiset(t) + multiset{x}
    requires le(y, x) && forall m :: 0 <= m < |t| ==> le(y, t[m])
    ensures forall k :: 0 <= k < |r| ==> le(y, r[k])
  {
    forall k | 0 <= k < |r| ensures le(y, r[k]) {
      assert r[k] in multiset(r);
      if r[k] != x {
        assert r[k] in multiset(t);
        var m :| 0 <= m < |t| && t[m] == r[k];
      }
    }
  }

  /** `sorted(s, key=...)` with the comparison `le`. */
  function SortBy<T(!new)>(s: seq<T>, le: (T, T) -> bool): (r: seq<T>)
    requires TotalPreorder(le)
    ensures Sorted(r, le)
    ensures multiset(r) == multiset(s)
    ensures |r| == |s|
  {
    if |s| == 0 then []
    else
      assert s == [s[0]] + s[1..];
      Insert(s[0], SortBy(s[1..], le), le)
  }

  /** Under a total order there is exactly one ordered arrangement of a
      multiset of values. */
  lemma {:induction false} SortedUnique<T(!new)>(a: seq<T>, b: seq<T>, le: (T, T) -> bool)
    requires TotalPreorder(le) && Antisymmetric(le)
    requires Sorted(a, le) && Sorted(b, le)
    requires multiset(a) == multiset(b)
    ensures a == b
    decreases |a|
  {
    if |a| > 0 {
      assert |b| == |a| by { assert |multiset(a)| == |multiset(b)|; }
      SortedSameHead(a, b, le);
      SameTails(a, b);
      SortedSuffix(a, 1, le);
      SortedSuffix(b, 1, le);
      SortedUnique(a[1..], b[1..], le);
      SameHeadAndTail(a, b);
    }
  }

  lemma SortedSameHead<T(!new)>(a: seq<T>, b: seq<T>, le: (T, T) -> bool)
    requires TotalPreorder(le) && Antisymmetric(le)
    requires Sorted(a, le) && Sorted(b, le)
    requires multiset(a) == multiset(b) && |a| > 0
    ensures |b| > 0 && a[0] == b[0]
  {
    assert a[0] in multiset(b);
    assert b[0] in multiset(a);
    var i :| 0 <= i < |b| && b[i] == a[0];
    var j :| 0 <= j < |a| && a[j] == b[0];
    assert le(b[0], a[0]) by { if i > 0 { assert le(b[0], b[i]); } }
    assert le(a[0], b[0]) by { if j > 0 { assert le(a[0], a[j]); } }
  }

  lemma SameTails<T>(a: seq<T>, b: seq<T>)
    requires |a| > 0 && |b| > 0 && a[0] == b[0] && multiset(a) == multiset(b)
    ensures multiset(a[1..]) == multiset(b[1..])
  {
    assert a == [a[0]] + a[1..];
    assert b == [b[0]] + b[1..];
    assert multiset(a[1..]) == multiset(a) - multiset{a[0]};
    assert multiset(b[1..]) == multiset(b) - multiset{b[0]};
  }

  lemma SameHeadAndTail<T>(a: seq<T>, b: seq<T>)
    requires |a| > 0 && |b| > 0 && a[0] == b[0] && a[1..] == b[1..]
    ensures a == b
  {
    assert a == [a[0]] + a[1..];
    assert b == [b[0]] + b[1..];
  }

  /** Sorting under a total order forgets the input's arrangement. */
  lemma SortByPermutationInvariant<T(!new)>(s: seq<T>, t: seq<T>, le: (T, T) -> bool)
    requires TotalPreorder(le) && Antisymmetric(le)
    requires multiset(s) == multiset(t)
    ensures SortBy(s, le) == SortBy(t, le)
  {
    SortedUnique(SortBy(s, le), SortBy(t, le), le);
  }

  /** The elements of `s` that tie with `x` under `le`, in their order in `s`. */
  function Ties<T>(s: seq<T>, x: T, le: (T, T) -> bool): seq<T> {
    if |s| == 0 then []
    else (if le(x, s[0]) && le(s[0], x) then [s[0]] else []) + Ties(s[1..], x, le)
  }

  lemma {:induction false} TiesAppend<T>(a: seq<T>, b: seq<T>, x: T, le: (T, T) -> bool)
    ensures Ties(a + b, x, le) == Ties(a, x, le) + Ties(b, x, le)
    decreases |a|
  {
    if |a| > 0 {
      assert (a + b)[0] == a[0] && (a + b)[1..] == a[1..] + b;
      TiesAppend(a[1..], b, x, le);
    } else {
      assert a + b == b;
    }
  }

  lemma TiesCons<T>(h: T, t: seq<T>, y: T, le: (T, T) -> bool)
    ensures Ties([h] + t, y, le) == (if le(y, h) && le(h, y) then [h] else []) + Ties(t, y, le)
  {
    assert ([h] + t)[0] == h && ([h] + t)[1..] == t;
  }

  /** `Insert` puts `x` ahead of the elements it ties with and leaves every
      other tie class in place. */
  lemma {:induction false} InsertTies<T(!new)>(x: T, s: seq<T>, le: (T, T) -> bool, y: T)
    requires TotalPreorder(le) && Sorted(s, le)
    ensures Ties(Insert(x, s, le), y, le)
         == (if le(y, x) && le(x, y) then [x] else []) + Ties(s, y, le)
    decreases |s|
  {
    if |s| == 0 {
      TiesCons(x, s, y, le);
    } else {
      var head := s[0];
      assert s == [head] + s[1..];
      TiesCons(head, s[1..], y, le);
      if le(x, head) {
        TiesCons(x, s, y, le);
      } else {
        SortedSuffix(s, 1, le);
        InsertTies(x, s[1..], le, y);
        TiesCons(head, Insert(x, s[1..], le), y, le);
        assert !(le(y, x) && le(x, y) && le(y, head) && le(head, y));
      }
    }
  }

  /** `SortBy` is stable: within every tie class the output keeps the
      input's order, as Python's `sorted` does. */
  lemma {:induction false} SortByStable<T(!new)>(s: seq<T>, le: (T, T) -> bool, y: T)
    requires TotalPreorder(le)
    ensures Ties(SortBy(s, le), y, le) == Ties(s, y, le)
    decreases |s|
  {
    if |s| > 0 {
      SortByStable(s[1..], le, y);
      InsertTies(s[0], SortBy(s[1..], le), le, y);
    }
  }

  /** Every element of `m` that `p` leaves out comes no later than every
      element `p` keeps. */
  predicate LeftOutBefore<T>(m: multiset<T>, p: seq<T>, le: (T, T) -> bool) {
    forall x, y :: x in m - multiset(p) && y in p ==> le(x, y)
  }

  /** Every element of `m` that `p` leaves out comes no earlier than every
      element `p` keeps. */
  predicate LeftOutAfter<T>(m: multiset<T>, p: seq<T>, le: (T, T) -> bool) {
    forall x, y :: x in m - multiset(p) && y in p ==> le(y, x)
  }

  /** In an ordered sequence, every element left out of a prefix comes no
      earlier than every element kept. */
  lemma PrefixIsTop<T>(s: seq<T>, k: nat, le: (T, T) -> bool)
    requires Sorted(s, le) && k <= |s|
    ensures multiset(s[..k]) <= multiset(s)
    ensures LeftOutAfter(multiset(s), s[..k], le)
  {
    assert s == s[..k] + s[k..];
    assert multiset(s) == multiset(s[..k]) + multiset(s[k..]);
    forall x, y | x in multiset(s) - multiset(s[..k]) && y in s[..k] ensures le(y, x) {
      assert x in multiset(s[k..]);
      var i :| 0 <= i < |s[k..]| && s[k..][i] == x;
      var j :| 0 <= j < k && s[j] == y;
      assert s[k + i] == x;
    }
  }

  /** In an ordered sequence, every element left out of a suffix comes no
      later than every element kept. */
  lemma SuffixIsBottom<T>(s: seq<T>, k: nat, le: (T, T) -> bool)
    requires Sorted(s, le) && k <= |s|
    ensures multiset(s[k..]) <= multiset(s)
    ensures LeftOutBefore(multiset(s), s[k..], le)
  {
    assert s == s[..k] + s[k..];
    assert multiset(s) == multiset(s[..k]) + multiset(s[k..]);
    forall x, y | x in multiset(s) - multiset(s[k..]) && y in s[k..] ensures le(x, y) {
      assert x in multiset(s[..k]);
      var i :| 0 <= i < k && s[..k][i] == x;
      var j :| 0 <= j < |s[k..]| && s[k..][j] == y;
      assert s[i] == x && s[k + j] == y;
    }
  }

  /** The first `k` of the sorted arrangement: the `k` least elements,
      in order. */
  function SmallestK<T(==,!new)>(s: seq<T>, le: (T, T) -> bool, k: nat): (p: seq<T>)
    requires TotalPreorder(le) && k <= |s|
    ensures |p| == k
    ensures Sorted(p, le)
    ensures multiset(p) <= multiset(s)
    ensures LeftOutAfter(multiset(s), p, le)
    ensures forall y :: TiesPrefix(p, s, y, le)
  {
    var sorted := SortBy(s, le);
    PrefixIsTop(sorted, k, le);
    SortedPrefix(sorted, k, le);
    forall y ensures TiesPrefix(sorted[..k], s, y, le) {
      SortByStable(s, le, y);
      assert sorted == sorted[..k] + sorted[k..];
      TiesAppend(sorted[..k], sorted[k..], y, le);
    }
    sorted[..k]
  }

  /** Of the elements of `s` that tie with `y`, `p` holds the earliest ones,
      in the order `s` has them. */
  predicate TiesPrefix<T(==)>(p: seq<T>, s: seq<T>, y: T, le: (T, T) -> bool) {
    var t := Ties(p, y, le);
    |t| <= |Ties(s, y, le)| && t == Ties(s, y, le)[..|t|]
  }
}

=== FILE: summary.dfy ===
/** The ecosystem summary: for every configured repository with cached
    OpenRank and activity series, the 12-month means and OpenRank spread,
    normalised against the largest value across projects and combined into a
    health score; the five-minute in-memory cache in front of it; and the
    ranking endpoint built on top. The square root is a parameter: it is a
    floating-point library call. */
module Summary {
  import opened Base
  import opened Text
  import opened MetricUtils
  import opened Models
  import Sorting

  /** One entry of the configuration's `repositories` list. */
  datatype RepoInfo = RepoInfo(platform: string, org: string, repo: string, category: Option<string>)

  /** The `org/repo` name of a repository, as the sync job's failure
      record and the project listing use it: the platform is not part of
      it. */
  function RepoKey(info: RepoInfo): string {
    info.org + "/" + info.repo
  }

  function ProjectKey(info: RepoInfo): string {
    info.platform + "/" + info.org + "/" + info.repo
  }

  /** The per-project figures before normalisation. */
  datatype Raw = Raw(info: RepoInfo, openrankMean: real, openrankStd: real, activityMean: real)

  /** One project of the summary. */
  datatype Item = Item(
    platform: string, org: string, repo: string, projectKey: string, category: string,
    openrankMean: real, openrankStd: real, activityMean: real, health: real)

  /** The latest twelve monthly values of one cached series, or `None` when
      the table has no row for it. */
  function SeriesValues(store: Store, info: RepoInfo, metric: string): (vs: Option<seq<real>>)
    ensures vs.Some? <==> SeriesKey(info.platform, info.org, info.repo, metric) in store
    ensures vs.Some? ==> |vs.value| <= MonthsConsidered
  {
    var key := SeriesKey(info.platform, info.org, info.repo, metric);
    if key in store then Some(TailNValues(ToRecords(store[key]), MonthsConsidered)) else None
  }

  /** A project enters the summary exactly when both series are cached and
      both have at least one numeric value among their latest twelve months. */
  predicate HasData(store: Store, info: RepoInfo) {
    var o := SeriesValues(store, info, "openrank");
    var a := SeriesValues(store, info, "activity");
    o.Some? && a.Some? && o.value != [] && a.value != []
  }

  function Measure(store: Store, info: RepoInfo, sqrt: real -> real): (m: Option<Raw>)
    ensures m.Some? <==> HasData(store, info)
    ensures m.Some? ==> m.value.info == info
  {
    if !HasData(store, info) then None
    else
      var o := SeriesValues(store, info, "openrank").value;
      var a := SeriesValues(store, info, "activity").value;
      Some(Raw(info, Mean(o), sqrt(Variance(o)), Mean(a)))
  }

  function Measures(repos: seq<RepoInfo>, store: Store, sqrt: real -> real): (ms: seq<Option<Raw>>)
    ensures |ms| == |repos|
    ensures forall i :: 0 <= i < |repos| ==> ms[i] == Measure(store, repos[i], sqrt)
  {
    seq(|repos|, i requires 0 <= i < |repos| => Measure(store, repos[i], sqrt))
  }

  /** The measurable projects, in configuration order. */
  function Raws(repos: seq<RepoInfo>, store: Store, sqrt: real -> real): (raws: seq<Raw>)
    ensures |raws| <= |repos|
  {
    Present(Measures(repos, store, sqrt))
  }

  /** Every summarised project is a configured one with data. */
  lemma RawsHaveData(repos: seq<RepoInfo>, store: Store, sqrt: real -> real, r: Raw)
    requires r in Raws(repos, store, sqrt)
    ensures r.info in repos && HasData(store, r.info)
  {
    var ms := Measures(repos, store, sqrt);
    var i :| 0 <= i < |ms| && ms[i] == Some(r);
    assert Measure(store, repos[i], sqrt) == Some(r);
  }

  /** Every configured project with data is summarised. */
  lemma RawsComplete(repos: seq<RepoInfo>, store: Store, sqrt: real -> real, i: nat)
    requires i < |repos| && HasData(store, repos[i])
    ensures Measure(store, repos[i], sqrt).value in Raws(repos, store, sqrt)
  {
    assert Measures(repos, store, sqrt)[i].Some?;
  }

  /** The summary is empty exactly when no configured project has data. */
  lemma RawsEmptyIffNoData(repos: seq<RepoInfo>, store: Store, sqrt: real -> real)
    ensures Raws(repos, store, sqrt) == [] <==> forall i :: 0 <= i < |repos| ==> !HasData(store, repos[i])
  {
    var ms := Measures(repos, store, sqrt);
    if Raws(repos, store, sqrt) == [] {
      forall i | 0 <= i < |repos| ensures !HasData(store, repos[i]) {
        assert ms[i].None?;
      }
    } else {
      RawsHaveData(repos, store, sqrt, Raws(repos, store, sqrt)[0]);
    }
  }

  /** `x or 1.0`: a zero maximum is replaced by one. */
  function OrOne(x: real): real {
    if x == 0.0 then 1.0 else x
  }

  /** `x / m if m > 0 else 0.0`. */
  function Ratio(x: real, m: real): real {
    if m > 0.0 then x / m else 0.0
  }

  datatype Scale = Scale(openrank: real, activity: real, std: real)

  function Openranks(raws: seq<Raw>): (xs: seq<real>)
    ensures |xs| == |raws| && forall i :: 0 <= i < |raws| ==> xs[i] == raws[i].openrankMean
  {
    seq(|raws|, i requires 0 <= i < |raws| => raws[i].openrankMean)
  }

  function Activities(raws: seq<Raw>): (xs: seq<real>)
    ensures |xs| == |raws| && forall i :: 0 <= i < |raws| ==> xs[i] == raws[i].activityMean
  {
    seq(|raws|, i requires 0 <= i < |raws| => raws[i].activityMean)
  }

  function Deviations(raws: seq<Raw>): (xs: seq<real>)
    ensures |xs| == |raws| && forall i :: 0 <= i < |raws| ==> xs[i] == raws[i].openrankStd
  {
    seq(|raws|, i requires 0 <= i < |raws| => raws[i].openrankStd)
  }

  /** `m` is `max(xs) or 1.0`: the attained maximum when that is not zero,
      and 1.0 exactly when the maximum is zero. */
  predicate MaxOrOne(xs: seq<real>, m: real) {
    && (forall i :: 0 <= i < |xs| ==> xs[i] <= m)
    && ((m != 0.0 && exists i :: 0 <= i < |xs| && xs[i] == m)
        || (m == 1.0 && (exists i :: 0 <= i < |xs| && xs[i] == 0.0) && forall i :: 0 <= i < |xs| ==> xs[i] <= 0.0))
  }

  /** `MaxOf(xs) or 1.0` meets `MaxOrOne`. */
  function ScaleFor(xs: seq<real>): (m: real)
    requires |xs| > 0
    ensures MaxOrOne(xs, m)
  {
    var mx := MaxOf(xs);
    assert exists i :: 0 <= i < |xs| && xs[i] == mx;
    OrOne(mx)
  }

  /** The three maxima the summary is normalised by, each `or 1.0`. */
  function ScaleOf(raws: seq<Raw>): (sc: Scale)
    requires |raws| > 0
    ensures forall i :: 0 <= i < |raws| ==>
      raws[i].openrankMean <= sc.openrank && raws[i].activityMean <= sc.activity && raws[i].openrankStd <= sc.std
    ensures (exists i :: 0 <= i < |raws| && raws[i].openrankMean == sc.openrank) || sc.openrank == 1.0
    ensures MaxOrOne(Openranks(raws), sc.openrank)
    ensures MaxOrOne(Activities(raws), sc.activity)
    ensures MaxOrOne(Deviations(raws), sc.std)
  {
    var ors := Openranks(raws);
    var acts := Activities(raws);
    var stds := Deviations(raws);
    var sc := Scale(ScaleFor(ors), ScaleFor(acts), ScaleFor(stds));
    forall i | 0 <= i < |raws|
      ensures raws[i].openrankMean <= sc.openrank && raws[i].activityMean <= sc.activity
      ensures raws[i].openrankStd <= sc.std
    {
      assert ors[i] == raws[i].openrankMean && acts[i] == raws[i].activityMean && stds[i] == raws[i].openrankStd;
    }
    sc
  }

  function ItemOf(r: Raw, sc: Scale): Item {
    var stability := 1.0 - Ratio(r.openrankStd, sc.std);
    Item(r.info.platform, r.info.org, r.info.repo, ProjectKey(r.info), r.info.category.GetOr("unknown"),
         r.openrankMean, r.openrankStd, r.activityMean,
         HealthScore(Ratio(r.openrankMean, sc.openrank), Ratio(r.activityMean, sc.activity), stability, None))
  }

  /** Every project scored against the same maxima. */
  function Normalize(raws: seq<Raw>): (items: seq<Item>)
    requires |raws| > 0
    ensures |items| == |raws|
    ensures forall i :: 0 <= i < |raws| ==>
      && items[i].projectKey == ProjectKey(raws[i].info)
      && items[i].openrankMean == raws[i].openrankMean
      && items[i].activityMean == raws[i].activityMean
      && items[i].openrankStd == raws[i].openrankStd
    ensures var sc := ScaleOf(raws);
      forall i :: 0 <= i < |raws| ==>
        items[i].health == HealthScore(Ratio(raws[i].openrankMean, sc.openrank), Ratio(raws[i].activityMean, sc.activity),
                                       1.0 - Ratio(raws[i].openrankStd, sc.std), None)
  {
    var sc := ScaleOf(raws);
    seq(|raws|, i requires 0 <= i < |raws| => ItemOf(raws[i], sc))
  }

  lemma NormalizedUnit(x: real, m: real)
    requires 0.0 <= x && x <= m
    ensures Unit(Ratio(x, m))
  {
    if m > 0.0 {
      assert x / m <= 1.0 by {
        assert x / m * m == x;
      }
    }
  }

  /** Non-negative figures put every health score in [0, 1]. */
  lemma ScoresInUnit(raws: seq<Raw>, i: nat)
    requires |raws| > 0 && i < |raws|
    requires forall k :: 0 <= k < |raws| ==>
      raws[k].openrankMean >= 0.0 && raws[k].activityMean >= 0.0 && raws[k].openrankStd >= 0.0
    ensures Unit(Normalize(raws)[i].health)
  {
    var sc := ScaleOf(raws);
    var r := raws[i];
    NormalizedUnit(r.openrankMean, sc.openrank);
    NormalizedUnit(r.activityMean, sc.activity);
    NormalizedUnit(r.openrankStd, sc.std);
    assert Normalize(raws)[i] == ItemOf(r, sc);
  }

  lemma RatioMonotone(x1: real, x2: real, m: real)
    requires x1 <= x2
    ensures Ratio(x1, m) <= Ratio(x2, m)
  {
    if m > 0.0 {
      assert x2 / m - x1 / m == (x2 - x1) / m;
    }
  }

  /** Within one summary, a project at least as large and active as another
      and no more volatile scores at least as high. */
  lemma DominantProjectScoresHigher(raws: seq<Raw>, i: nat, j: nat)
    requires |raws| > 0 && i < |raws| && j < |raws|
    requires raws[i].openrankMean >= raws[j].openrankMean
    requires raws[i].activityMean >= raws[j].activityMean
    requires raws[i].openrankStd <= raws[j].openrankStd
    ensures Normalize(raws)[i].health >= Normalize(raws)[j].health
  {
    var sc := ScaleOf(raws);
    RatioMonotone(raws[j].openrankMean, raws[i].openrankMean, sc.openrank);
    RatioMonotone(raws[j].activityMean, raws[i].activityMean, sc.activity);
    RatioMonotone(raws[i].openrankStd, raws[j].openrankStd, sc.std);
    assert Normalize(raws)[i] == ItemOf(raws[i], sc);
    assert Normalize(raws)[j] == ItemOf(raws[j], sc);
    HealthScoreMonotone(
      Ratio(raws[j].openrankMean, sc.openrank), Ratio(raws[j].activityMean, sc.activity), 1.0 - Ratio(raws[j].openrankStd, sc.std),
      Ratio(raws[i].openrankMean, sc.openrank), Ratio(raws[i].activityMean, sc.activity), 1.0 - Ratio(raws[i].openrankStd, sc.std));
  }

  lemma RatioSelf(x: real)
    requires x > 0.0
    ensures Ratio(x, x) == 1.0
  {
  }

  /** A lone project's scales are its own figures, `or 1.0`. */
  lemma LoneScale(r: Raw)
    requires r.openrankMean > 0.0 && r.activityMean > 0.0
    ensures ScaleOf([r]) == Scale(r.openrankMean, r.activityMean, OrOne(r.openrankStd))
  {
    assert Openranks([r])[0] == r.openrankMean;
    assert Activities([r])[0] == r.activityMean;
    assert Deviations([r])[0] == r.openrankStd;
  }

  /** A project alone in the summary is its own maximum: it scores 0.8 when
      its OpenRank varies (stability 0) and 1.0 when it is constant. */
  lemma LoneProjectScore(r: Raw)
    requires r.openrankMean > 0.0 && r.activityMean > 0.0 && r.openrankStd >= 0.0
    ensures r.openrankStd > 0.0 ==> Normalize([r])[0].health == 0.8
    ensures r.openrankStd == 0.0 ==> Normalize([r])[0].health == 1.0
  {
    LoneScale(r);
    var sc := Scale(r.openrankMean, r.activityMean, OrOne(r.openrankStd));
    var stab := 1.0 - Ratio(r.openrankStd, sc.std);
    assert Normalize([r])[0].health == HealthScore(Ratio(r.openrankMean, sc.openrank), Ratio(r.activityMean, sc.activity), stab, None);
    RatioSelf(r.openrankMean);
    RatioSelf(r.activityMean);
    if r.openrankStd > 0.0 {
      RatioSelf(r.openrankStd);
      assert stab == 0.0;
    } else {
      assert stab == 1.0;
    }
  }

  // ---------------------------------------------------------------------
  // The summary endpoint

  datatype SummaryError =
    | ConfigUnreadable     // the configuration file cannot be read or parsed
    | NoRepositories       // it lists no repository
    | NoProjectData        // no listed repository has usable cached data
  {
    function Status(): int {
      match this
      case ConfigUnreadable => 500
      case NoRepositories => 404
      case NoProjectData => 404
    }
  }

  /** `compute_llm_summary_from_db`, with the configured repository list
      (`None` when the configuration cannot be read). */
  function ComputeSummary(repos: Option<seq<RepoInfo>>, store: Store, sqrt: real -> real): (r: Result<seq<Item>, SummaryError>)
    ensures r == Err(ConfigUnreadable) <==> repos.None?
    ensures r == Err(NoRepositories) <==> repos == Some([])
    ensures r == Err(NoProjectData) <==> repos.Some? && repos.value != [] && Raws(repos.value, store, sqrt) == []
    ensures r.Ok? ==> 0 < |r.value| <= |repos.value| && r.value == Normalize(Raws(repos.value, store, sqrt))
  {
    match repos
    case None => Err(ConfigUnreadable)
    case Some(rs) =>
      if rs == [] then Err(NoRepositories)
      else
        var raws := Raws(rs, store, sqrt);
        if raws == [] then Err(NoProjectData) else Ok(Normalize(raws))
  }

  /** `generate_llm_summary_db`, the batch job's copy of the computation:
      `None` when nothing was written. */
  function GenerateSummary(repos: seq<RepoInfo>, store: Store, sqrt: real -> real): (items: Option<seq<Item>>)
    ensures items.Some? ==> |items.value| > 0
  {
    var raws := Raws(repos, store, sqrt);
    if raws == [] then None else Some(Normalize(raws))
  }

  /** The batch job writes exactly what the endpoint would answer, and
      writes nothing exactly when the endpoint would fail. */
  lemma BatchAgreesWithEndpoint(repos: seq<RepoInfo>, store: Store, sqrt: real -> real)
    ensures GenerateSummary(repos, store, sqrt).Some? <==> ComputeSummary(Some(repos), store, sqrt).Ok?
    ensures GenerateSummary(repos, store, sqrt).Some? ==>
      GenerateSummary(repos, store, sqrt).value == ComputeSummary(Some(repos), store, sqrt).value
  {
  }

  // ---------------------------------------------------------------------
  // The five-minute cache

  const SummaryTtlSeconds := 300

  /** The module-level cache: when it was filled (`None` before the first
      computation) and what with. */
  datatype SummaryCache = SummaryCache(ts: Option<int>, data: seq<Item>)

  predicate CacheFresh(cache: SummaryCache, now: int) {
    cache.ts.Some? && now - cache.ts.value < SummaryTtlSeconds
  }

  /** `get_llm_summary_cached`: a fresh cache answers unless `force`;
      otherwise the summary is recomputed and, on success, stored with the
      time. A failed computation leaves the cache as it was. */
  function SummaryCached(cache: SummaryCache, force: bool, repos: Option<seq<RepoInfo>>, store: Store,
                         sqrt: real -> real, now: int): (out: (Result<seq<Item>, SummaryError>, SummaryCache))
    ensures !force && CacheFresh(cache, now) ==> out == (Ok(cache.data), cache)
    ensures force || !CacheFresh(cache, now) ==> out.0 == ComputeSummary(repos, store, sqrt)
    ensures out.0.Err? ==> out.1 == cache
    ensures (force || !CacheFresh(cache, now)) && out.0.Ok? ==> out.1 == SummaryCache(Some(now), out.0.value)
  {
    if !force && CacheFresh(cache, now) then (Ok(cache.data), cache)
    else
      match ComputeSummary(repos, store, sqrt)
      case Ok(items) => (Ok(items), SummaryCache(Some(now), items))
      case Err(e) => (Err(e), cache)
  }

  /** A recomputed summary is what every unforced call within five minutes
      returns, whatever the configuration and the table say by then. */
  lemma RecomputedSummaryIsServed(cache: SummaryCache, force: bool, repos: Option<seq<RepoInfo>>, store: Store,
                                  sqrt: real -> real, now: int,
                                  repos': Option<seq<RepoInfo>>, store': Store, now': int)
    requires force || !CacheFresh(cache, now)
    requires SummaryCached(cache, force, repos, store, sqrt, now).0.Ok?
    requires now <= now' < now + SummaryTtlSeconds
    ensures var first := SummaryCached(cache, force, repos, store, sqrt, now);
      SummaryCached(first.1, false, repos', store', sqrt, now') == (first.0, first.1)
  {
  }

  /** `GET /llm/summary`: `refresh` set to 1/true/yes (any case) bypasses
      the cache. */
  function SummaryEndpoint(refresh: Option<string>, cache: SummaryCache, repos: Option<seq<RepoInfo>>,
                           store: Store, sqrt: real -> real, now: int): (out: (Result<seq<Item>, SummaryError>, SummaryCache))
    ensures FlagSet(refresh) ==> out.0 == ComputeSummary(repos, store, sqrt)
    ensures !FlagSet(refresh) && CacheFresh(cache, now) ==> out == (Ok(cache.data), cache)
  {
    SummaryCached(cache, FlagSet(refresh), repos, store, sqrt, now)
  }

  // ---------------------------------------------------------------------
  // Ranking

  const RankMetrics: set<string> := {"health_score", "openrank_mean_12m", "activity_mean_12m"}

  const DefaultTop := 10

  /** The figure a ranking sorts by (0.0 for a field an item lacks). */
  function MetricOf(item: Item, metric: string): real {
    if metric == "health_score" then item.health
    else if metric == "openrank_mean_12m" then item.openrankMean
    else if metric == "activity_mean_12m" then item.activityMean
    else 0.0
  }

  /** Descending by the chosen figure. */
  function RankLe(metric: string): (Item, Item) -> bool {
    (a: Item, b: Item) => MetricOf(a, metric) >= MetricOf(b, metric)
  }

  lemma RankOrderIsPreorder(metric: string)
    ensures Sorting.TotalPreorder(RankLe(metric))
  {
  }

  /** How many elements Python's `s[:top]` keeps of a list of `len`: a
      negative `top` drops that many from the end. */
  function SliceEnd(len: nat, top: int): (k: nat)
    ensures k <= len
    ensures top >= 0 ==> k == Min(top, len)
    ensures top < 0 ==> k + Min(-top, len) == len
  {
    if top >= 0 then Min(top, len)
    else if len + top > 0 then len + top
    else 0
  }

  datatype Ranking = Ranking(metric: string, top: int, projects: seq<Item>)

  datatype RankError =
    | UnsupportedMetric(metric: string)
    | SummaryFailed(cause: SummaryError)
  {
    function Status(): int {
      match this
      case UnsupportedMetric(_) => 400
      case SummaryFailed(cause) => cause.Status()
    }
  }

  /** `sorted(data, key=metric, reverse=True)[:top]`: the answer is
      ordered, drawn from `data`, no item left out ranks above one kept,
      and among items with equal scores the earliest in `data` are kept,
      in their order there. */
  function TopByMetric(data: seq<Item>, metric: string, top: int): (p: seq<Item>)
    ensures |p| == SliceEnd(|data|, top)
    ensures Sorting.Sorted(p, RankLe(metric))
    ensures multiset(p) <= multiset(data)
    ensures Sorting.LeftOutAfter(multiset(data), p, RankLe(metric))
    ensures forall y :: Sorting.TiesPrefix(p, data, y, RankLe(metric))
  {
    RankOrderIsPreorder(metric);
    Sorting.SmallestK(data, RankLe(metric), SliceEnd(|data|, top))
  }

  /** `GET /llm/rank/<metric>`: an unknown metric is refused before the
      cache is consulted; otherwise the (cached) summary is ranked by the
      metric and cut to `top` (10 when absent or not an integer). */
  function Rank(metric: string, top: Option<int>, refresh: Option<string>, cache: SummaryCache,
                repos: Option<seq<RepoInfo>>, store: Store, sqrt: real -> real, now: int)
    : (out: (Result<Ranking, RankError>, SummaryCache))
    ensures metric !in RankMetrics ==> out == (Err(UnsupportedMetric(metric)), cache)
    ensures metric in RankMetrics ==>
      var summary := SummaryEndpoint(refresh, cache, repos, store, sqrt, now);
      && out.1 == summary.1
      && (summary.0.Err? ==> out.0 == Err(SummaryFailed(summary.0.error)))
      && (summary.0.Ok? ==> out.0 == Ok(Ranking(metric, top.GetOr(DefaultTop),
                                                 TopByMetric(summary.0.value, metric, top.GetOr(DefaultTop)))))
  {
    if metric !in RankMetrics then (Err(UnsupportedMetric(metric)), cache)
    else
      var summary := SummaryEndpoint(refresh, cache, repos, store, sqrt, now);
      match summary.0
      case Err(e) => (Err(SummaryFailed(e)), summary.1)
      case Ok(data) =>
        var t := top.GetOr(DefaultTop);
        (Ok(Ranking(metric, t, TopByMetric(data, metric, t))), summary.1)
  }
}

=== FILE: text.dfy ===
/** String helpers with Python/JavaScript semantics: `strip()`/`trim()`,
    `split`, `join`, `count`, code-point ordering and decimal rendering. */
module Text {
  import opened Base

  /** The characters Python's `str.isspace` accepts, which is what `strip()` removes. */
  predicate IsSpace(c: char) {
    ('\U{09}' <= c <= '\U{0D}') || ('\U{1C}' <= c <= '\U{20}')
    || c == '\U{85}' || c == '\U{A0}' || c == '\U{1680}'
    || ('\U{2000}' <= c <= '\U{200A}')
    || c == '\U{2028}' || c == '\U{2029}' || c == '\U{202F}' || c == '\U{205F}' || c == '\U{3000}'
  }

  predicate AllSpace(s: string) {
    forall i :: 0 <= i < |s| ==> IsSpace(s[i])
  }

  /** Drops leading whitespace; the result is a suffix of `s`. */
  function TrimStart(s: string): (r: string)
    ensures |r| <= |s| && r == s[|s| - |r|..]
    ensures |r| > 0 ==> !IsSpace(r[0])
  {
    if |s| > 0 && IsSpace(s[0]) then TrimStart(s[1..]) else s
  }

  /** What `TrimStart` drops is whitespace. */
  lemma {:induction false} TrimStartDropsSpace(s: string)
    ensures AllSpace(s[..|s| - |TrimStart(s)|])
    decreases |s|
  {
    if |s| > 0 && IsSpace(s[0]) {
      TrimStartDropsSpace(s[1..]);
      var k := |s| - |TrimStart(s)|;
      assert forall i :: 1 <= i < k ==> s[i] == s[1..][..k - 1][i - 1];
    }
  }

  /** Drops trailing whitespace; the result is a prefix of `s`. */
  function TrimEnd(s: string): (r: string)
    ensures |r| <= |s| && r == s[..|r|]
    ensures |r| > 0 ==> !IsSpace(r[|r| - 1])
  {
    if |s| > 0 && IsSpace(s[|s| - 1]) then TrimEnd(s[..|s| - 1]) else s
  }

  /** What `TrimEnd` drops is whitespace. */
  lemma {:induction false} TrimEndDropsSpace(s: string)
    ensures AllSpace(s[|TrimEnd(s)|..])
    decreases |s|
  {
    if |s| > 0 && IsSpace(s[|s| - 1]) {
      var n := |s| - 1;
      TrimEndDropsSpace(s[..n]);
      var k := |TrimEnd(s)|;
      assert forall i :: k <= i < n ==> s[i] == s[..n][k..][i - k];
    }
  }

  /** Python `s.strip()` / JavaScript `s.trim()`: the input with its white
      space removed from both ends and nothing else. */
  function Trim(s: string): (r: string)
    ensures |r| > 0 ==> !IsSpace(r[0]) && !IsSpace(r[|r| - 1])
    ensures |r| <= |s|
    ensures exists i, j :: 0 <= i <= j <= |s| && r == s[i..j] && AllSpace(s[..i]) && AllSpace(s[j..])
  {
    TrimDropsOnlyEnds(s);
    TrimEnd(TrimStart(s))
  }

  lemma TrimDropsOnlyEnds(s: string)
    ensures exists i, j :: 0 <= i <= j <= |s| && TrimEnd(TrimStart(s)) == s[i..j] && AllSpace(s[..i]) && AllSpace(s[j..])
  {
    var t := TrimStart(s);
    var r := TrimEnd(t);
    var i := |s| - |t|;
    var j := i + |r|;
    SliceOfSuffix(s, i, t, r);
    TrimStartDropsSpace(s);
    TrimEndDropsSpace(t);
  }

  /** A prefix `r` of the suffix `t == s[i..]` is the slice `s[i..i + |r|]`,
      and what follows it in `t` is what follows it in `s`. */
  lemma SliceOfSuffix<T>(s: seq<T>, i: nat, t: seq<T>, r: seq<T>)
    requires i <= |s| && t == s[i..] && |r| <= |t| && r == t[..|r|]
    ensures r == s[i..i + |r|] && s[i + |r|..] == t[|r|..]
  {
  }

  lemma {:induction false} TrimEndKeepsNonSpaceHead(t: string)
    requires |t| > 0 && !IsSpace(t[0])
    ensures |TrimEnd(t)| > 0
    decreases |t|
  {
    if IsSpace(t[|t| - 1]) {
      TrimEndKeepsNonSpaceHead(t[..|t| - 1]);
    }
  }

  /** A trimmed string is empty exactly when the input was all whitespace. */
  lemma TrimEmptyIffAllSpace(s: string)
    ensures Trim(s) == "" <==> AllSpace(s)
  {
    var t := TrimStart(s);
    if |t| > 0 {
      TrimEndKeepsNonSpaceHead(t);
      assert t[0] == s[|s| - |t|];
    } else {
      TrimStartDropsSpace(s);
      assert s[..|s|] == s;
    }
  }

  /** Stripping never introduces a character. */
  lemma TrimKeepsOut(s: string, c: char)
    requires c !in s
    ensures c !in Trim(s)
  {
    var t := TrimStart(s);
    NotInSlice(s, c, |s| - |t|, |s|);
    assert t == s[|s| - |t|..|s|];
    var r := TrimEnd(t);
    NotInSlice(t, c, 0, |r|);
  }

  lemma NotInSlice(s: string, c: char, a: nat, b: nat)
    requires c !in s && a <= b <= |s|
    ensures c !in s[a..b]
  {
    forall i | 0 <= i < b - a ensures s[a..b][i] != c {
      assert s[a..b][i] == s[a + i];
    }
  }

  /** A string that starts and ends with non-space is already stripped. */
  lemma TrimKeepsNonSpaceEnds(s: string)
    requires |s| > 0 ==> !IsSpace(s[0]) && !IsSpace(s[|s| - 1])
    ensures Trim(s) == s
  {
    assert TrimStart(s) == s by {
      if |s| > 0 {
        assert !IsSpace(s[0]);
      }
    }
    assert TrimEnd(s) == s by {
      if |s| > 0 {
        assert !IsSpace(s[|s| - 1]);
      }
    }
  }

  /** Stripping twice is stripping once. */
  lemma TrimIdempotent(s: string)
    ensures Trim(Trim(s)) == Trim(s)
  {
    var r := Trim(s);
    assert TrimStart(r) == r;
    assert TrimEnd(r) == r;
  }

  /** `s.count(c)` for a one-character separator. */
  function Count(s: string, c: char): (n: nat)
    ensures n <= |s|
    ensures n == 0 <==> c !in s
  {
    if |s| == 0 then 0 else (if s[0] == c then 1 else 0) + Count(s[1..], c)
  }

  /** Position of the first occurrence of `c`. */
  function IndexOf(s: string, c: char): (i: nat)
    requires c in s
    ensures i < |s| && s[i] == c && c !in s[..i]
  {
    if s[0] == c then 0 else 1 + IndexOf(s[1..], c)
  }

  lemma CountSplitsAt(s: string, c: char, i: nat)
    requires i < |s| && s[i] == c && c !in s[..i]
    ensures Count(s, c) == 1 + Count(s[i + 1..], c)
  {
    if i > 0 {
      assert s[0] != c by { assert s[0] == s[..i][0]; }
      assert s[1..][..i - 1] == s[..i][1..];
      CountSplitsAt(s[1..], c, i - 1);
      assert s[1..][i..] == s[i + 1..];
    }
  }

  /** Python `s.split(c)`: the pieces between the occurrences of `c`.
      There is always one more piece than separators, and no piece holds
      the separator. */
  function Split(s: string, c: char): (parts: seq<string>)
    ensures |parts| == Count(s, c) + 1
    ensures forall i :: 0 <= i < |parts| ==> c !in parts[i]
    decreases |s|
  {
    if c !in s then [s]
    else
      var i := IndexOf(s, c);
      CountSplitsAt(s, c, i);
      [s[..i]] + Split(s[i + 1..], c)
  }

  /** `sep.join(parts)`. */
  function Join(parts: seq<string>, sep: string): string {
    if |parts| == 0 then ""
    else if |parts| == 1 then parts[0]
    else parts[0] + sep + Join(parts[1..], sep)
  }

  /** Joining the pieces of a split with the separator restores the string. */
  lemma {:induction false} SplitJoin(s: string, c: char)
    ensures Join(Split(s, c), [c]) == s
    decreases |s|
  {
    if c in s {
      var i := IndexOf(s, c);
      SplitJoin(s[i + 1..], c);
      assert s == s[..i] + [c] + s[i + 1..];
    }
  }

  /** The first piece of a split is the text before the first separator. */
  lemma SplitHead(s: string, c: char)
    ensures Split(s, c)[0] == (if c in s then s[..IndexOf(s, c)] else s)
  {
  }

  /** Python/JavaScript ordering of strings: lexicographic by code point,
      a proper prefix coming first. */
  predicate LexLe(a: string, b: string) {
    |a| == 0 || (|b| > 0 && (a[0] < b[0] || (a[0] == b[0] && LexLe(a[1..], b[1..]))))
  }

  lemma {:induction false} LexTotal(a: string, b: string)
    ensures LexLe(a, b) || LexLe(b, a)
  {
    if |a| > 0 && |b| > 0 && a[0] == b[0] {
      LexTotal(a[1..], b[1..]);
    }
  }

  lemma {:induction false} LexTransitive(a: string, b: string, c: string)
    requires LexLe(a, b) && LexLe(b, c)
    ensures LexLe(a, c)
  {
    if |a| > 0 && a[0] == b[0] && b[0] == c[0] {
      LexTransitive(a[1..], b[1..], c[1..]);
    }
  }

  lemma {:induction false} LexAntisymmetric(a: string, b: string)
    requires LexLe(a, b) && LexLe(b, a)
    ensures a == b
  {
    if |a| > 0 {
      LexAntisymmetric(a[1..], b[1..]);
      assert a == [a[0]] + a[1..];
      assert b == [b[0]] + b[1..];
    }
  }

  /** Python `x or default` on an optional string: `None` and `""` fall back. */
  function Or(o: Option<string>, default: string): (r: string)
    ensures o.Some? && o.value != "" ==> r == o.value
    ensures o.None? || o.value == "" ==> r == default
  {
    if o.Some? && o.value != "" then o.value else default
  }

  /** Python `str(x)` for an optional string: `None` renders as "None". */
  function Show(o: Option<string>): string {
    match o
    case Some(s) => s
    case None => "None"
  }

  function DigitChar(d: nat): char
    requires d < 10
  {
    "0123456789"[d]
  }

  /** Decimal rendering of a natural number, most significant digit first. */
  function NatToString(n: nat): (r: string)
    ensures |r| > 0
    ensures forall i :: 0 <= i < |r| ==> '0' <= r[i] <= '9'
  {
    if n < 10 then [DigitChar(n)] else NatToString(n / 10) + [DigitChar(n % 10)]
  }

  /** Python `str(n)` for an integer. */
  function IntToString(n: int): string {
    if n < 0 then "-" + NatToString(-n) else NatToString(n)
  }

  /** Python `str.lower()` restricted to ASCII letters, which is all the
      flags compared against it can contain. */
  function AsciiLower(s: string): (r: string)
    ensures |r| == |s|
    ensures forall i :: 0 <= i < |s| ==> (if 'A' <= s[i] <= 'Z' then r[i] as int == s[i] as int + 32 else r[i] == s[i])
  {
    if s == [] then []
    else [if 'A' <= s[0] <= 'Z' then (s[0] as int + 32) as char else s[0]] + AsciiLower(s[1..])
  }

  /** A query flag `1`, `true` or `yes` in any letter case; "0" when absent. */
  predicate FlagSet(arg: Option<string>) {
    AsciiLower(arg.GetOr("0")) in {"1", "true", "yes"}
  }

  /** Letter case does not matter; other words and padding do. */
  lemma FlagSpellings()
    ensures FlagSet(Some("TRUE")) && FlagSet(Some("Yes")) && FlagSet(Some("1"))
    ensures !FlagSet(None) && !FlagSet(Some("on")) && !FlagSet(Some(" 1"))
  {
    FlagAccepted();
    FlagAbsent();
    FlagOn();
    FlagPadded();
  }

  lemma FlagAccepted()
    ensures FlagSet(Some("TRUE")) && FlagSet(Some("Yes")) && FlagSet(Some("1"))
  {
    assert AsciiLower("TRUE") == "true";
    assert AsciiLower("Yes") == "yes";
    assert AsciiLower("1") == "1";
  }
  lemma FlagAbsent() ensures !FlagSet(None) { assert AsciiLower("0") == "0"; }
  lemma FlagOn() ensures !FlagSet(Some("on")) { assert AsciiLower("on") == "on"; }
  lemma FlagPadded() ensures !FlagSet(Some(" 1")) { assert AsciiLower(" 1") == " 1"; }
}
